=== FILE: README.md ===
# ClassGenerator proxy declarations, modelled in Dafny

REFramework's C# API generates, for every type of a game's managed
(IL2CPP / RE Engine) runtime, a C# proxy declaration that scripts compile
against. `ClassGenerator` does this for one reflected type:

- **First phase (constructor).**
  - It walks the type's own methods (the prefix of its method list whose declaring type is the type itself).
  - It groups `get_X`/`set_X` accessors into pseudo-properties keyed by `X`, with `get_Item`/`set_Item` becoming an indexer.
  - Every other method is kept as an ordinary method.
  - It then walks the type's own fields. It keeps each field, cleans `<N>k__BackingField` to `N`, and removes the property `N` and the methods `get_N`/`set_N`: fields win.
- **Reference types (`Generate`)** become a public `interface`:
  - `new` when a parent declares a nested type of that name;
  - a base list holding at most the nearest generated ancestor;
  - one method per valid method, deduplicated by an overload signature key. Static methods get a thunk body that calls a cached `REFrameworkNET.Method` handle;
  - one property facade per valid field, with static facades reading through a cached field handle;
  - one property or indexer per pseudo-property;
  - a `REFType` field, followed by the cached handles;
  - the nested types.
- **Value types (`GenerateValueType`)** become a public `struct` with explicit layout:
  - one field per instance field, at its offset;
  - one unsafe method per valid method, whose body packs the arguments into a buffer of 64-bit slots, calls the runtime directly on the pinned value and unpacks the raw result;
  - the properties;
  - the `REFType` field and the handles;
  - the nested types.
- **Nested types (`GenerateNestedTypes`).** For every nested type with an acceptable name:
  - an enum adds its array types and its enum declaration;
  - any other type runs a whole new generator, then adds its array types and its declaration.

Syntax trees are replaced by plain records (`TypeDecl`, `MemberDecl`, `Stmt`, `Accessor`, `Attr`). A type expression is a keyword or a name. An exception the generator can raise is a `Result` value.

Modules follow the stages of the generator:

| file | module | contents |
|---|---|---|
| `strings.dfy` | `Strings` | .NET string helpers |
| `metadata.dfy` | `Metadata` | the reflected metadata and the generator's environment tables |
| `declarations.dfy` | `Declarations` | the emitted records |
| `type_names.dfy` | `TypeNames` | `MakeProperType` |
| `property_inference.dfy` | `PropertyInference` | the first phase, as functions |
| `filters.dfy` | `Filters` | `GetValidFields`, `GetValidMethods` |
| `signatures.dfy` | `Signatures` | the parameter walk and the overload key |
| `ref_methods.dfy` | `RefMethods` | `GenerateMethods` |
| `ref_fields.dfy` | `RefFields` | `GenerateFields` |
| `properties.dfy` | `Properties` | `GenerateProperties` |
| `value_types.dfy` | `ValueTypes` | `GenerateValueTypeFields`, `GenerateValueTypeMethods`, `GenerateReturnValueHandler` |
| `type_spec.dfy` | `TypeSpec` | the base-type walk and the whole output of a generator, as functions |
| `class_generator.dfy` | `Generator` | the generator object |

`Generator.ClassGenerator` is the generator itself: a class whose fields are those of the source. Its loops are proved against the functions of the other modules.

## Model

All source paths are relative to the repository root.

| member | source | states |
|---|---|---|
| Strings.IndexOf | csharp-api/AssemblyGenerator/ClassGenerator.cs:149 | -1 when the pattern does not occur, otherwise the first position where it occurs |
| Strings.LastSegment | csharp-api/AssemblyGenerator/ClassGenerator.cs:271 | the result is a suffix of the name, contains no '.', and is preceded by a '.' whenever it is shorter than the name |
| Strings.NatToString | csharp-api/AssemblyGenerator/ClassGenerator.cs:958 | the rendering of a counter is a non-empty string of decimal digits |
| Strings.NatToStringValue | csharp-api/AssemblyGenerator/ClassGenerator.cs:958 | the rendering has no leading zero and its decimal value is the counter |
| Metadata.FirstFieldNamed | csharp-api/AssemblyGenerator/ClassGenerator.cs:700-701 | FindField finds a field of the list with that name, or reports that none has it |
| Metadata.FirstMethodNamed | csharp-api/AssemblyGenerator/ClassGenerator.cs:702-703 | FindMethod finds a method of the list with that name, or reports that none has it |
| Metadata.OwnMethods | csharp-api/AssemblyGenerator/ClassGenerator.cs:65-69 | the own methods are the prefix up to the first method declared elsewhere: all of the prefix is declared by the type, and the next method is not |
| Metadata.OwnFields | csharp-api/AssemblyGenerator/ClassGenerator.cs:129-133 | the same boundary for fields |
| Metadata.OwnMethodsUnique | csharp-api/AssemblyGenerator/ClassGenerator.cs:65-69 | any prefix of own methods that stops at the end or at a foreign method is the own-method prefix |
| Metadata.OwnFieldsUnique | csharp-api/AssemblyGenerator/ClassGenerator.cs:129-133 | any prefix of own fields that stops at the end or at a foreign field is the own-field prefix |
| Declarations.Extend | csharp-api/AssemblyGenerator/ClassGenerator.cs:345 | AddMembers keeps the old members in front, appends the new ones after them, and changes nothing else |
| Declarations.AddIfAny | csharp-api/AssemblyGenerator/ClassGenerator.cs:350-352 | the `Count > 0` guard on the cached handles changes nothing: the result is plain AddMembers |
| TypeNames.PrimitiveKeyword | csharp-api/AssemblyGenerator/ClassGenerator.cs:176-221 | the fixed table never yields `void` |
| TypeNames.KeywordTableSound | csharp-api/AssemblyGenerator/ClassGenerator.cs:176-221 | whatever keyword the table gives a name, the name is one of that keyword's runtime names (an independent listing) |
| TypeNames.KeywordTableComplete | csharp-api/AssemblyGenerator/ClassGenerator.cs:176-221 | every runtime name of a keyword is sent to that keyword, e.g. IntPtr to long, UIntPtr to ulong, via.clr.ManagedObject to object |
| TypeNames.KeywordTableInverse | csharp-api/AssemblyGenerator/ClassGenerator.cs:176-221 | table and listing agree in both directions |
| TypeNames.MakeProperType | csharp-api/AssemblyGenerator/ClassGenerator.cs:161-240 | `void` exactly for a null target or a sanitised name that is empty or System.Void; otherwise the table keyword whenever the name (after the full rename) is in the table, and a keyword only then; `object` for a name outside the table whose type is outside validTypes; otherwise exactly `global::` + the corrected name |
| TypeNames.NeverVoidForNamedType | csharp-api/AssemblyGenerator/ClassGenerator.cs:167-169 | a type whose sanitised name is neither empty nor System.Void never resolves to `void`: it becomes a keyword or a `global::` name |
| PropertyInference.InferredKeys | csharp-api/AssemblyGenerator/ClassGenerator.cs:80-123 | a property exists exactly for the names some accessor (getter, setter, indexer getter or indexer setter) supplies |
| PropertyInference.GetterStep | csharp-api/AssemblyGenerator/ClassGenerator.cs:80-101 | one iteration sets the getter of a name exactly when the method is a getter of it, and keeps it otherwise |
| PropertyInference.SetterStep | csharp-api/AssemblyGenerator/ClassGenerator.cs:102-123 | one iteration sets the setter of a name exactly when the method is a setter of it, and keeps it otherwise |
| PropertyInference.IndexerStep | csharp-api/AssemblyGenerator/ClassGenerator.cs:90-122 | one iteration marks a name as an indexer exactly when the method is an indexer accessor, recording parameter 0 as the index type |
| PropertyInference.AccessorRecordsType | csharp-api/AssemblyGenerator/ClassGenerator.cs:89 | an accessor records its value type (the getter's return type, or the setter's value parameter) in its property |
| PropertyInference.OtherMethodKeepsProperty | csharp-api/AssemblyGenerator/ClassGenerator.cs:124-126 | a method that is not an accessor of a name leaves that property unchanged |
| PropertyInference.InferredGetter | csharp-api/AssemblyGenerator/ClassGenerator.cs:80-101 | the getter of a property is the last own method that is a zero-parameter non-void `get_` or a one-parameter `get_Item` for that name |
| PropertyInference.InferredSetter | csharp-api/AssemblyGenerator/ClassGenerator.cs:102-123 | the setter of a property is the last one-parameter `set_` or two-parameter `set_Item` for that name |
| PropertyInference.InferredType | csharp-api/AssemblyGenerator/ClassGenerator.cs:89-120 | the value type of a property is the one recorded by its last accessor (a setter's last parameter) |
| PropertyInference.InferredIndexer | csharp-api/AssemblyGenerator/ClassGenerator.cs:90-122 | a property is an indexer exactly when an indexer accessor supplied it, and its index type is parameter 0 of the last of them |
| PropertyInference.IndexerKeyIsItem | csharp-api/AssemblyGenerator/ClassGenerator.cs:90-122 | only the key `Item` can be an indexer |
| PropertyInference.InferredPropertyShape | csharp-api/AssemblyGenerator/ClassGenerator.cs:80-123 | every inferred property has a getter or a setter, and only `Item` is an indexer |
| PropertyInference.LastAccessorPlaysARole | csharp-api/AssemblyGenerator/ClassGenerator.cs:80-123 | for every property some getter or some setter exists |
| PropertyInference.InferredOrder | csharp-api/AssemblyGenerator/ClassGenerator.cs:84-86 | the dictionary's enumeration order lists every property exactly once |
| PropertyInference.InferredMethods | csharp-api/AssemblyGenerator/ClassGenerator.cs:124-126 | the methods list holds exactly the ordinary methods, in order: accessors of every kind, including the dropped arities, are not in it, and the fields list is still empty |
| PropertyInference.CleanFieldName | csharp-api/AssemblyGenerator/ClassGenerator.cs:146-150 | a name that is not `<...k__BackingField` is kept; otherwise the result is the text between `<` and the first `>k__`; it throws exactly when that marker is missing |
| PropertyInference.BackingFieldRoundTrip | csharp-api/AssemblyGenerator/ClassGenerator.cs:148-150 | cleaning inverts the compiler's backing-field naming for every property name without `>k__` |
| PropertyInference.DropAccessors | csharp-api/AssemblyGenerator/ClassGenerator.cs:154 | RemoveAll keeps exactly the methods that are neither `get_N` nor `set_N` |
| PropertyInference.DropAccessorsInOrder | csharp-api/AssemblyGenerator/ClassGenerator.cs:154 | RemoveAll drops the `get_N`/`set_N` methods and keeps every other method in its original order |
| PropertyInference.DropKey | csharp-api/AssemblyGenerator/ClassGenerator.cs:155 | Remove takes exactly that key out of the enumeration order, and the order stays duplicate-free |
| PropertyInference.InferFieldsThrowsAt | csharp-api/AssemblyGenerator/ClassGenerator.cs:129-156 | an exception at one field ends the field walk with that exception |
| PropertyInference.FieldWalkThrows | csharp-api/AssemblyGenerator/ClassGenerator.cs:148-150 | the field walk fails exactly when a kept field has a backing-field name without `>k__` |
| PropertyInference.FieldStep | csharp-api/AssemblyGenerator/ClassGenerator.cs:144-155 | one field iteration removes the property it claims and that property's accessors, keeps the other methods in order, and appends the field when it is kept |
| PropertyInference.FieldWalkProps | csharp-api/AssemblyGenerator/ClassGenerator.cs:155 | after the field walk the properties are exactly the earlier ones minus the names the fields claim |
| PropertyInference.FieldWalkOrder | csharp-api/AssemblyGenerator/ClassGenerator.cs:155 | the enumeration order loses exactly the claimed names |
| PropertyInference.FieldWalkFields | csharp-api/AssemblyGenerator/ClassGenerator.cs:144 | every field with a name and a named type is appended, in order |
| PropertyInference.FieldWalkEffect | csharp-api/AssemblyGenerator/ClassGenerator.cs:129-156 | the three effects above together |
| PropertyInference.FieldWalkMethods | csharp-api/AssemblyGenerator/ClassGenerator.cs:154 | after the field walk the methods are the earlier ones, in their order, without the accessors of any claimed name |
| PropertyInference.FieldWalkKeepsOrder | csharp-api/AssemblyGenerator/ClassGenerator.cs:155 | the order stays duplicate-free and in step with the dictionary's keys |
| PropertyInference.FieldsWin | csharp-api/AssemblyGenerator/ClassGenerator.cs:129-156 | after the first phase, for every kept own field with cleaned name N: N is not a property, no method is `get_N`/`set_N`, and the field is in `fields` |
| PropertyInference.CollectedMembersWellFormed | csharp-api/AssemblyGenerator/ClassGenerator.cs:65-156 | the first phase hands on only ordinary named methods with a named return type, and only fields whose names clean without error |
| Filters.ValidFieldsOf | csharp-api/AssemblyGenerator/ClassGenerator.cs:574-616 | the valid fields are exactly the fields with an ASCII name, a type whose name has no `!`, and a type in validTypes |
| Filters.GetValidFields | csharp-api/AssemblyGenerator/ClassGenerator.cs:568-627 | the loop returns the valid fields in order, stopping right after the (65535-15)/2-th |
| Filters.ValidFieldsBounded | csharp-api/AssemblyGenerator/ClassGenerator.cs:614-623 | at most 32760 fields, all valid fields of the list; all of them when there are no more than the cap |
| Filters.ValidMethodsOf | csharp-api/AssemblyGenerator/ClassGenerator.cs:831-859 | the kept methods are valid ones of the list: not Finalize/.ctor/.cctor, no `<` in the name, no `!` in the return type name |
| Filters.ValidMethodsOfStops | csharp-api/AssemblyGenerator/ClassGenerator.cs:834-856 | a method without a name or a named return type faults, and the swallowed exception ends the filter there |
| Filters.GetValidMethods | csharp-api/AssemblyGenerator/ClassGenerator.cs:831-859 | the loop returns exactly the filtered methods |
| Filters.ValidMethodsExact | csharp-api/AssemblyGenerator/ClassGenerator.cs:835-853 | when no method faults, a method is kept exactly when it is in the list and valid |
| Signatures.LowerLengths | csharp-api/AssemblyGenerator/ClassGenerator.cs:948-1015 | one parameter declaration and one argument name per runtime parameter, and the unknown counter counts the unnamed ones |
| Signatures.LowerKey | csharp-api/AssemblyGenerator/ClassGenerator.cs:989-1012 | the key suffix is the concatenation of the per-parameter tokens: `out` alone, `ref T`, `ptr T` or `T`, nothing for an untyped parameter |
| Signatures.ParamsStep | csharp-api/AssemblyGenerator/ClassGenerator.cs:953-1014 | one iteration appends one declaration under the parameter's name |
| Signatures.LowerNames | csharp-api/AssemblyGenerator/ClassGenerator.cs:954-964 | each parameter is declared under its own name (`object` becomes `object_`), or `argN` for the N-th unnamed one |
| Signatures.UnnamedParamNumbering | csharp-api/AssemblyGenerator/ClassGenerator.cs:956-960 | an unnamed parameter is `arg` followed by the number of unnamed parameters before it |
| Signatures.UnnamedParamsDistinct | csharp-api/AssemblyGenerator/ClassGenerator.cs:956-960 | two unnamed parameters of one method never get the same `argN` name |
| Signatures.LowerFlags | csharp-api/AssemblyGenerator/ClassGenerator.cs:989-1006 | the out flag is set exactly when some typed parameter is out; the unsafe flag exactly when some typed parameter is a pointer and not by-reference |
| Signatures.LowerParameters | csharp-api/AssemblyGenerator/ClassGenerator.cs:948-1015 | the parameter loop computes the walk's declarations, argument names, key and flags |
| Signatures.LowerParameter | csharp-api/AssemblyGenerator/ClassGenerator.cs:953-1014 | one pass of the loop body is one step of the walk |
| Signatures.LowerTyped | csharp-api/AssemblyGenerator/ClassGenerator.cs:974-1014 | the part of the loop body for a typed parameter is that step |
| Signatures.BadParamCheck | csharp-api/AssemblyGenerator/ClassGenerator.cs:927 | the test passes exactly when every declared parameter has a type whose name exists and has no `!`; an unnamed type faults unless an earlier parameter answered first |
| Signatures.KeyIgnoresReturnType | csharp-api/AssemblyGenerator/ClassGenerator.cs:884 | the key starts with the method name and does not depend on the return type |
| RefMethods.StaticBody | csharp-api/AssemblyGenerator/ClassGenerator.cs:1043-1059 | one statement: NotImplementedException exactly with declared parameters and an out parameter; otherwise, for void, `Invoke` of the handle without arguments when no parameters are declared and with the argument names when some are, and, for non-void, a return of `InvokeBoxed` of the handle at the return type, with the argument names exactly when parameters are declared |
| RefMethods.BuiltKeyIsSignatureKey | csharp-api/AssemblyGenerator/ClassGenerator.cs:884-1024 | the key the builder uses is the method's signature key; it yields a method declaration, with a cached handle exactly for a static method |
| RefMethods.StaticThunkThrowsOnlyForOut | csharp-api/AssemblyGenerator/ClassGenerator.cs:1043-1059 | a static method with parameters throws NotImplementedException exactly when one of its runtime parameters is out |
| RefMethods.MethodShadowing | csharp-api/AssemblyGenerator/ClassGenerator.cs:1071-1089 | a method is `new` exactly when the type has a base type and the method overrides an ancestor method whose declaring type is generated |
| RefMethods.StaticThunkUsesItsHandle | csharp-api/AssemblyGenerator/ClassGenerator.cs:1027-1059 | a static method declares the handle `INTERNAL_` + name + index bound to its own signature, and its body, unless it throws, invokes exactly that handle |
| RefMethods.DedupKeys | csharp-api/AssemblyGenerator/ClassGenerator.cs:1066-1071 | one declaration per kept key; kept keys are pairwise different and equal the seen set; every built key is kept |
| RefMethods.DedupKeepsFirst | csharp-api/AssemblyGenerator/ClassGenerator.cs:1066-1071 | each kept declaration is the one of the first outcome built under its key |
| RefMethods.DedupKeepsFirstOfEachKey | csharp-api/AssemblyGenerator/ClassGenerator.cs:1066-1071 | kept keys are pairwise different and equal the seen set; every built key is kept; each kept declaration is the first one built under its key |
| RefMethods.DedupKeepsAllHandles | csharp-api/AssemblyGenerator/ClassGenerator.cs:1027-1071 | the cached handle of every static method is declared, even when the method is later dropped as a duplicate |
| RefMethods.BuildAllThrows | csharp-api/AssemblyGenerator/ClassGenerator.cs:878-1093 | an exception from one method ends the whole generation with it |
| RefMethods.AddMethod | csharp-api/AssemblyGenerator/ClassGenerator.cs:1027-1071 | one loop step: the handle is declared, then the method is kept and its key recorded unless the key was seen |
| RefMethods.GenerateMethods | csharp-api/AssemblyGenerator/ClassGenerator.cs:861-1100 | the loop yields the deduplicated output of the builder over the valid methods |
| ValueTypes.InstanceFields | csharp-api/AssemblyGenerator/ClassGenerator.cs:772 | the non-static fields, and only those |
| ValueTypes.ValueFieldsAreInstanceFieldsAtOffsets | csharp-api/AssemblyGenerator/ClassGenerator.cs:758-802 | one public field per instance field, in order, under its cleaned name, with its proper type, at its offset; static fields are not declared |
| ValueTypes.ValueFieldsThrow | csharp-api/AssemblyGenerator/ClassGenerator.cs:778-781 | struct field generation fails exactly when an instance field has a backing-field name without `>k__` |
| ValueTypes.ArgStmts | csharp-api/AssemblyGenerator/ClassGenerator.cs:1304-1333 | one or two statements ending in a store into slot i; for a primitive, a widening precedes the store exactly when the type is Single (to double), SByte/Int16/Int32 (to long) or Byte/UInt16/UInt32 (to ulong), and it is that widening; primitives store bits, other value types their address, references a converted object pointer (CreateString exactly for System.String) |
| ValueTypes.ArgStmtsStoreOnce | csharp-api/AssemblyGenerator/ClassGenerator.cs:1322-1332 | the statements for one argument store exactly one slot, its own |
| ValueTypes.PackFailsOnMissingName | csharp-api/AssemblyGenerator/ClassGenerator.cs:1302 | packing fails, with ArgumentOutOfRange, exactly when a typed parameter has no argument name |
| ValueTypes.PackStoresEachTypedParameter | csharp-api/AssemblyGenerator/ClassGenerator.cs:1291-1334 | on success the stored slots are exactly the positions of the typed parameters, ascending, each once |
| ValueTypes.PackStoresByKind | csharp-api/AssemblyGenerator/ClassGenerator.cs:1304-1333 | every store agrees with how its parameter's type is passed |
| ValueTypes.PackArguments | csharp-api/AssemblyGenerator/ClassGenerator.cs:1287-1340 | the packing loop computes the packed statements or the exception |
| ValueTypes.ReturnValueHandler | csharp-api/AssemblyGenerator/ClassGenerator.cs:1364-1424 | on success a return statement; the only exception is NotImplemented |
| ValueTypes.PrimitiveReturnKeyword | csharp-api/AssemblyGenerator/ClassGenerator.cs:1366-1400 | a primitive result is read from the union member whose keyword the type table gives the return type's name (float from Double, bool as Byte != 0) |
| ValueTypes.PrimitiveReturnRejects | csharp-api/AssemblyGenerator/ClassGenerator.cs:1401-1402 | the handler throws for exactly the primitives without a union member: Char, IntPtr, UIntPtr and names outside the table |
| ValueTypes.PrimitiveReturnMatchesDeclaredType | csharp-api/AssemblyGenerator/ClassGenerator.cs:1364-1403 | both of the above, and the unpacked value has the method's declared type whenever no rename or sanitising changes the name |
| ValueTypes.StructReturnsReinterpret | csharp-api/AssemblyGenerator/ClassGenerator.cs:1404-1407 | inside a struct every non-primitive result is reinterpreted in place, whatever the return type is |
| ValueTypes.ValueMethodShape | csharp-api/AssemblyGenerator/ClassGenerator.cs:1269-1354 | a struct method is unsafe and never static, pins `this`, and declares and returns a result exactly when it is not void; its body has the layout of StructBodyLayout with the declared parameter count, the packed arguments, its own handle and the result handler of its return type |
| ValueTypes.ValueMethodBodyShape | csharp-api/AssemblyGenerator/ClassGenerator.cs:1279-1354 | the body layout, position by position: the result slot exactly for a non-void method; with declared parameters, a slot buffer of exactly that many slots, the packed arguments and the pinned buffer, and otherwise neither; the pinned `this`; the raw call through the handle, passing the buffer exactly when there are parameters and `0, 0` otherwise; the result handler last for a non-void method |
| ValueTypes.MissingParameterInfoFails | csharp-api/AssemblyGenerator/ClassGenerator.cs:1179-1302 | a struct method with declared parameters but no runtime parameter list makes generation fail with ArgumentOutOfRange |
| ValueTypes.ValueMethodsKeepOverloads | csharp-api/AssemblyGenerator/ClassGenerator.cs:1263-1266 | every struct method the builder finishes is declared: the seen set never grows, so overloads with equal keys are all kept |
| ValueTypes.AddValueMethod | csharp-api/AssemblyGenerator/ClassGenerator.cs:1160-1354 | one loop step: a finished method adds its declaration and its handle; a skipped method adds nothing here and is caught after the loop |
| ValueTypes.GenerateValueTypeMethods | csharp-api/AssemblyGenerator/ClassGenerator.cs:1102-1362 | the loop gives the first exception a builder raises; otherwise NullReferenceException when any method was skipped, since AddMembers meets its null entry; otherwise every finished method with its handle, in order |
| ValueTypes.SkippedValueMethod | csharp-api/AssemblyGenerator/ClassGenerator.cs:1126-1186 | the struct builder skips a method exactly when it is named sortCountList, has no runtime method, or has a parameter type that is missing or contains `!` |
| ValueTypes.ValueMethodsOfOk | csharp-api/AssemblyGenerator/ClassGenerator.cs:1115-1361 | struct method generation succeeds exactly when no builder raises and no method is skipped; with every builder done, a skipped method makes it fail with NullReferenceException |
| RefFields.FieldFacade | csharp-api/AssemblyGenerator/ClassGenerator.cs:641-753 | one property under the cleaned name with a getter and setter bound to the field's index as facade getter/setter; static exactly for a static field, which declares one cached field handle `INTERNAL_` + name + index for its raw name, a getter returning `GetDataBoxed` of that handle at the property type and a setter calling `SetDataBoxed` of it; an instance field's accessors are only declared; `new` exactly when the parent's field or accessor for that name lives in a generated type |
| RefFields.FacadeShadowNeedsGeneratedMember | csharp-api/AssemblyGenerator/ClassGenerator.cs:698-721 | a facade is `new` only when the type has a parent exposing, from a generated declaring type, a field under the cleaned or raw name or a `get_`/`set_` method for the cleaned name |
| RefFields.FieldFacadesThrow | csharp-api/AssemblyGenerator/ClassGenerator.cs:646-648 | field generation fails exactly when a valid field has a backing-field name without `>k__` |
| RefFields.FacadePerField | csharp-api/AssemblyGenerator/ClassGenerator.cs:629-756 | one facade per valid field, in order |
| RefFields.HandlePerStaticField | csharp-api/AssemblyGenerator/ClassGenerator.cs:669-680 | one cached handle per static field, in order, naming the raw field name |
| RefFields.RootFieldsNeverShadow | csharp-api/AssemblyGenerator/ClassGenerator.cs:699 | a type without a parent never marks a facade `new` |
| Properties.BuildProperty | csharp-api/AssemblyGenerator/ClassGenerator.cs:416-562 | one declaration: an indexer exactly for an indexer, accessors present exactly for the present methods and bound to their indices, static when either accessor is, `new` when either shadows; a static getter returns `InvokeBoxed` of its handle at the property type and a static setter calls `Invoke` of its handle with `value`, an instance accessor is only declared; one cached handle per static accessor, named `INTERNAL_` + key + index and bound to that accessor's signature |
| Properties.PropertiesLength | csharp-api/AssemblyGenerator/ClassGenerator.cs:415-565 | one declaration per pseudo-property |
| Properties.PropertyAt | csharp-api/AssemblyGenerator/ClassGenerator.cs:415-565 | the declaration at position i is the one built for the i-th key |
| Properties.PropertyPerKey | csharp-api/AssemblyGenerator/ClassGenerator.cs:406-566 | in the dictionary's order, each declaration declares its key's pseudo-property |
| Properties.HandlePerStaticAccessor | csharp-api/AssemblyGenerator/ClassGenerator.cs:441-512 | one cached method handle per static accessor |
| Properties.NoBaseNoShadow | csharp-api/AssemblyGenerator/ClassGenerator.cs:394 | without base types, as for every struct, no property is `new` |
| Properties.PropertyShadowing | csharp-api/AssemblyGenerator/ClassGenerator.cs:466-490 | a property is `new` only with a base type, and only because an accessor overrides a method of a generated type or the parent of its declaring type has a field under the property name or its backing-field name |
| Properties.ParentFieldShadowIgnoresValidTypes | csharp-api/AssemblyGenerator/ClassGenerator.cs:482-489 | a property can be `new` for a field of a parent that is not generated |
| TypeSpec.FirstValidNone | csharp-api/AssemblyGenerator/ClassGenerator.cs:292-296 | the walk finds nothing exactly when no ancestor is a valid type |
| TypeSpec.FirstValidSome | csharp-api/AssemblyGenerator/ClassGenerator.cs:292-318 | what the walk finds is the first valid ancestor |
| TypeSpec.FirstValidAncestorIsFirstValid | csharp-api/AssemblyGenerator/ClassGenerator.cs:292-319 | both directions together |
| TypeSpec.BaseIsFirstValidProperAncestor | csharp-api/AssemblyGenerator/ClassGenerator.cs:292-319 | the base is a proper ancestor, valid, with every nearer ancestor invalid, and a written name that is non-empty without `[`; no valid ancestor means no base; the list holds at most one type |
| TypeSpec.FindBaseType | csharp-api/AssemblyGenerator/ClassGenerator.cs:290-319 | the loop yields the base list and records the base in usingTypes |
| TypeSpec.CollectedKeysOrdered | csharp-api/AssemblyGenerator/ClassGenerator.cs:65-156 | after the first phase the enumeration order lists each property once |
| TypeSpec.NestedDeclName | csharp-api/AssemblyGenerator/ClassGenerator.cs:1446-1448 | the declared name is the last segment, or `@file` for a last segment `file` |
| TypeSpec.NestedMembersThrowsAt | csharp-api/AssemblyGenerator/ClassGenerator.cs:1433-1500 | an exception from one nested type ends the nested walk with it |
| TypeSpec.ArrayMembersThrowsAt | csharp-api/AssemblyGenerator/ClassGenerator.cs:1454-1465 | an exception from one array type ends the array walk with it |
| TypeSpec.MissingArrayRenameAborts | csharp-api/AssemblyGenerator/ClassGenerator.cs:1455 | an array type without a rename aborts with KeyNotFound |
| TypeSpec.WithNestedExtends | csharp-api/AssemblyGenerator/ClassGenerator.cs:1426-1503 | nested types only append members: the header is kept and the earlier members stay in front |
| TypeSpec.RefTypeShellShape | csharp-api/AssemblyGenerator/ClassGenerator.cs:264-352 | the interface before its nested types: its header, its base list and a REFType field that is `new` exactly with a base |
| TypeSpec.InterfaceShape | csharp-api/AssemblyGenerator/ClassGenerator.cs:264-355 | a reference type becomes a public interface under its corrected name, `new` exactly when a parent declares a nested type of that name, with the walk's base list and the REFType field |
| TypeSpec.ValueTypeShellShape | csharp-api/AssemblyGenerator/ClassGenerator.cs:357-401 | the struct before its nested types |
| TypeSpec.StructShape | csharp-api/AssemblyGenerator/ClassGenerator.cs:357-404 | a value type other than an enum becomes a public struct with explicit layout, no base list and a REFType field that is never `new` |
| TypeSpec.BadBackingFieldAborts | csharp-api/AssemblyGenerator/ClassGenerator.cs:148-149 | an own field named like a backing field without `>k__` aborts the whole type |
| TypeSpec.SkippedStructMethodAborts | csharp-api/AssemblyGenerator/ClassGenerator.cs:1115-1361 | a struct whose first phase succeeds fails as a whole when its struct builder skips one of its valid methods |
| TypeSpec.PropertyAccessorsBindLastAccessors | csharp-api/AssemblyGenerator/ClassGenerator.cs:80-123 | each emitted property's get and set accessors are bound to the indices of the last getter and last setter method supplying its name |
| Generator.ClassGenerator.constructor | csharp-api/AssemblyGenerator/ClassGenerator.cs:37-159 | the generator ends with exactly the declaration, or the exception, that the whole declaration function of the type gives; `usingTypes` holds the base type of a generated interface (empty for a struct or when the first phase throws), and `addedNewKeyword` is set exactly for an interface whose parent declares a nested type of that name |
| Generator.ClassGenerator.FirstPhase | csharp-api/AssemblyGenerator/ClassGenerator.cs:65-156 | the two loops leave the first-phase state of the type, or report the exception of the field walk |
| Generator.ClassGenerator.SecondPhase | csharp-api/AssemblyGenerator/ClassGenerator.cs:158 | a value type that is not an enum gets the struct, any other type the interface, each with its nested types; `usingTypes` and `addedNewKeyword` as for the constructor |
| Generator.ClassGenerator.WalkMethods | csharp-api/AssemblyGenerator/ClassGenerator.cs:65-127 | the method loop leaves the state of the method walk over the own methods |
| Generator.ClassGenerator.PropertyNamed | csharp-api/AssemblyGenerator/ClassGenerator.cs:84-86 | looks a property up, creating it at the end of the order when missing |
| Generator.ClassGenerator.RecordMethod | csharp-api/AssemblyGenerator/ClassGenerator.cs:71-126 | one iteration of the method loop is one step of the walk |
| Generator.ClassGenerator.WalkFields | csharp-api/AssemblyGenerator/ClassGenerator.cs:129-156 | the field loop leaves the state of the field walk, or reports its exception |
| Generator.ClassGenerator.RecordField | csharp-api/AssemblyGenerator/ClassGenerator.cs:135-155 | one iteration of the field loop is one step of the walk |
| Generator.ClassGenerator.AddMembers | csharp-api/AssemblyGenerator/ClassGenerator.cs:345 | AddMembers on the held declaration |
| Generator.ClassGenerator.Generate | csharp-api/AssemblyGenerator/ClassGenerator.cs:264-355 | the interface of the declaration function, extended by its nested types; `usingTypes` is reset and then holds the base type, if any, and `addedNewKeyword` is set when a parent declares a nested type of that name |
| Generator.ClassGenerator.GenerateValueType | csharp-api/AssemblyGenerator/ClassGenerator.cs:357-404 | the struct of the declaration function, extended by its nested types, or its exception (among them NullReferenceException for a skipped struct method); `usingTypes` is reset to empty |
| Generator.ClassGenerator.StartDeclaration | csharp-api/AssemblyGenerator/ClassGenerator.cs:362-370 | the last segment for a top-level type, the corrected name, a public declaration without members |
| Generator.ClassGenerator.StartInterface | csharp-api/AssemblyGenerator/ClassGenerator.cs:265-319 | the interface header, `new` and addedNewKeyword per the parent's nested types, and the base list of the walk |
| Generator.ClassGenerator.StartStruct | csharp-api/AssemblyGenerator/ClassGenerator.cs:358-390 | the struct header with the explicit layout attribute |
| Generator.ClassGenerator.BuildInterface | csharp-api/AssemblyGenerator/ClassGenerator.cs:264-352 | the held declaration is the interface shell, or the exception raised; `usingTypes` holds the base type, if any, and `addedNewKeyword` is set when a parent declares a nested type of that name |
| Generator.ClassGenerator.CompleteInterface | csharp-api/AssemblyGenerator/ClassGenerator.cs:331-352 | after the header, the held declaration is the interface shell of the declaration function, or the exception a member builder raised |
| Generator.ClassGenerator.AddBasesAndHandles | csharp-api/AssemblyGenerator/ClassGenerator.cs:337-350 | the base list is attached only when there are base types; the REFType field follows the members, and the cached handles follow it |
| Generator.ClassGenerator.AddRefMembers | csharp-api/AssemblyGenerator/ClassGenerator.cs:333-335 | methods, field facades and properties are added in that order, with their handles |
| Generator.ClassGenerator.AddFieldsAndProperties | csharp-api/AssemblyGenerator/ClassGenerator.cs:334-335 | after the methods, the field facades and then the properties complete the reference members, or the field exception is raised |
| Generator.ClassGenerator.AddPropertiesAfter | csharp-api/AssemblyGenerator/ClassGenerator.cs:335 | after the methods and the field facades, the properties complete the reference members |
| Generator.ClassGenerator.AddMethods | csharp-api/AssemblyGenerator/ClassGenerator.cs:865-1100 | the deduplicated methods are added and their handles collected |
| Generator.ClassGenerator.AddFields | csharp-api/AssemblyGenerator/ClassGenerator.cs:629-756 | the facades of the capped valid fields are added and their handles collected |
| Generator.ClassGenerator.AddProperties | csharp-api/AssemblyGenerator/ClassGenerator.cs:406-566 | the properties in dictionary order are added and their handles collected |
| Generator.ClassGenerator.BuildStruct | csharp-api/AssemblyGenerator/ClassGenerator.cs:357-401 | the held declaration is the struct shell, or the exception raised (among them NullReferenceException for a skipped struct method); `usingTypes` is empty |
| Generator.ClassGenerator.AddValueMembers | csharp-api/AssemblyGenerator/ClassGenerator.cs:392-394 | fields, methods and properties are added in that order, or the exception of the first group that fails |
| Generator.ClassGenerator.AddValueFields | csharp-api/AssemblyGenerator/ClassGenerator.cs:758-802 | the struct fields of the capped valid fields are added |
| Generator.ClassGenerator.AddValueMethods | csharp-api/AssemblyGenerator/ClassGenerator.cs:1102-1362 | the struct methods are added and their handles collected, or the exception: a builder's own, or NullReferenceException when a method was skipped |
| Generator.ClassGenerator.GenerateNestedTypes | csharp-api/AssemblyGenerator/ClassGenerator.cs:1426-1503 | the held declaration is extended by the members of the nested types in order, or the exception raised |
| Generator.ClassGenerator.AddNestedType | csharp-api/AssemblyGenerator/ClassGenerator.cs:1434-1499 | a nested type under a rejected name (empty, or with `[`, `]` or `<`) adds nothing; an enum or any other type adds its members |
| Generator.ClassGenerator.AddNestedEnum | csharp-api/AssemblyGenerator/ClassGenerator.cs:1451-1472 | an enum adds its array types, then its declaration when the enum generator yields one |
| Generator.ClassGenerator.AddEnumDeclaration | csharp-api/AssemblyGenerator/ClassGenerator.cs:1467-1469 | the enum declaration follows the array types, unless the enum generator yields none |
| Generator.ClassGenerator.AddNestedClass | csharp-api/AssemblyGenerator/ClassGenerator.cs:1474-1499 | any other type runs a new generator first; unless it raised an exception, its array types and then its declaration are added |
| Generator.ClassGenerator.AddGeneratedNested | csharp-api/AssemblyGenerator/ClassGenerator.cs:1483-1499 | the array types and then the nested declaration are added, or the array-type exception is raised |
| Generator.ClassGenerator.RunGenerator | csharp-api/AssemblyGenerator/ClassGenerator.cs:1474-1477 | a fresh generator ends with the outcome the declaration function gives for that type |
| Generator.ClassGenerator.AddArrayTypes | csharp-api/AssemblyGenerator/ClassGenerator.cs:1454-1465 | one generator per array type, under its rename, each adding its declaration |

## Left out

- **The metadata provider.** Type definitions, `Il2CppDump` extensions and the reflection calls (`GetRuntimeMethod`, `Call("GetParameters")`, `IsByRefImpl`, `get_IsOut`) are data:
  - `TypeDef`, `Method.ext`, `TypeDef.nestedTypes`;
  - `RuntimeInfo`, which carries one `RuntimeParam` of facts per parameter.
- **The surrounding assembly generator's tables and helpers** are fields of `Env`:
  - `validTypes`, `typeFullRenames`, `typeRenames`, `NestedTypeExistsInParent`, `ForEachArrayType`;
  - `CorrectTypeName` and `FixBadChars`, which are given functions.
- **`EnumGenerator`** is not part of this model. A nested enum's declaration is a placeholder member, and the enums for which it yields no declaration are given as a set.
- **Syntax trees.** Roslyn's syntax trees, `GetText()` printing and normalisation are not modelled. Statements are records and type text is a string.
- **Console and log output** (`Console.WriteLine`, `API.LogError`, `API.LogWarning`) is left out. It has no effect on the output.
- **`REFProxy`.** The `REFProxy` field declarations (`:327-331`, `:382-386`) are built but never added, so they do not appear.
- **`explicitNew`.** `GenerateMethods`' `explicitNew` list is only ever empty (`:862`), so it is dropped.
- **`Update`** (`:57-59`) is modelled as assignments to `typeDeclaration` in the nested-type methods.
- **Enumeration order.**
  - The `pseudoProperties` dictionary is enumerated in insertion order, kept as the `propertyOrder` sequence. Nothing is inserted after a removal, so this matches .NET's `Dictionary`.
  - A `HashSet` of nested types is enumerated as the order of a sequence.
- **Null declarations.** The early `null` returns of a missing declaration (`:279-281`, `:372-374`, `:1427-1429`) cannot arise, because a declaration is always built. Null list entries are left out as well: a null field (`:576`) or method (`:836`) and a null entry of a method's parameter list (`:927`, `:1293`). A parameter is always present, so the null test of `:927` always passes and the skip of `:1293` never happens.
- **Unknown type ids** read as a type without a name.
- **Culture-sensitive string comparison.** .NET's `StartsWith`, `EndsWith` and `IndexOf(string)` with a string argument compare under the current culture (`:80`, `:102`, `:148-149`, `:646-647`, `:778-780`). `Strings.StartsWith`, `Strings.EndsWith` and `Strings.IndexOf` compare characters ordinally. The two differ for characters that a culture ignores or combines; the model does not capture that difference.
- **Unbounded nesting.** Nested types are generated to a depth given by a `fuel` argument. `TypeSpec.GenerateTypeSpec` and `Generator.ClassGenerator.constructor` stop adding nested types when it runs out. The source has no bound, and a cycle among nested and array types would recurse without end.
- **Acyclic parent chains.** `TypeSpec.BaseOf` and everything that uses the parent chain require every parent id to be smaller than the child's id. The source walks the chain without a check and would loop on a cycle.
- **Pointer width.** `long`/`ulong` widths and the bits of the 64-bit slots are not modelled. A packed argument is a statement that names its slot and its conversion.
- **`PropertyInference.FieldWalkEffect`** states the property, order and field effects of the field walk. The effect on the methods is in its own lemma, `PropertyInference.FieldWalkMethods`.

Behaviour of the code the model keeps:

- **Value-type methods are never deduplicated.** `GenerateValueTypeMethods` tests its set of seen keys (`:1263`, under the log line "Skipping duplicate method") but never adds to it. Struct overloads with equal keys are all emitted (`ValueTypes.ValueMethodsKeepOverloads`).
- **The return handler branches on the containing type.** The handler tests the containing type `t` (`:1404`, `:1410`), not the return type. Inside a struct every non-primitive result is reinterpreted in place (`ValueTypes.StructReturnsReinterpret`). Char, IntPtr and UIntPtr results throw (`ValueTypes.PrimitiveReturnRejects`).
- **Array types are generated for enums too.** A nested enum adds its array types before the enum declaration. For other types the array types come after the nested generator has run and before its declaration.
- **Some malformed members abort the whole type.** They raise an exception instead of being skipped, and the model keeps it as `Result.Throws`:
  - a backing-field name without `>k__` (a slice with end -1);
  - a parameter type without a name;
  - a struct method whose argument names are missing;
  - a primitive return type outside the handler's table;
  - an array type without a rename.
- **A faulting method ends the method filter.** In `GetValidMethods` an exception (a method without a name, or without a named return type) is swallowed and ends the filter: the methods after it are dropped.
- **The parent-field test of a property ignores `validTypes`.** A method is `new` only for an overridden ancestor method whose declaring type is generated (`:1074-1089`, whose comment states that rule), and so is a field facade for a parent member (`:699-721`). The fallback test of a property accessor (`:481-489`, `:541-549`) asks only whether the parent of the accessor's declaring type has a field under the property's name or its backing-field name. `Properties.ParentFieldShadowIgnoresValidTypes` exhibits a property marked `new` for a field of a parent that is not generated.
- **Cached handles are declared for dropped members.** The handle of a static reference-type method is declared even when the method is then dropped as a duplicate.
- **A skipped struct method aborts the struct.** The struct builder returns null for a method named sortCountList (`:1126-1130`), for one without a runtime method (`:1173-1177`) and for one with a missing or `!` parameter type (`:1182-1185`). Unlike the reference-type path (`:1093`), the nulls are not filtered out, and AddMembers (`:1361`) fails on them with NullReferenceException (`ValueTypes.ValueMethodsOfOk`, `TypeSpec.SkippedStructMethodAborts`). An exception a later builder raises comes first, since every builder runs before AddMembers.

=== FILE: class_generator.dfy ===
/** ClassGenerator: one generator object per type. Its constructor walks
    the type's own methods and fields into pseudo-properties, methods and
    fields, then builds an interface (reference type) or a struct (value
    type) declaration, and finally runs further generators for the nested
    types and their array types. An exception escaping the constructor is
    recorded in `thrown`. */
module Generator {
  import opened Metadata
  import opened Strings
  import opened Declarations
  import opened Filters
  import opened PropertyInference
  import opened RefMethods
  import opened ValueTypes
  import opened RefFields
  import opened Properties
  import opened TypeSpec

  class ClassGenerator {
    const db: Tdb
    const env: Env
    const t: TypeId
    var className: string
    var actualName: string
    var pseudoProperties: map<string, PseudoProperty>
    var propertyOrder: seq<string>              // the dictionary's enumeration order
    var methods: seq<Method>
    var fields: seq<Field>
    var usingTypes: seq<TypeId>
    var typeDeclaration: Option<TypeDecl>
    var addedNewKeyword: bool
    var internalFieldDeclarations: seq<MemberDecl>
    var thrown: Option<Exception>

    /** The first-phase state as a value. */
    function State(): Inference
      reads this`pseudoProperties, this`propertyOrder, this`methods, this`fields
    {
      Inference(pseudoProperties, propertyOrder, methods, fields)
    }

    /** The generator ended with outcome `r`: the exception it raised, or
        the declaration it holds. */
    predicate Produced(r: Result<TypeDecl>)
      reads this`thrown, this`typeDeclaration
    {
      match r
      case Throws(e) => thrown == Some(e)
      case Ok(d) => thrown.None? && typeDeclaration == Some(d)
    }

    /** The declaration `d0` was extended with the members of `r`, or the
        exception of `r` was raised. */
    predicate Extended(d0: TypeDecl, r: Result<seq<MemberDecl>>)
      reads this`thrown, this`typeDeclaration
    {
      match r
      case Throws(e) => thrown == Some(e)
      case Ok(x) => thrown.None? && typeDeclaration == Some(Extend(d0, x))
    }

    /** The generator for type `t` under the name `className_`, generating
        nested types to depth `fuel`. */
    constructor(db: Tdb, env: Env, className_: string, t: TypeId, fuel: nat)
      requires WellFormed(db)
      ensures this.db == db && this.env == env && this.t == t
      ensures Produced(GenerateTypeSpec(db, env, className_, t, fuel))
      ensures usingTypes == (if Collect(db, t).Ok? && !IsStructType(TypeDefAt(db, t)) then UsingTypesOf(db, env, t) else [])
      ensures addedNewKeyword <==> Collect(db, t).Ok? && !IsStructType(TypeDefAt(db, t)) && t in env.nestedTypeExistsInParent
      decreases fuel, 3
    {
      this.db := db;
      this.env := env;
      this.t := t;
      className := env.fixBadChars(className_);
      actualName := "";
      pseudoProperties := map[];
      propertyOrder := [];
      methods := [];
      fields := [];
      usingTypes := [];
      typeDeclaration := None;
      addedNewKeyword := false;
      internalFieldDeclarations := [];
      thrown := None;
      new;
      var error := FirstPhase();
      if error.Some? {
        thrown := error;
        return;
      }
      CollectedKeysOrdered(db, t);
      SecondPhase(fuel);
    }

    /** The walks over the own methods and the own fields. */
    method FirstPhase() returns (error: Option<Exception>)
      requires State() == Start
      modifies this`pseudoProperties, this`propertyOrder, this`methods, this`fields
      ensures match Collect(db, t)
              case Throws(e) => error == Some(e)
              case Ok(s) => error.None? && State() == s
    {
      WalkMethods();
      error := WalkFields();
    }

    /** The declaration of the collected type: a struct for a value type,
        an interface otherwise, with its nested types. */
    method SecondPhase(fuel: nat)
      requires WellFormed(db) && thrown.None? && internalFieldDeclarations == []
      requires Collect(db, t) == Ok(State()) && OrderedKeys(State())
      requires usingTypes == [] && !addedNewKeyword
      modifies this`usingTypes, this`className, this`actualName, this`typeDeclaration, this`addedNewKeyword
      modifies this`internalFieldDeclarations, this`thrown
      ensures Produced(WithNested(db, env, t,
                                  if IsStructType(TypeDefAt(db, t))
                                  then ValueTypeShell(db, env, t, ActualName(db, env, t, old(className)), State())
                                  else RefTypeShell(db, env, t, ActualName(db, env, t, old(className)), State()),
                                  fuel))
      ensures usingTypes == (if IsStructType(TypeDefAt(db, t)) then [] else UsingTypesOf(db, env, t))
      ensures addedNewKeyword <==> !IsStructType(TypeDefAt(db, t)) && t in env.nestedTypeExistsInParent
      decreases fuel, 2
    {
      if IsStructType(TypeDefAt(db, t)) {
        GenerateValueType(fuel);
      } else {
        Generate(fuel);
      }
    }

    // -------------------------------------------------------------------
    // First phase

    /** The loop over the type's methods, up to the first inherited one. */
    method WalkMethods()
      requires State() == Start
      modifies this`pseudoProperties, this`propertyOrder, this`methods
      ensures State() == InferMethods(db, OwnMethods(TypeDefAt(db, t).methods, t))
    {
      var ms := TypeDefAt(db, t).methods;
      var i := 0;
      while i < |ms|
        invariant 0 <= i <= |ms|
        invariant forall j :: 0 <= j < i ==> ms[j].declaringType == Some(t)
        invariant State() == InferMethods(db, ms[..i])
      {
        if ms[i].declaringType != Some(t) {
          break;
        }
        RecordMethod(ms[i]);
        assert ms[..i + 1][..i] == ms[..i];
        i := i + 1;
      }
      OwnMethodsUnique(ms, t, i);
    }

    /** pseudoProperties[k], created at the end of the order when missing. */
    method PropertyNamed(k: string) returns (p: PseudoProperty)
      modifies this`pseudoProperties, this`propertyOrder
      ensures p == PropAt(old(State()), k)
      ensures pseudoProperties == old(pseudoProperties)[k := p]
      ensures propertyOrder == Put(old(State()), k, p).order
    {
      if k !in pseudoProperties {
        pseudoProperties := pseudoProperties[k := Blank];
        propertyOrder := propertyOrder + [k];
      }
      p := pseudoProperties[k];
    }

    /** One iteration of the method loop. */
    method RecordMethod(m: Method)
      modifies this`pseudoProperties, this`propertyOrder, this`methods
      ensures State() == ApplyMethod(db, old(State()), m)
    {
      if m.name.None? {
        return;
      }
      if m.returnType.None? || FullNameOf(db, m.returnType.value).None? {
        return;   // logged as an error
      }
      var name := m.name.value;
      var returnTypeName := FullNameOf(db, m.returnType.value).value;
      if StartsWith(name, "get_") && returnTypeName != "System.Void" {
        if |m.params| == 0 {
          var p := PropertyNamed(name[4..]);
          pseudoProperties := pseudoProperties[name[4..] := p.(getter := Some(m), ty := m.returnType)];
        } else if |m.params| == 1 && name == "get_Item" {
          var p := PropertyNamed(name[4..]);
          pseudoProperties := pseudoProperties[name[4..] :=
            p.(getter := Some(m), ty := m.returnType, indexer := true, indexType := m.params[0].ty)];
        }
      } else if StartsWith(name, "set_") {
        if |m.params| == 1 {
          var p := PropertyNamed(name[4..]);
          pseudoProperties := pseudoProperties[name[4..] := p.(setter := Some(m), ty := m.params[0].ty)];
        } else if |m.params| == 2 && name == "set_Item" {
          var p := PropertyNamed(name[4..]);
          pseudoProperties := pseudoProperties[name[4..] :=
            p.(setter := Some(m), ty := m.params[1].ty, indexer := true, indexType := m.params[0].ty)];
        }
      } else {
        methods := methods + [m];
      }
    }

    /** The loop over the type's fields, up to the first inherited one. */
    method WalkFields() returns (error: Option<Exception>)
      modifies this`pseudoProperties, this`propertyOrder, this`methods, this`fields
      ensures match InferFields(db, old(State()), OwnFields(TypeDefAt(db, t).fields, t))
              case Throws(e) => error == Some(e)
              case Ok(s) => error.None? && State() == s
    {
      ghost var s0 := State();
      var fs := TypeDefAt(db, t).fields;
      ghost var own := OwnFields(fs, t);
      var i := 0;
      while i < |fs|
        invariant 0 <= i <= |fs|
        invariant forall j :: 0 <= j < i ==> fs[j].declaringType == Some(t)
        invariant InferFields(db, s0, fs[..i]) == Ok(State())
      {
        if fs[i].declaringType != Some(t) {
          break;
        }
        ghost var before := State();
        error := RecordField(fs[i]);
        if error.Some? {
          OwnFieldsCover(fs, t, i);
          InferFieldsThrowsAt(db, s0, own, i);
          return;
        }
        InferFieldsSnoc(db, s0, fs, i, before);
        i := i + 1;
      }
      OwnFieldsUnique(fs, t, i);
      error := None;
    }

    /** One iteration of the field loop: keep the field, clean its name,
        and let it remove the accessors and the property of that name. */
    method RecordField(f: Field) returns (error: Option<Exception>)
      modifies this`pseudoProperties, this`propertyOrder, this`methods, this`fields
      ensures match ApplyField(db, old(State()), f)
              case Throws(e) => error == Some(e)
              case Ok(s) => error.None? && State() == s
    {
      error := None;
      if f.name.None? {
        return;
      }
      if f.ty.None? || FullNameOf(db, f.ty.value).None? {
        return;   // logged as an error
      }
      fields := fields + [f];
      var fieldName := f.name.value;
      if StartsWith(fieldName, "<") && EndsWith(fieldName, "k__BackingField") {
        var end := IndexOf(fieldName, ">k__");
        if end < 1 {
          error := Some(ArgumentOutOfRange);
          return;
        }
        fieldName := fieldName[1..end];
      }
      methods := DropAccessors(methods, fieldName);
      pseudoProperties := pseudoProperties - {fieldName};
      propertyOrder := DropKey(propertyOrder, fieldName);
    }

    // -------------------------------------------------------------------
    // Second phase

    /** TypeDeclarationSyntax.AddMembers. */
    method AddMembers(ms: seq<MemberDecl>)
      requires typeDeclaration.Some?
      modifies this`typeDeclaration
      ensures typeDeclaration == Some(Extend(old(typeDeclaration).value, ms))
    {
      typeDeclaration := Some(Extend(typeDeclaration.value, ms));
    }

    /** The declaration `d0` was extended with the declarations of `r`,
        whose cached handles are now the internal field declarations, or
        the exception of `r` was raised. */
    predicate Emitted(d0: TypeDecl, r: Result<Emission>)
      reads this`thrown, this`typeDeclaration, this`internalFieldDeclarations
    {
      match r
      case Throws(e) => thrown == Some(e)
      case Ok(em) => thrown.None? && typeDeclaration == Some(Extend(d0, em.decls))
                     && internalFieldDeclarations == em.internals
    }

    /** Generate: the interface of a reference type, then its nested types. */
    method Generate(fuel: nat)
      requires WellFormed(db) && thrown.None? && internalFieldDeclarations == []
      requires OrderedKeys(State())
      modifies this`usingTypes, this`className, this`actualName, this`typeDeclaration, this`addedNewKeyword
      modifies this`internalFieldDeclarations, this`thrown
      ensures Produced(WithNested(db, env, t, RefTypeShell(db, env, t, ActualName(db, env, t, old(className)), old(State())), fuel))
      ensures usingTypes == UsingTypesOf(db, env, t)
      ensures addedNewKeyword == (t in env.nestedTypeExistsInParent || old(addedNewKeyword))
      decreases fuel, 1
    {
      BuildInterface();
      if thrown.Some? {
        return;
      }
      GenerateNestedTypes(fuel);
    }

    /** GenerateValueType: the struct of a value type, then its nested types. */
    method GenerateValueType(fuel: nat)
      requires WellFormed(db) && thrown.None? && internalFieldDeclarations == []
      requires OrderedKeys(State())
      modifies this`usingTypes, this`className, this`actualName, this`typeDeclaration
      modifies this`internalFieldDeclarations, this`thrown
      ensures Produced(WithNested(db, env, t, ValueTypeShell(db, env, t, ActualName(db, env, t, old(className)), old(State())), fuel))
      ensures usingTypes == []
      decreases fuel, 1
    {
      BuildStruct();
      if thrown.Some? {
        return;
      }
      GenerateNestedTypes(fuel);
    }

    /** The start shared by Generate and GenerateValueType: the declared
        name and an empty public declaration of kind `kind`. */
    method StartDeclaration(kind: DeclKind)
      modifies this`usingTypes, this`className, this`actualName, this`typeDeclaration
      ensures actualName == ActualName(db, env, t, old(className))
      ensures typeDeclaration == Some(TypeDecl(kind, actualName, [Public], [], [], []))
      ensures className == (if TypeDefAt(db, t).declaringType.None? then LastSegment(old(className)) else old(className))
      ensures usingTypes == []
    {
      usingTypes := [];
      if TypeDefAt(db, t).declaringType.None? {
        className := LastSegment(className);
      }
      actualName := env.correctTypeName(className);
      typeDeclaration := Some(TypeDecl(kind, actualName, [Public], [], [], []));
    }

    /** The header of Generate: the declared name, `new` when a parent
        already declares a nested type of that name, and the base-type
        list, which is attached only once the members are in place. */
    method StartInterface() returns (baseTypes: seq<string>)
      requires WellFormed(db)
      modifies this`usingTypes, this`className, this`actualName, this`typeDeclaration, this`addedNewKeyword
      ensures actualName == ActualName(db, env, t, old(className))
      ensures typeDeclaration == Some(TypeDecl(Interface, actualName,
                                               [Public] + (if t in env.nestedTypeExistsInParent then [New] else []),
                                               [], [], []))
      ensures addedNewKeyword == (t in env.nestedTypeExistsInParent || old(addedNewKeyword))
      ensures baseTypes == BaseTypeList(db, env, t)
      ensures usingTypes == UsingTypesOf(db, env, t)
    {
      StartDeclaration(Interface);
      if t in env.nestedTypeExistsInParent {
        typeDeclaration := Some(typeDeclaration.value.(modifiers := typeDeclaration.value.modifiers + [New]));
        addedNewKeyword := true;
      } else {
        assert [Public] + [] == [Public];
      }
      var bases;
      baseTypes, bases := FindBaseType(db, env, t);
      usingTypes := bases;
    }

    /** The header of GenerateValueType: the declared name and an empty
        public struct with explicit layout. */
    method StartStruct()
      modifies this`usingTypes, this`className, this`actualName, this`typeDeclaration
      ensures actualName == ActualName(db, env, t, old(className))
      ensures typeDeclaration == Some(TypeDecl(Struct, actualName, [Public], [StructLayoutExplicit], [], []))
      ensures usingTypes == []
    {
      StartDeclaration(Struct);
      typeDeclaration := Some(typeDeclaration.value.(attrs := typeDeclaration.value.attrs + [StructLayoutExplicit]));
      assert [] + [StructLayoutExplicit] == [StructLayoutExplicit];
    }

    /** The interface up to its nested types. */
    method BuildInterface()
      requires WellFormed(db) && thrown.None? && internalFieldDeclarations == []
      requires OrderedKeys(State())
      modifies this`usingTypes, this`className, this`actualName, this`typeDeclaration, this`addedNewKeyword
      modifies this`internalFieldDeclarations, this`thrown
      ensures Produced(RefTypeShell(db, env, t, ActualName(db, env, t, old(className)), State()))
      ensures usingTypes == UsingTypesOf(db, env, t)
      ensures addedNewKeyword == (t in env.nestedTypeExistsInParent || old(addedNewKeyword))
    {
      var baseTypes := StartInterface();
      CompleteInterface(baseTypes);
    }

    /** Everything of the interface after its header: the members, the base
        list, the REFType field and the cached handles. */
    method CompleteInterface(baseTypes: seq<string>)
      requires WellFormed(db) && thrown.None? && internalFieldDeclarations == []
      requires OrderedKeys(State()) && baseTypes == BaseTypeList(db, env, t)
      requires typeDeclaration == Some(TypeDecl(Interface, actualName,
                                                [Public] + (if t in env.nestedTypeExistsInParent then [New] else []),
                                                [], [], []))
      modifies this`typeDeclaration, this`internalFieldDeclarations, this`thrown
      ensures Produced(RefTypeShell(db, env, t, actualName, State()))
    {
      var hasBase := |baseTypes| > 0;
      ghost var d1 := typeDeclaration.value;
      AddRefMembers(hasBase);
      if thrown.Some? {
        return;
      }
      ghost var em := RefMembers(db, env, t, hasBase, State()).value;
      RefTypeShellOk(db, env, t, actualName, State(), em);
      AddBasesAndHandles(baseTypes, d1, em);
    }

    /** The tail of Generate: the base list, the REFType field (`new` with a
        base type), then the cached handles when there are any. */
    method AddBasesAndHandles(baseTypes: seq<string>, ghost d1: TypeDecl, ghost em: Emission)
      requires d1.baseTypes == [] && d1.members == []
      requires typeDeclaration == Some(Extend(d1, em.decls)) && internalFieldDeclarations == em.internals
      modifies this`typeDeclaration
      ensures typeDeclaration == Some(d1.(baseTypes := baseTypes,
                                          members := em.decls + [TypeHandleField(NameOrEmpty(db, t), |baseTypes| > 0)] + em.internals))
    {
      var hasBase := |baseTypes| > 0;
      if hasBase {
        typeDeclaration := Some(typeDeclaration.value.(baseTypes := typeDeclaration.value.baseTypes + baseTypes));
      }
      ghost var d2 := d1.(baseTypes := baseTypes);
      BasesAfterMembers(d1, em.decls, baseTypes);
      AddMembers([TypeHandleField(NameOrEmpty(db, t), hasBase)]);
      if |internalFieldDeclarations| > 0 {
        AddMembers(internalFieldDeclarations);
      }
      AddedInOrder(d2, em.decls, [TypeHandleField(NameOrEmpty(db, t), hasBase)], em.internals);
    }

    /** The members of Generate after its header: methods, field facades
        and properties, each group adding its cached handles to the
        internal field declarations. */
    method AddRefMembers(hasBase: bool)
      requires thrown.None? && typeDeclaration.Some? && internalFieldDeclarations == []
      requires OrderedKeys(State())
      modifies this`typeDeclaration, this`internalFieldDeclarations, this`thrown
      ensures Emitted(old(typeDeclaration).value, RefMembers(db, env, t, hasBase, State()))
    {
      ghost var d0 := typeDeclaration.value;
      AddMethods(hasBase);
      if thrown.Some? {
        RefMembersMethodsThrow(db, env, t, hasBase, State());
        return;
      }
      AddFieldsAndProperties(hasBase, d0, RefMethodsOf(db, env, hasBase, ValidMethodsOf(db, methods)).value);
    }

    /** The field facades and properties that follow the methods `ms`
        already added to `d0`. */
    method AddFieldsAndProperties(hasBase: bool, ghost d0: TypeDecl, ghost ms: MethodsOut)
      requires thrown.None? && OrderedKeys(State())
      requires RefMethodsOf(db, env, hasBase, ValidMethodsOf(db, methods)) == Ok(ms)
      requires typeDeclaration == Some(Extend(d0, ms.decls)) && internalFieldDeclarations == [] + ms.internals
      modifies this`typeDeclaration, this`internalFieldDeclarations, this`thrown
      ensures Emitted(d0, RefMembers(db, env, t, hasBase, State()))
    {
      AddFields();
      ValidFieldsBounded(db, env, fields);
      if thrown.Some? {
        RefMembersFieldsThrow(db, env, t, hasBase, State());
        return;
      }
      ghost var fs := RefFieldsOf(db, env, TypeDefAt(db, t), Take(ValidFieldsOf(db, env, fields), FieldCap)).value;
      ExtendTwice(d0, ms.decls, fs.decls);
      AppendTwoToEmpty(ms.internals, fs.internals);
      AddPropertiesAfter(hasBase, d0, ms, fs);
    }

    /** The properties that follow the methods `ms` and the field facades
        `fs` already added to `d0`. */
    method AddPropertiesAfter(hasBase: bool, ghost d0: TypeDecl, ghost ms: MethodsOut, ghost fs: Emission)
      requires thrown.None? && OrderedKeys(State())
      requires RefMethodsOf(db, env, hasBase, ValidMethodsOf(db, methods)) == Ok(ms)
      requires (ValidFieldsBounded(db, env, fields);
                RefFieldsOf(db, env, TypeDefAt(db, t), Take(ValidFieldsOf(db, env, fields), FieldCap)) == Ok(fs))
      requires typeDeclaration == Some(Extend(d0, ms.decls + fs.decls))
      requires internalFieldDeclarations == ms.internals + fs.internals
      modifies this`typeDeclaration, this`internalFieldDeclarations
      ensures Emitted(d0, RefMembers(db, env, t, hasBase, State()))
    {
      ghost var ps := PropertiesOf(db, env, hasBase, pseudoProperties, propertyOrder);
      AddProperties(hasBase);
      RefMembersOk(db, env, t, hasBase, State(), ms, fs);
      ExtendTwice(d0, ms.decls + fs.decls, ps.decls);
    }

    /** `ds` were added to the declaration `d0` and `hs` to the internal
        field declarations `i0`. */
    predicate Appended(d0: TypeDecl, i0: seq<MemberDecl>, ds: seq<MemberDecl>, hs: seq<MemberDecl>)
      reads this`thrown, this`typeDeclaration, this`internalFieldDeclarations
    {
      thrown.None? && typeDeclaration == Some(Extend(d0, ds)) && internalFieldDeclarations == i0 + hs
    }

    /** GenerateMethods of a reference type. */
    method AddMethods(hasBase: bool)
      requires thrown.None? && typeDeclaration.Some?
      modifies this`typeDeclaration, this`internalFieldDeclarations, this`thrown
      ensures match RefMethodsOf(db, env, hasBase, ValidMethodsOf(db, methods))
              case Throws(e) => thrown == Some(e)
              case Ok(ms) => Appended(old(typeDeclaration).value, old(internalFieldDeclarations), ms.decls, ms.internals)
    {
      var ms := GenerateMethods(db, env, hasBase, methods);
      if ms.Throws? {
        thrown := Some(ms.error);
        return;
      }
      internalFieldDeclarations := internalFieldDeclarations + ms.value.internals;
      AddMembers(ms.value.decls);
    }

    /** GenerateFields: a property facade per valid field. */
    method AddFields()
      requires thrown.None? && typeDeclaration.Some?
      modifies this`typeDeclaration, this`internalFieldDeclarations, this`thrown
      ensures (ValidFieldsBounded(db, env, fields);
               match RefFieldsOf(db, env, TypeDefAt(db, t), Take(ValidFieldsOf(db, env, fields), FieldCap))
               case Throws(e) => thrown == Some(e)
               case Ok(fs) => Appended(old(typeDeclaration).value, old(internalFieldDeclarations), fs.decls, fs.internals))
    {
      var validFields := GetValidFields(db, env, fields);
      ValidFieldsBounded(db, env, fields);
      var fs := RefFieldsOf(db, env, TypeDefAt(db, t), validFields);
      if fs.Throws? {
        thrown := Some(fs.error);
        return;
      }
      internalFieldDeclarations := internalFieldDeclarations + fs.value.internals;
      AddMembers(fs.value.decls);
    }

    /** GenerateProperties: a property or indexer per pseudo-property, in
        the dictionary's order. */
    method AddProperties(hasBase: bool)
      requires thrown.None? && typeDeclaration.Some?
      requires OrderedKeys(State())
      modifies this`typeDeclaration, this`internalFieldDeclarations
      ensures var ps := PropertiesOf(db, env, hasBase, pseudoProperties, propertyOrder);
              Appended(old(typeDeclaration).value, old(internalFieldDeclarations), ps.decls, ps.internals)
    {
      var ps := PropertiesOf(db, env, hasBase, pseudoProperties, propertyOrder);
      internalFieldDeclarations := internalFieldDeclarations + ps.internals;
      AddMembers(ps.decls);
    }

    /** The struct up to its nested types. */
    method BuildStruct()
      requires thrown.None? && internalFieldDeclarations == []
      requires OrderedKeys(State())
      modifies this`usingTypes, this`className, this`actualName, this`typeDeclaration
      modifies this`internalFieldDeclarations, this`thrown
      ensures Produced(ValueTypeShell(db, env, t, ActualName(db, env, t, old(className)), State()))
      ensures usingTypes == []
    {
      StartStruct();
      ghost var d1 := typeDeclaration.value;
      AddValueMembers();
      if thrown.Some? {
        return;
      }
      ghost var em := ValueMembers(db, env, t, actualName, State()).value;
      AddMembers([TypeHandleField(NameOrEmpty(db, t), false)]);
      if |internalFieldDeclarations| > 0 {
        AddMembers(internalFieldDeclarations);
      }
      AddedInOrder(d1, em.decls, [TypeHandleField(NameOrEmpty(db, t), false)], em.internals);
      ValueTypeShellOk(db, env, t, actualName, State(), em);
    }

    /** The members of GenerateValueType after its header: fields, methods
        and properties. */
    method AddValueMembers()
      requires thrown.None? && typeDeclaration.Some? && internalFieldDeclarations == []
      requires OrderedKeys(State())
      modifies this`typeDeclaration, this`internalFieldDeclarations, this`thrown
      ensures Emitted(old(typeDeclaration).value, ValueMembers(db, env, t, actualName, State()))
    {
      ghost var d0 := typeDeclaration.value;
      AddValueFields();
      ValidFieldsBounded(db, env, fields);
      if thrown.Some? {
        ValueMembersFieldsThrow(db, env, t, actualName, State());
        return;
      }
      ghost var fds := ValueFieldsOf(db, env, Take(ValidFieldsOf(db, env, fields), FieldCap)).value;
      AddValueMethods();
      if thrown.Some? {
        ValueMembersMethodsThrow(db, env, t, actualName, State());
        return;
      }
      ghost var vms := ValueMethodsOf(db, env, TypeDefAt(db, t), actualName, ValidMethodsOf(db, methods)).value;
      ghost var ps := PropertiesOf(db, env, false, pseudoProperties, propertyOrder);
      AddProperties(false);
      ExtendTwice(d0, fds, vms.decls);
      ExtendTwice(d0, fds + vms.decls, ps.decls);
      ValueMembersOk(db, env, t, actualName, State(), fds, vms);
      AppendTwoToEmpty(vms.internals, ps.internals);
    }

    /** GenerateValueTypeFields: a field at its offset per valid field. */
    method AddValueFields()
      requires thrown.None? && typeDeclaration.Some?
      modifies this`typeDeclaration, this`thrown
      ensures (ValidFieldsBounded(db, env, fields);
               match ValueFieldsOf(db, env, Take(ValidFieldsOf(db, env, fields), FieldCap))
               case Throws(e) => thrown == Some(e)
               case Ok(fds) => thrown.None? && typeDeclaration == Some(Extend(old(typeDeclaration).value, fds)))
    {
      var validFields := GetValidFields(db, env, fields);
      ValidFieldsBounded(db, env, fields);
      var fds := ValueFieldsOf(db, env, validFields);
      if fds.Throws? {
        thrown := Some(fds.error);
        return;
      }
      AddMembers(fds.value);
    }

    /** GenerateValueTypeMethods of a struct. */
    method AddValueMethods()
      requires thrown.None? && typeDeclaration.Some?
      modifies this`typeDeclaration, this`internalFieldDeclarations, this`thrown
      ensures match ValueMethodsOf(db, env, TypeDefAt(db, t), actualName, ValidMethodsOf(db, methods))
              case Throws(e) => thrown == Some(e)
              case Ok(vms) => Appended(old(typeDeclaration).value, old(internalFieldDeclarations), vms.decls, vms.internals)
    {
      var vms := GenerateValueTypeMethods(db, env, TypeDefAt(db, t), actualName, methods);
      if vms.Throws? {
        thrown := Some(vms.error);
        return;
      }
      internalFieldDeclarations := internalFieldDeclarations + vms.value.internals;
      AddMembers(vms.value.decls);
    }

    /** GenerateNestedTypes: one member group per nested type, in order. */
    method GenerateNestedTypes(fuel: nat)
      requires WellFormed(db) && thrown.None? && typeDeclaration.Some?
      modifies this`typeDeclaration, this`thrown
      ensures Produced(WithNested(db, env, t, Ok(old(typeDeclaration).value), fuel))
      decreases fuel, 0
    {
      if fuel == 0 {
        return;
      }
      ghost var d0 := typeDeclaration.value;
      ghost var added: seq<MemberDecl> := [];
      ExtendNothing(d0);
      var nestedTypes := NestedIds(db, t);
      var i := 0;
      while i < |nestedTypes|
        invariant 0 <= i <= |nestedTypes|
        invariant thrown.None?
        invariant NestedMembers(db, env, nestedTypes[..i], fuel - 1) == Ok(added)
        invariant typeDeclaration == Some(Extend(d0, added))
      {
        ghost var x := NestedOne(db, env, nestedTypes[i], fuel - 1);
        AddNestedType(nestedTypes[i], fuel - 1);
        if thrown.Some? {
          NestedMembersThrowsAt(db, env, nestedTypes, i, fuel - 1);
          return;
        }
        NestedMembersSnoc(db, env, nestedTypes, i, fuel - 1, added);
        ExtendTwice(d0, added, x.value);
        added := added + x.value;
        i := i + 1;
      }
      assert nestedTypes[..i] == nestedTypes;
    }

    /** The body of the nested-type loop for one nested type `n`. */
    method AddNestedType(n: TypeId, fuel: nat)
      requires WellFormed(db) && thrown.None? && typeDeclaration.Some?
      modifies this`typeDeclaration, this`thrown
      ensures Extended(old(typeDeclaration).value, NestedOne(db, env, n, fuel))
      decreases fuel, 8
    {
      var nestedTypeName := NameOrEmpty(db, n);
      if nestedTypeName == "" || '[' in nestedTypeName || ']' in nestedTypeName || '<' in nestedTypeName {
        ExtendNothing(typeDeclaration.value);
        return;
      }
      if TypeDefAt(db, n).isEnum {
        AddNestedEnum(n, fuel);
      } else {
        AddNestedClass(n, fuel);
      }
    }

    /** A nested enum: its array types, then its declaration unless the
        enum generator declines to make one. */
    method AddNestedEnum(n: TypeId, fuel: nat)
      requires WellFormed(db) && thrown.None? && typeDeclaration.Some?
      modifies this`typeDeclaration, this`thrown
      ensures Extended(old(typeDeclaration).value, NestedEnumMembers(db, env, n, fuel))
      decreases fuel, 6
    {
      ghost var d0 := typeDeclaration.value;
      ghost var am := ArrayMembers(db, env, ArraysOf(env, n), fuel);
      var declName := NestedDeclName(NameOrEmpty(db, n));
      AddArrayTypes(ArraysOf(env, n), fuel);
      if thrown.None? {
        AddEnumDeclaration(n, declName, d0, am.value);
      }
    }

    /** The enum declaration after the array types of nested enum `n`. */
    method AddEnumDeclaration(n: TypeId, declName: string, ghost d0: TypeDecl, ghost arrays: seq<MemberDecl>)
      requires typeDeclaration == Some(Extend(d0, arrays))
      modifies this`typeDeclaration
      ensures typeDeclaration == Some(Extend(d0, arrays + (if n in env.enumsWithoutDeclaration then [] else [NestedEnum(declName, n)])))
    {
      if n !in env.enumsWithoutDeclaration {
        AddMembers([NestedEnum(declName, n)]);
        ExtendTwice(d0, arrays, [NestedEnum(declName, n)]);
      } else {
        assert arrays + [] == arrays;
      }
    }

    /** Any other nested type: its generator, its array types, then its
        declaration. */
    method AddNestedClass(n: TypeId, fuel: nat)
      requires WellFormed(db) && thrown.None? && typeDeclaration.Some?
      modifies this`typeDeclaration, this`thrown
      ensures Extended(old(typeDeclaration).value, NestedClassMembers(db, env, n, fuel))
      decreases fuel, 7
    {
      var declName := NestedDeclName(NameOrEmpty(db, n));
      var generated := RunGenerator(declName, n, fuel);
      if generated.Throws? {
        thrown := Some(generated.error);
        return;
      }
      AddGeneratedNested(n, generated.value, fuel);
    }

    /** The array types of nested type `n`, then the declaration `nested`
        its own generator produced. */
    method AddGeneratedNested(n: TypeId, nested: TypeDecl, fuel: nat)
      requires WellFormed(db) && thrown.None? && typeDeclaration.Some?
      modifies this`typeDeclaration, this`thrown
      ensures Extended(old(typeDeclaration).value,
                       match ArrayMembers(db, env, ArraysOf(env, n), fuel)
                       case Throws(e) => Throws(e)
                       case Ok(arrays) => Ok(arrays + [NestedType(nested)]))
      decreases fuel, 6
    {
      ghost var d0 := typeDeclaration.value;
      ghost var am := ArrayMembers(db, env, ArraysOf(env, n), fuel);
      AddArrayTypes(ArraysOf(env, n), fuel);
      if thrown.Some? {
        return;
      }
      AddMembers([NestedType(nested)]);
      ExtendTwice(d0, am.value, [NestedType(nested)]);
    }

    /** A fresh generator for type `n` under `name`, and what it ends with. */
    method RunGenerator(name: string, n: TypeId, fuel: nat) returns (r: Result<TypeDecl>)
      requires WellFormed(db)
      ensures r == GenerateTypeSpec(db, env, name, n, fuel)
      decreases fuel, 4
    {
      var generator := new ClassGenerator(db, env, name, n, fuel);
      if generator.thrown.Some? {
        return Throws(generator.thrown.value);
      }
      return Ok(generator.typeDeclaration.value);
    }

    /** ForEachArrayType: a generator per array type, under its rename. */
    method AddArrayTypes(arrays: seq<TypeId>, fuel: nat)
      requires WellFormed(db) && thrown.None? && typeDeclaration.Some?
      modifies this`typeDeclaration, this`thrown
      ensures Extended(old(typeDeclaration).value, ArrayMembers(db, env, arrays, fuel))
      decreases fuel, 5
    {
      ghost var d0 := typeDeclaration.value;
      ghost var added: seq<MemberDecl> := [];
      ExtendNothing(d0);
      var i := 0;
      while i < |arrays|
        invariant 0 <= i <= |arrays|
        invariant thrown.None?
        invariant ArrayMembers(db, env, arrays[..i], fuel) == Ok(added)
        invariant typeDeclaration == Some(Extend(d0, added))
      {
        var arrayType := arrays[i];
        if arrayType !in env.typeRenames {
          thrown := Some(KeyNotFound);
          ArrayMembersThrowsAt(db, env, arrays, i, fuel);
          return;
        }
        var generated := RunGenerator(env.typeRenames[arrayType], arrayType, fuel);
        if generated.Throws? {
          thrown := Some(generated.error);
          ArrayMembersThrowsAt(db, env, arrays, i, fuel);
          return;
        }
        var arrayDecl := generated.value;
        AddMembers([NestedType(arrayDecl)]);
        ArrayMembersSnoc(db, env, arrays, i, fuel, added);
        ExtendTwice(d0, added, [NestedType(arrayDecl)]);
        added := added + [NestedType(arrayDecl)];
        i := i + 1;
      }
      assert arrays[..i] == arrays;
    }
  }
}

=== FILE: declarations.dfy ===
/** The declarations the generator emits, as plain records in place of
    syntax trees: type expressions, modifiers, attributes, the statements
    of generated bodies, members and type declarations. */
module Declarations {
  import opened Metadata

  /** Built-in type keywords of the target language. */
  datatype Keyword =
    | VoidKw | FloatKw | DoubleKw | IntKw | UIntKw | ShortKw | UShortKw
    | ByteKw | SByteKw | CharKw | LongKw | ULongKw | BoolKw | StringKw | ObjectKw

  /** A type expression: a keyword, or a name parsed as a type. */
  datatype TypeSyntax = Predefined(keyword: Keyword) | Named(name: string)

  function KeywordText(k: Keyword): string {
    match k
    case VoidKw => "void"
    case FloatKw => "float"
    case DoubleKw => "double"
    case IntKw => "int"
    case UIntKw => "uint"
    case ShortKw => "short"
    case UShortKw => "ushort"
    case ByteKw => "byte"
    case SByteKw => "sbyte"
    case CharKw => "char"
    case LongKw => "long"
    case ULongKw => "ulong"
    case BoolKw => "bool"
    case StringKw => "string"
    case ObjectKw => "object"
  }

  /** GetText() of a type expression. */
  function Text(ts: TypeSyntax): string {
    match ts
    case Predefined(k) => KeywordText(k)
    case Named(n) => n
  }

  datatype Modifier = Public | Private | Static | ReadOnly | New | Unsafe

  datatype FacadeType = FacadeNone | FacadeGetter | FacadeSetter

  datatype Attr =
    | MethodAttr(index: nat, facade: FacadeType)   // [REFrameworkNET.Attributes.Method(index, facade)]
    | SpecialName
    | FieldOffset(offset: int)
    | StructLayoutExplicit

  /** The widening or conversion applied to an argument before it is packed. */
  datatype Conversion = ToDouble | ToLong | ToULong | CreateString | CastIObject

  /** The member of the raw result union a return statement reads. */
  datatype ResultField =
    | DoubleField | SByteField | Int16Field | Int32Field | Int64Field
    | ByteField | WordField | DWordField | QWordField

  /** Statements of generated bodies. Handles name the cached
      private static member (`INTERNAL_<member><index>`). */
  datatype Stmt =
    | InvokeNoArgs(handle: string)                             // h.Invoke(null, null);
    | InvokeWithArgs(handle: string, args: seq<string>)        // h.Invoke(null, new object[] {args});
    | ReturnInvokeBoxed(ty: TypeSyntax, handle: string, boxedArgs: Option<seq<string>>)
    | ThrowNotImplemented
    | ReturnGetDataBoxed(ty: TypeSyntax, handle: string)       // static field getter
    | SetDataBoxed(handle: string)                             // static field setter
    | DeclareInvokeResult                                      // InvokeRet __result;
    | AllocArgSlots(count: nat)                                // Span<ulong> __args = stackalloc ulong[count];
    | Convert(arg: string, conv: Conversion)                   // var arg__conv = ...;
    | StoreBits(slot: nat, arg: string)                        // __args[slot] = (ulong) Unsafe.As<ulong>(ref arg);
    | StoreAddress(slot: nat, arg: string)                     // __args[slot] = (ulong) Unsafe.AsPointer(ref arg);
    | StoreObjectPtr(slot: nat, arg: string)                   // __args[slot] = (ulong) arg.Ptr();
    | PinArgs                                                  // fixed (ulong* __args_ptr = __args)
    | PinThis(typeName: string)                                // fixed (T* __pthis = &this)
    | InvokeRaw(handle: string, packed: bool)                  // h.InvokeRaw(__pthis, __args_ptr, __args.Length) when packed, else (__pthis, 0, 0);
    | AssignInvokeRaw(handle: string, packed: bool)            // __result = h.InvokeRaw(...);
    | ReturnResultField(field: ResultField)                    // return __result.Field;
    | ReturnFloatFromDouble                                    // return (float) __result.Double;
    | ReturnBoolFromByte                                       // return __result.Byte != 0;
    | ReturnReinterpret(ty: TypeSyntax)                        // return Unsafe.As<InvokeRet, T>(ref __result);
    | ReturnManagedObjectAs(ty: TypeSyntax, handle: string)
    | ReturnString(handle: string)

  /** A body, or a bare `;` (declaration only). */
  datatype Body = Declared | Block(stmts: seq<Stmt>)

  datatype AccessorKind = Get | Set

  datatype Accessor = Accessor(kind: AccessorKind, attr: Attr, body: Body)

  datatype ParamModifier = OutMod | RefMod

  datatype ParamDecl = ParamDecl(name: string, ty: string, modifiers: seq<ParamModifier>)

  /** What a cached private static handle resolves. */
  datatype Handle = MethodHandle(signature: string) | FieldHandle(fieldName: string)

  datatype DeclKind = Interface | Struct

  datatype MemberDecl =
    | MethodDecl(name: string, returnType: TypeSyntax, modifiers: seq<Modifier>, attrs: seq<Attr>,
                 params: seq<ParamDecl>, body: Body)
    | PropertyDecl(name: string, ty: TypeSyntax, modifiers: seq<Modifier>, accessors: seq<Accessor>)
    | IndexerDecl(ty: TypeSyntax, indexType: TypeSyntax, modifiers: seq<Modifier>, accessors: seq<Accessor>)
    | FieldDecl(name: string, ty: TypeSyntax, modifiers: seq<Modifier>, attrs: seq<Attr>)
    | HandleField(name: string, handle: Handle)              // private static readonly
    | TypeHandleField(fullName: string, isNew: bool)         // public static readonly [new] REFType
    | NestedType(decl: TypeDecl)
    | NestedEnum(name: string, id: TypeId)                   // produced by the enum generator

  datatype TypeDecl = TypeDecl(
    kind: DeclKind,
    name: string,
    modifiers: seq<Modifier>,
    attrs: seq<Attr>,
    baseTypes: seq<string>,
    members: seq<MemberDecl>)

  /** Generated members together with the cached private static handles
      they use, which are declared separately after the type handle. */
  datatype Emission = Emission(decls: seq<MemberDecl>, internals: seq<MemberDecl>)

  const NoEmission := Emission([], [])

  /** The modifiers of a member, when it has a modifier list. */
  function ModifiersOf(d: MemberDecl): seq<Modifier> {
    match d
    case MethodDecl(_, _, mods, _, _, _) => mods
    case PropertyDecl(_, _, mods, _) => mods
    case IndexerDecl(_, _, mods, _) => mods
    case FieldDecl(_, _, mods, _) => mods
    case _ => []
  }

  /** TypeDeclarationSyntax.AddMembers: `ms` appended to the members of `d`. */
  function Extend(d: TypeDecl, ms: seq<MemberDecl>): (r: TypeDecl)
    ensures |r.members| == |d.members| + |ms|
    ensures r.members[..|d.members|] == d.members && r.members[|d.members|..] == ms
    ensures r.(members := d.members) == d
  {
    d.(members := d.members + ms)
  }

  /** Adding members twice adds both groups in order. */
  lemma ExtendTwice(d: TypeDecl, a: seq<MemberDecl>, b: seq<MemberDecl>)
    ensures Extend(Extend(d, a), b) == Extend(d, a + b)
  {
    assert d.members + a + b == d.members + (a + b);
  }

  /** Adding no members changes nothing. */
  lemma ExtendNothing(d: TypeDecl)
    ensures Extend(d, []) == d
  {
    assert d.members + [] == d.members;
  }

  /** Appending two groups to nothing. */
  lemma AppendTwoToEmpty(a: seq<MemberDecl>, b: seq<MemberDecl>)
    ensures [] + a + b == a + b
  {
  }

  /** AddMembers guarded by a non-empty list, as for the cached handles. */
  function AddIfAny(d: TypeDecl, ms: seq<MemberDecl>): (r: TypeDecl)
    ensures r == Extend(d, ms)
  {
    if |ms| > 0 then Extend(d, ms) else ExtendNothing(d); d
  }

  /** Three groups added to a declaration without members, the last one
      only when it is not empty, give exactly the three groups in order. */
  lemma AddedInOrder(d: TypeDecl, a: seq<MemberDecl>, b: seq<MemberDecl>, c: seq<MemberDecl>)
    requires d.members == []
    ensures AddIfAny(Extend(Extend(d, a), b), c) == d.(members := a + b + c)
  {
    ExtendTwice(d, a, b);
    ExtendTwice(d, a + b, c);
  }

  /** Attaching base types after the members gives the declaration that
      had them from the start. */
  lemma BasesAfterMembers(d: TypeDecl, ms: seq<MemberDecl>, bs: seq<string>)
    requires d.baseTypes == []
    ensures Extend(d, ms).(baseTypes := Extend(d, ms).baseTypes + bs) == Extend(d.(baseTypes := bs), ms)
    ensures bs == [] ==> Extend(d, ms) == Extend(d.(baseTypes := bs), ms)
  {
    assert [] + bs == bs;
  }
}

=== FILE: filters.dfy ===
/** The member filters applied before declarations are emitted:
    GetValidFields (with its cap on the number of fields) and
    GetValidMethods (with its exclusion set). */
module Filters {
  import opened Metadata

  /** The largest number of fields emitted for one type: (ushort.MaxValue - 15) / 2. */
  const FieldCap: nat := (65535 - 15) / 2

  predicate AsciiName(name: string) {
    forall i :: 0 <= i < |name| ==> name[i] as int <= 127
  }

  /** A field GetValidFields keeps: named with ASCII only, of a named type
      whose name has no '!' and is a valid type. */
  predicate IsValidField(db: Tdb, env: Env, f: Field) {
    && f.name.Some?
    && f.ty.Some?
    && FullNameOf(db, f.ty.value).Some?
    && '!' !in FullNameOf(db, f.ty.value).value
    && AsciiName(f.name.value)
    && FullNameOf(db, f.ty.value).value in env.validTypes
  }

  /** All valid fields of `fs`, in order. */
  function ValidFieldsOf(db: Tdb, env: Env, fs: seq<Field>): (r: seq<Field>)
    ensures |r| <= |fs|
    ensures forall f :: f in r <==> f in fs && IsValidField(db, env, f)
  {
    if fs == [] then []
    else (if IsValidField(db, env, fs[0]) then [fs[0]] else []) + ValidFieldsOf(db, env, fs[1..])
  }

  function Take<T>(s: seq<T>, n: nat): seq<T> {
    if |s| <= n then s else s[..n]
  }

  lemma {:induction false} ValidFieldsOfSnoc(db: Tdb, env: Env, fs: seq<Field>, f: Field)
    ensures ValidFieldsOf(db, env, fs + [f]) == ValidFieldsOf(db, env, fs) + (if IsValidField(db, env, f) then [f] else [])
    decreases |fs|
  {
    if fs != [] {
      assert (fs + [f])[1..] == fs[1..] + [f];
      ValidFieldsOfSnoc(db, env, fs[1..], f);
    }
  }

  lemma {:induction false} ValidFieldsOfAppend(db: Tdb, env: Env, a: seq<Field>, b: seq<Field>)
    ensures ValidFieldsOf(db, env, a + b) == ValidFieldsOf(db, env, a) + ValidFieldsOf(db, env, b)
    decreases |a|
  {
    if a != [] {
      assert (a + b)[1..] == a[1..] + b;
      ValidFieldsOfAppend(db, env, a[1..], b);
    } else {
      assert a + b == b;
    }
  }

  /** GetValidFields: the valid fields in order, stopping right after the
      FieldCap-th one. */
  method GetValidFields(db: Tdb, env: Env, fields: seq<Field>) returns (valid: seq<Field>)
    ensures valid == Take(ValidFieldsOf(db, env, fields), FieldCap)
  {
    valid := [];
    var totalFields := 0;
    var i := 0;
    while i < |fields|
      invariant 0 <= i <= |fields|
      invariant valid == ValidFieldsOf(db, env, fields[..i])
      invariant totalFields == |valid| < FieldCap
    {
      var field := fields[i];
      assert fields[..i + 1] == fields[..i] + [field];
      ValidFieldsOfSnoc(db, env, fields[..i], field);
      if IsValidField(db, env, field) {
        totalFields := totalFields + 1;
        valid := valid + [field];
        if totalFields >= FieldCap {
          ValidFieldsOfAppend(db, env, fields[..i + 1], fields[i + 1..]);
          assert fields == fields[..i + 1] + fields[i + 1..];
          ghost var all := ValidFieldsOf(db, env, fields);
          assert all == valid + ValidFieldsOf(db, env, fields[i + 1..]);
          assert all[..FieldCap] == valid;
          return;
        }
      }
      i := i + 1;
    }
    assert fields[..i] == fields;
  }

  /** What GetValidFields promises: only valid fields, never more than
      FieldCap of them, and all of them when there are no more than FieldCap. */
  lemma ValidFieldsBounded(db: Tdb, env: Env, fields: seq<Field>)
    ensures |Take(ValidFieldsOf(db, env, fields), FieldCap)| <= FieldCap
    ensures forall f :: f in Take(ValidFieldsOf(db, env, fields), FieldCap) ==> f in fields && IsValidField(db, env, f)
    ensures |ValidFieldsOf(db, env, fields)| <= FieldCap ==>
              forall f :: f in fields && IsValidField(db, env, f) ==> f in Take(ValidFieldsOf(db, env, fields), FieldCap)
  {
    var all := ValidFieldsOf(db, env, fields);
    forall f | f in Take(all, FieldCap) ensures f in all {
      if |all| > FieldCap {
        var j :| 0 <= j < FieldCap && all[..FieldCap][j] == f;
        assert all[j] == f;
      }
    }
  }

  /** Method names never emitted. */
  const InvalidMethodNames: set<string> := {"Finalize", ".ctor", ".cctor"}

  /** A method the filter would fault on (a null name or return type name).
      The walk's exception handler then ends the filter with what it has. */
  predicate FaultsFilter(db: Tdb, m: Method) {
    m.name.None? || (m.name.value !in InvalidMethodNames && '<' !in m.name.value && ReturnTypeName(db, m).None?)
  }

  /** A method GetValidMethods keeps. */
  predicate IsValidMethod(db: Tdb, m: Method) {
    && m.name.Some?
    && m.name.value !in InvalidMethodNames
    && '<' !in m.name.value
    && ReturnTypeName(db, m).Some?
    && '!' !in ReturnTypeName(db, m).value
  }

  /** The valid methods of `ms` in order, up to the first faulting one. */
  function ValidMethodsOf(db: Tdb, ms: seq<Method>): (r: seq<Method>)
    ensures |r| <= |ms|
    ensures forall m :: m in r ==> m in ms && IsValidMethod(db, m)
  {
    if ms == [] || FaultsFilter(db, ms[0]) then []
    else (if IsValidMethod(db, ms[0]) then [ms[0]] else []) + ValidMethodsOf(db, ms[1..])
  }

  lemma {:induction false} ValidMethodsOfSnoc(db: Tdb, ms: seq<Method>, m: Method)
    requires forall i :: 0 <= i < |ms| ==> !FaultsFilter(db, ms[i])
    ensures ValidMethodsOf(db, ms + [m]) ==
            ValidMethodsOf(db, ms) + (if !FaultsFilter(db, m) && IsValidMethod(db, m) then [m] else [])
    decreases |ms|
  {
    if ms != [] {
      assert (ms + [m])[1..] == ms[1..] + [m];
      ValidMethodsOfSnoc(db, ms[1..], m);
    }
  }

  lemma {:induction false} ValidMethodsOfStops(db: Tdb, ms: seq<Method>, i: nat)
    requires i < |ms| && FaultsFilter(db, ms[i])
    requires forall j :: 0 <= j < i ==> !FaultsFilter(db, ms[j])
    ensures ValidMethodsOf(db, ms) == ValidMethodsOf(db, ms[..i])
    decreases i
  {
    if i > 0 {
      ValidMethodsOfStops(db, ms[1..], i - 1);
      assert ms[..i][1..] == ms[1..][..i - 1];
    }
  }

  /** GetValidMethods. */
  method GetValidMethods(db: Tdb, methods: seq<Method>) returns (valid: seq<Method>)
    ensures valid == ValidMethodsOf(db, methods)
  {
    valid := [];
    var i := 0;
    while i < |methods|
      invariant 0 <= i <= |methods|
      invariant forall j :: 0 <= j < i ==> !FaultsFilter(db, methods[j])
      invariant valid == ValidMethodsOf(db, methods[..i])
    {
      var m := methods[i];
      if FaultsFilter(db, m) {
        // the exception raised on a null name or return type name is caught
        // outside the loop
        ValidMethodsOfStops(db, methods, i);
        return;
      }
      assert methods[..i + 1] == methods[..i] + [m];
      ValidMethodsOfSnoc(db, methods[..i], m);
      if m.name.value in InvalidMethodNames {
      } else if '<' in m.name.value {
      } else if '!' in ReturnTypeName(db, m).value {
      } else {
        valid := valid + [m];
      }
      i := i + 1;
    }
    assert methods[..i] == methods;
  }

  /** On methods that all have a name and a named return type (which the
      constructor guarantees) the filter is exact: it keeps precisely the
      valid methods, in order. */
  lemma {:induction false} ValidMethodsExact(db: Tdb, ms: seq<Method>)
    requires forall m :: m in ms ==> m.name.Some? && ReturnTypeName(db, m).Some?
    ensures forall m :: m in ValidMethodsOf(db, ms) <==> m in ms && IsValidMethod(db, m)
    decreases |ms|
  {
    if ms != [] {
      ValidMethodsExact(db, ms[1..]);
    }
  }
}

=== FILE: metadata.dfy ===
/** The reflected metadata the generator reads (types, methods, fields,
    parameters, runtime parameter facts, override extension data) and the
    read-only tables owned by the surrounding assembly generator. */
module Metadata {

  datatype Option<+T> = None | Some(value: T)

  /** The .NET exceptions the generator can raise on malformed metadata. */
  datatype Exception =
    | ArgumentOutOfRange   // a range or list index outside the string/list
    | NullReference        // a member access through a null reference
    | KeyNotFound          // a dictionary indexer on a missing key
    | NotImplemented       // an unsupported return kind in the raw calling convention

  datatype Result<+T> = Ok(value: T) | Throws(error: Exception)

  /** Identity of a type in the metadata table. */
  type TypeId = nat

  /** The runtime's object kind of a type (VMObjType). */
  datatype VMObjType = NullKind | Object | Array | String | Delegate | ValType

  /** One entry of a method's declared parameter list (Method.Parameters). */
  datatype Param = Param(ty: Option<TypeId>)

  /** Per-parameter facts that the source obtains from the reflection
      object returned by GetParameters(). */
  datatype RuntimeParam = RuntimeParam(
    name: Option<string>,      // get_Name()
    hasParameterType: bool,    // get_ParameterType() != null
    isByRef: bool,             // IsByRefImpl()
    isPointer: bool,           // IsPointerImpl()
    isOut: bool,               // get_IsOut(), false where the runtime lacks it
    typeHandle: Option<TypeId>) // get_TypeHandle()

  /** What GetRuntimeMethod() / Call("GetParameters") produce. */
  datatype RuntimeInfo =
    | NoRuntimeMethod                     // GetRuntimeMethod() returned null
    | NoParameterInfo                     // GetParameters() was not a managed object
    | Parameters(params: seq<RuntimeParam>)

  /** The dump's method extension: override flag and the declaring types of
      the ancestor methods it overrides. */
  datatype MethodExt = MethodExt(isOverride: Option<bool>, matchingParentDeclaringTypes: seq<TypeId>)

  datatype Method = Method(
    name: Option<string>,
    declaringType: Option<TypeId>,
    returnType: Option<TypeId>,
    params: seq<Param>,
    isStatic: bool,
    index: nat,
    signature: string,          // GetMethodSignature()
    runtime: RuntimeInfo,
    ext: Option<MethodExt>)     // Il2CppDump.GetMethodExtension

  datatype Field = Field(
    name: Option<string>,
    declaringType: Option<TypeId>,
    ty: Option<TypeId>,
    isStatic: bool,
    index: nat,
    offset: int)                // OffsetFromFieldPtr

  /** A foreign type. `methods` and `fields` list the type's own members
      first, followed by inherited ones. */
  datatype TypeDef = TypeDef(
    fullName: Option<string>,
    parent: Option<TypeId>,
    declaringType: Option<TypeId>,      // enclosing type of a nested type
    isValueType: bool,
    isEnum: bool,
    isPrimitive: bool,
    vmObjType: VMObjType,
    methods: seq<Method>,
    fields: seq<Field>,
    nestedTypes: Option<seq<TypeId>>)   // Il2CppDump.GetTypeExtension(t)?.NestedTypes

  datatype Tdb = Tdb(types: map<TypeId, TypeDef>)

  /** Tables and helpers of the surrounding assembly generator, read-only here. */
  datatype Env = Env(
    validTypes: set<string>,
    typeFullRenames: map<TypeId, string>,
    typeRenames: map<TypeId, string>,
    correctTypeName: string -> string,
    fixBadChars: string -> string,
    nestedTypeExistsInParent: set<TypeId>,
    arrayTypes: map<TypeId, seq<TypeId>>,     // ForEachArrayType
    enumsWithoutDeclaration: set<TypeId>)     // EnumGenerator yields no declaration

  const NoType := TypeDef(None, None, None, false, false, false, NullKind, [], [], None)

  /** The metadata of `id`; an id outside the table reads as a type without a name. */
  function TypeDefAt(db: Tdb, id: TypeId): TypeDef {
    if id in db.types then db.types[id] else NoType
  }

  function FullNameOf(db: Tdb, id: TypeId): Option<string> {
    TypeDefAt(db, id).fullName
  }

  /** GetFullName(): the full name, or "" where the runtime has none. */
  function NameOrEmpty(db: Tdb, id: TypeId): string {
    match FullNameOf(db, id)
    case Some(n) => n
    case None => ""
  }

  function ParentOf(db: Tdb, id: TypeId): Option<TypeId> {
    TypeDefAt(db, id).parent
  }

  /** validTypes.Contains(type.FullName); a null name is never contained. */
  predicate IsValidType(db: Tdb, env: Env, id: TypeId) {
    FullNameOf(db, id).Some? && FullNameOf(db, id).value in env.validTypes
  }

  /** Every parent link points to a smaller id, so parent chains are finite. */
  ghost predicate WellFormed(db: Tdb) {
    forall id | id in db.types :: db.types[id].parent.Some? ==> db.types[id].parent.value < id
  }

  function FirstFieldNamed(fs: seq<Field>, name: string): (r: Option<Field>)
    ensures r.Some? ==> r.value in fs && r.value.name == Some(name)
    ensures r.None? ==> forall f :: f in fs ==> f.name != Some(name)
  {
    if fs == [] then None
    else if fs[0].name == Some(name) then Some(fs[0])
    else FirstFieldNamed(fs[1..], name)
  }

  function FirstMethodNamed(ms: seq<Method>, name: string): (r: Option<Method>)
    ensures r.Some? ==> r.value in ms && r.value.name == Some(name)
    ensures r.None? ==> forall m :: m in ms ==> m.name != Some(name)
  {
    if ms == [] then None
    else if ms[0].name == Some(name) then Some(ms[0])
    else FirstMethodNamed(ms[1..], name)
  }

  /** TypeDefinition.FindField: the first field of that name the type exposes. */
  function FindField(db: Tdb, id: TypeId, name: string): Option<Field> {
    FirstFieldNamed(TypeDefAt(db, id).fields, name)
  }

  /** TypeDefinition.FindMethod: the first method of that name the type exposes. */
  function FindMethod(db: Tdb, id: TypeId, name: string): Option<Method> {
    FirstMethodNamed(TypeDefAt(db, id).methods, name)
  }

  /** The name of a method's return type, when both exist. */
  function ReturnTypeName(db: Tdb, m: Method): Option<string> {
    if m.returnType.None? then None else FullNameOf(db, m.returnType.value)
  }

  /** The own-member boundary: the longest prefix of `ms` declared by `t`. */
  function OwnMethods(ms: seq<Method>, t: TypeId): (r: seq<Method>)
    ensures |r| <= |ms| && r == ms[..|r|]
    ensures forall i :: 0 <= i < |r| ==> r[i].declaringType == Some(t)
    ensures |r| < |ms| ==> ms[|r|].declaringType != Some(t)
  {
    if ms == [] || ms[0].declaringType != Some(t) then []
    else [ms[0]] + OwnMethods(ms[1..], t)
  }

  function OwnFields(fs: seq<Field>, t: TypeId): (r: seq<Field>)
    ensures |r| <= |fs| && r == fs[..|r|]
    ensures forall i :: 0 <= i < |r| ==> r[i].declaringType == Some(t)
    ensures |r| < |fs| ==> fs[|r|].declaringType != Some(t)
  {
    if fs == [] || fs[0].declaringType != Some(t) then []
    else [fs[0]] + OwnFields(fs[1..], t)
  }

  /** A prefix made of own members that stops at the end or at a foreign
      member is exactly the own-member prefix. */
  lemma {:induction false} OwnMethodsUnique(ms: seq<Method>, t: TypeId, i: nat)
    requires i <= |ms|
    requires forall j :: 0 <= j < i ==> ms[j].declaringType == Some(t)
    requires i == |ms| || ms[i].declaringType != Some(t)
    ensures OwnMethods(ms, t) == ms[..i]
  {
  }

  lemma {:induction false} OwnFieldsUnique(fs: seq<Field>, t: TypeId, i: nat)
    requires i <= |fs|
    requires forall j :: 0 <= j < i ==> fs[j].declaringType == Some(t)
    requires i == |fs| || fs[i].declaringType != Some(t)
    ensures OwnFields(fs, t) == fs[..i]
  {
  }

  /** When the first `i + 1` fields are own fields, the own-field prefix
      reaches past position `i`. */
  lemma OwnFieldsCover(fs: seq<Field>, t: TypeId, i: nat)
    requires i < |fs|
    requires forall j :: 0 <= j <= i ==> fs[j].declaringType == Some(t)
    ensures i < |OwnFields(fs, t)| && OwnFields(fs, t)[..i] == fs[..i] && OwnFields(fs, t)[i] == fs[i]
  {
    var r := OwnFields(fs, t);
    assert |r| < |fs| ==> fs[|r|].declaringType != Some(t);
  }
}

=== FILE: properties.dfy ===
/** Properties and indexers (GenerateProperties): one declaration per
    inferred pseudo-property, in the dictionary's order, with a getter and a
    setter bound to the accessor methods by index. */
module Properties {
  import opened Metadata
  import opened Strings
  import opened Declarations
  import opened TypeNames
  import opened PropertyInference
  import opened RefMethods

  /** The shadow test of one accessor: it overrides a method of a generated
      type, or, with a base type present, the parent of the accessor's
      declaring type has a field under the property's name or under its
      backing-field name. */
  predicate AccessorShadows(db: Tdb, env: Env, hasBase: bool, m: Method, name: string) {
    || OverridesGenerated(db, env, hasBase, m)
    || (&& hasBase
        && m.declaringType.Some?
        && ParentOf(db, m.declaringType.value).Some?
        && var p := ParentOf(db, m.declaringType.value).value;
           FindField(db, p, name).Some? || FindField(db, p, "<" + name + ">k__BackingField").Some?)
  }

  /** The accessor for a getter, with the body of a static getter. */
  function GetAccessor(ty: TypeSyntax, name: string, g: Method): Accessor {
    Accessor(Get, MethodAttr(g.index, FacadeNone),
             if g.isStatic then Block([ReturnInvokeBoxed(ty, InternalName(name, g.index), None)]) else Declared)
  }

  /** The accessor for a setter, with the body of a static setter. */
  function SetAccessor(name: string, s: Method): Accessor {
    Accessor(Set, MethodAttr(s.index, FacadeNone),
             if s.isStatic then Block([InvokeWithArgs(InternalName(name, s.index), ["value"])]) else Declared)
  }

  function HandleOf(name: string, m: Method): seq<MemberDecl> {
    if m.isStatic then [HandleField(InternalName(name, m.index), MethodHandle(m.signature))] else []
  }

  function IsStaticAccessor(m: Option<Method>): bool {
    m.Some? && m.value.isStatic
  }

  function Shadows(db: Tdb, env: Env, hasBase: bool, m: Option<Method>, name: string): bool {
    m.Some? && AccessorShadows(db, env, hasBase, m.value, name)
  }

  /** One property (or indexer) with the handles of its static accessors. */
  function BuildProperty(db: Tdb, env: Env, hasBase: bool, name: string, pp: PseudoProperty): (r: Emission)
    ensures |r.decls| == 1 && DeclaresProperty(db, env, hasBase, r.decls[0], name, pp)
    ensures |r.internals| == (if IsStaticAccessor(pp.getter) then 1 else 0) + (if IsStaticAccessor(pp.setter) then 1 else 0)
    ensures IsStaticAccessor(pp.getter) ==>
              HandleField(InternalName(name, pp.getter.value.index), MethodHandle(pp.getter.value.signature)) in r.internals
    ensures IsStaticAccessor(pp.setter) ==>
              HandleField(InternalName(name, pp.setter.value.index), MethodHandle(pp.setter.value.signature)) in r.internals
  {
    var ty := MakeProperType(db, env, pp.ty);
    var accessors := (if pp.getter.Some? then [GetAccessor(ty, name, pp.getter.value)] else [])
                     + (if pp.setter.Some? then [SetAccessor(name, pp.setter.value)] else []);
    var handles := (if pp.getter.Some? then HandleOf(name, pp.getter.value) else [])
                   + (if pp.setter.Some? then HandleOf(name, pp.setter.value) else []);
    var mods := [Public]
                + (if IsStaticAccessor(pp.getter) || IsStaticAccessor(pp.setter) then [Static] else [])
                + (if Shadows(db, env, hasBase, pp.getter, name) || Shadows(db, env, hasBase, pp.setter, name)
                   then [New] else []);
    var decl := if pp.indexer then IndexerDecl(ty, MakeProperType(db, env, pp.indexType), mods, accessors)
                else PropertyDecl(name, ty, mods, accessors);
    Emission([decl], handles)
  }

  /** `d` declares pseudo-property `pp` under key `k`: an indexer exactly
      when the property is one, a getter bound to the getter method and a
      setter bound to the setter method (each present exactly when the
      method is), static when either accessor is, `new` when either
      accessor shadows. */
  predicate DeclaresProperty(db: Tdb, env: Env, hasBase: bool, d: MemberDecl, k: string, pp: PseudoProperty) {
    && (d.IndexerDecl? <==> pp.indexer)
    && (d.PropertyDecl? <==> !pp.indexer)
    && (d.PropertyDecl? ==> d.name == k)
    && (d.PropertyDecl? || d.IndexerDecl?)
    && d.ty == MakeProperType(db, env, pp.ty)
    && (d.IndexerDecl? ==> d.indexType == MakeProperType(db, env, pp.indexType))
    && |d.accessors| == (if pp.getter.Some? then 1 else 0) + (if pp.setter.Some? then 1 else 0)
    && (pp.getter.Some? ==> d.accessors[0].kind == Get && d.accessors[0].attr == MethodAttr(pp.getter.value.index, FacadeNone))
    && (pp.setter.Some? ==>
          d.accessors[|d.accessors| - 1].kind == Set
          && d.accessors[|d.accessors| - 1].attr == MethodAttr(pp.setter.value.index, FacadeNone))
    && StaticAccessorBodies(d, k, pp)
    && (Static in d.modifiers <==> IsStaticAccessor(pp.getter) || IsStaticAccessor(pp.setter))
    && (New in d.modifiers <==> Shadows(db, env, hasBase, pp.getter, k) || Shadows(db, env, hasBase, pp.setter, k))
  }

  /** The accessor bodies of `d`: an instance accessor is only declared; a
      static getter returns the property type boxed from its cached handle
      invoked without arguments, and a static setter invokes its cached
      handle with `value`. Each handle is INTERNAL_ + key + accessor index. */
  predicate StaticAccessorBodies(d: MemberDecl, k: string, pp: PseudoProperty)
    requires d.PropertyDecl? || d.IndexerDecl?
    requires |d.accessors| == (if pp.getter.Some? then 1 else 0) + (if pp.setter.Some? then 1 else 0)
  {
    && (pp.getter.Some? ==>
          d.accessors[0].body == (if pp.getter.value.isStatic
                                  then Block([ReturnInvokeBoxed(d.ty, InternalName(k, pp.getter.value.index), None)])
                                  else Declared))
    && (pp.setter.Some? ==>
          d.accessors[|d.accessors| - 1].body == (if pp.setter.value.isStatic
                                                  then Block([InvokeWithArgs(InternalName(k, pp.setter.value.index), ["value"])])
                                                  else Declared))
  }

  /** GenerateProperties: the pseudo-properties in dictionary order. */
  function PropertiesOf(db: Tdb, env: Env, hasBase: bool, props: map<string, PseudoProperty>, order: seq<string>): Emission
    requires forall k :: k in order ==> k in props
    decreases |order|
  {
    if order == [] then NoEmission
    else
      var acc := PropertiesOf(db, env, hasBase, props, order[..|order| - 1]);
      var k := order[|order| - 1];
      var x := BuildProperty(db, env, hasBase, k, props[k]);
      Emission(acc.decls + x.decls, acc.internals + x.internals)
  }

  /** The last key contributes the last declaration. */
  lemma PropertiesSnoc(db: Tdb, env: Env, hasBase: bool, props: map<string, PseudoProperty>, order: seq<string>)
    requires forall k :: k in order ==> k in props
    requires order != []
    ensures forall k :: k in order[..|order| - 1] ==> k in props
    ensures PropertiesOf(db, env, hasBase, props, order).decls
            == PropertiesOf(db, env, hasBase, props, order[..|order| - 1]).decls
               + [BuildProperty(db, env, hasBase, order[|order| - 1], props[order[|order| - 1]]).decls[0]]
  {
    assert forall k :: k in order[..|order| - 1] ==> k in order;
  }

  /** One declaration per key. */
  lemma {:induction false} PropertiesLength(db: Tdb, env: Env, hasBase: bool, props: map<string, PseudoProperty>, order: seq<string>)
    requires forall k :: k in order ==> k in props
    ensures |PropertiesOf(db, env, hasBase, props, order).decls| == |order|
    decreases |order|
  {
    if order != [] {
      PropertiesSnoc(db, env, hasBase, props, order);
      PropertiesLength(db, env, hasBase, props, order[..|order| - 1]);
    }
  }

  /** Adding a key keeps the declarations of the keys before it. */
  lemma PropertiesPrefix(db: Tdb, env: Env, hasBase: bool, props: map<string, PseudoProperty>, order: seq<string>)
    requires forall k :: k in order ==> k in props
    requires order != []
    ensures forall k :: k in order[..|order| - 1] ==> k in props
    ensures var pre := PropertiesOf(db, env, hasBase, props, order[..|order| - 1]).decls;
            && |PropertiesOf(db, env, hasBase, props, order).decls| == |pre| + 1
            && PropertiesOf(db, env, hasBase, props, order).decls[..|pre|] == pre
  {
    PropertiesSnoc(db, env, hasBase, props, order);
  }

  /** The declaration at position `i` is the one built for the `i`-th key. */
  lemma {:induction false} PropertyAt(db: Tdb, env: Env, hasBase: bool, props: map<string, PseudoProperty>, order: seq<string>, i: nat)
    requires forall k :: k in order ==> k in props
    requires i < |order|
    ensures |PropertiesOf(db, env, hasBase, props, order).decls| == |order|
    ensures PropertiesOf(db, env, hasBase, props, order).decls[i] == BuildProperty(db, env, hasBase, order[i], props[order[i]]).decls[0]
    decreases |order|
  {
    var pre := order[..|order| - 1];
    PropertiesLength(db, env, hasBase, props, order);
    if i == |pre| {
      PropertiesSnoc(db, env, hasBase, props, order);
    } else {
      PropertiesPrefix(db, env, hasBase, props, order);
      PropertiesLength(db, env, hasBase, props, pre);
      assert order[i] == pre[i];
      PropertyAt(db, env, hasBase, props, pre, i);
      var ds0 := PropertiesOf(db, env, hasBase, props, pre).decls;
      assert PropertiesOf(db, env, hasBase, props, order).decls[..|ds0|][i] == ds0[i];
    }
  }

  /** One declaration per key, in order, each declaring that key's
      pseudo-property. */
  lemma PropertyPerKey(db: Tdb, env: Env, hasBase: bool, props: map<string, PseudoProperty>, order: seq<string>)
    requires forall k :: k in order ==> k in props
    ensures var r := PropertiesOf(db, env, hasBase, props, order);
            && |r.decls| == |order|
            && forall i :: 0 <= i < |order| ==> DeclaresProperty(db, env, hasBase, r.decls[i], order[i], props[order[i]])
  {
    if order != [] {
      PropertyAt(db, env, hasBase, props, order, 0);
    }
    forall i | 0 <= i < |order|
      ensures DeclaresProperty(db, env, hasBase, PropertiesOf(db, env, hasBase, props, order).decls[i], order[i], props[order[i]])
    {
      PropertyAt(db, env, hasBase, props, order, i);
    }
  }

  /** The number of static accessors among the properties of `order`. */
  function StaticAccessorCount(props: map<string, PseudoProperty>, order: seq<string>): nat
    requires forall k :: k in order ==> k in props
    decreases |order|
  {
    if order == [] then 0
    else
      var pp := props[order[|order| - 1]];
      StaticAccessorCount(props, order[..|order| - 1])
      + (if IsStaticAccessor(pp.getter) then 1 else 0) + (if IsStaticAccessor(pp.setter) then 1 else 0)
  }

  /** Each static accessor declares exactly one cached method handle. */
  lemma {:induction false} HandlePerStaticAccessor(db: Tdb, env: Env, hasBase: bool, props: map<string, PseudoProperty>, order: seq<string>)
    requires forall k :: k in order ==> k in props
    ensures |PropertiesOf(db, env, hasBase, props, order).internals| == StaticAccessorCount(props, order)
    ensures forall h :: h in PropertiesOf(db, env, hasBase, props, order).internals ==> h.HandleField? && h.handle.MethodHandle?
    decreases |order|
  {
    if order != [] {
      assert forall j :: j in order[..|order| - 1] ==> j in order;
      HandlePerStaticAccessor(db, env, hasBase, props, order[..|order| - 1]);
    }
  }

  /** A property is `new` only with a base type, and then because one of
      its accessors overrides a method of a generated type or the parent of
      the accessor's declaring type has a field under the property's name
      or its backing-field name. */
  lemma PropertyShadowing(db: Tdb, env: Env, hasBase: bool, name: string, pp: PseudoProperty)
    requires New in BuildProperty(db, env, hasBase, name, pp).decls[0].modifiers
    ensures hasBase
    ensures exists m :: && (pp.getter == Some(m) || pp.setter == Some(m))
                        && (|| (m.ext.Some? && m.ext.value.isOverride == Some(true)
                                && exists d :: d in m.ext.value.matchingParentDeclaringTypes && IsValidType(db, env, d))
                            || (&& m.declaringType.Some? && ParentOf(db, m.declaringType.value).Some?
                                && exists g :: g in TypeDefAt(db, ParentOf(db, m.declaringType.value).value).fields
                                               && (g.name == Some(name) || g.name == Some("<" + name + ">k__BackingField"))))
  {
    var m := if Shadows(db, env, hasBase, pp.getter, name) then pp.getter.value else pp.setter.value;
    if !OverridesGenerated(db, env, hasBase, m) {
      var p := ParentOf(db, m.declaringType.value).value;
      if FindField(db, p, name).Some? {
        assert FindField(db, p, name).value in TypeDefAt(db, p).fields;
      } else {
        assert FindField(db, p, "<" + name + ">k__BackingField").value in TypeDefAt(db, p).fields;
      }
    }
  }

  /** The parent-field test of a property does not ask whether the field's
      declaring type is generated, unlike the field-facade test: here the
      parent P of the getter's type T is not generated, yet its field X
      marks the property X of T `new`. */
  lemma ParentFieldShadowIgnoresValidTypes()
    ensures var g := Field(Some("X"), Some(1), Some(0), false, 0, 0);
            var get := Method(Some("get_X"), Some(2), Some(0), [], false, 0, "X()", NoRuntimeMethod, None);
            var types := map[0 := NoType.(fullName := Some("G")),
                             1 := NoType.(fullName := Some("P"), parent := Some(0), fields := [g]),
                             2 := NoType.(fullName := Some("T"), parent := Some(1), methods := [get])];
            var db := Tdb(types);
            var env := Env({"G", "T"}, map[], map[], s => s, s => s, {}, map[], {});
            && AccessorShadows(db, env, true, get, "X")
            && !IsValidType(db, env, 1)
            && FindField(db, 1, "X") == Some(g)
            && !IsValidType(db, env, g.declaringType.value)
  {
  }

  /** Without a base type (every struct) no property is `new`: both shadow
      tests need a base type. */
  lemma NoBaseNoShadow(db: Tdb, env: Env, props: map<string, PseudoProperty>, order: seq<string>)
    requires forall k :: k in order ==> k in props
    ensures forall d :: d in PropertiesOf(db, env, false, props, order).decls ==> New !in ModifiersOf(d)
  {
    PropertyPerKey(db, env, false, props, order);
  }
}

=== FILE: property_inference.dfy ===
/** The constructor's first phase: walking a type's own methods and fields,
    grouping get_X/set_X accessors into pseudo-properties keyed by X,
    collecting every other method, collecting the fields, and letting each
    field remove the property and accessor methods of the same (cleaned)
    name. Specified here as folds over the member lists; the loops that
    compute them are methods of ClassGenerator. */
module PropertyInference {
  import opened Metadata
  import opened Strings

  /** One inferred property: the accessors found for it, its value type,
      and for an indexer its index type. */
  datatype PseudoProperty = PseudoProperty(
    getter: Option<Method>,
    setter: Option<Method>,
    ty: Option<TypeId>,
    indexer: bool,
    indexType: Option<TypeId>)

  const Blank := PseudoProperty(None, None, None, false, None)

  /** How the method walk treats one own method. */
  datatype Role =
    | Skipped       // no name, or no return type name: logged and ignored
    | Getter        // get_X, non-void, no parameters
    | IndexGetter   // get_Item, non-void, one parameter
    | Setter        // set_X, one parameter
    | IndexSetter   // set_Item, two parameters
    | Dropped       // any other non-void get_ or any set_ arity: neither property nor method
    | Plain         // everything else: an ordinary method

  const GetterRoles: set<Role> := {Getter, IndexGetter}
  const SetterRoles: set<Role> := {Setter, IndexSetter}
  const AccessorRoles: set<Role> := {Getter, IndexGetter, Setter, IndexSetter}
  const IndexRoles: set<Role> := {IndexGetter, IndexSetter}

  function Classify(db: Tdb, m: Method): Role {
    if m.name.None? || ReturnTypeName(db, m).None? then Skipped
    else
      var n := m.name.value;
      if StartsWith(n, "get_") && ReturnTypeName(db, m).value != "System.Void" then
        if |m.params| == 0 then Getter
        else if |m.params| == 1 && n == "get_Item" then IndexGetter
        else Dropped
      else if StartsWith(n, "set_") then
        if |m.params| == 1 then Setter
        else if |m.params| == 2 && n == "set_Item" then IndexSetter
        else Dropped
      else Plain
  }

  /** The property name of an accessor: its name without the get_/set_ prefix. */
  function PropertyKey(m: Method): string {
    if m.name.Some? && |m.name.value| >= 4 then m.name.value[4..] else ""
  }

  /** The type of parameter `i`, None when it has none or does not exist. */
  function ParamType(m: Method, i: nat): Option<TypeId> {
    if i < |m.params| then m.params[i].ty else None
  }

  /** The value type an accessor records for its property. */
  function AccessorType(db: Tdb, m: Method): Option<TypeId> {
    match Classify(db, m)
    case Getter => m.returnType
    case IndexGetter => m.returnType
    case Setter => ParamType(m, 0)
    case IndexSetter => ParamType(m, 1)
    case _ => None
  }

  /** `m` is an accessor of property `k` in one of the given roles. */
  predicate Plays(db: Tdb, m: Method, k: string, roles: set<Role>) {
    Classify(db, m) in roles && PropertyKey(m) == k
  }

  /** The index of the last method of `ms` that plays one of `roles` for `k`, or -1. */
  function LastPlaying(db: Tdb, ms: seq<Method>, k: string, roles: set<Role>): (r: int)
    ensures -1 <= r < |ms|
    ensures r >= 0 ==> Plays(db, ms[r], k, roles)
    ensures forall j :: r < j < |ms| ==> !Plays(db, ms[j], k, roles)
    decreases |ms|
  {
    if ms == [] then -1
    else if Plays(db, ms[|ms| - 1], k, roles) then |ms| - 1
    else LastPlaying(db, ms[..|ms| - 1], k, roles)
  }

  /** The method at index `i`, None for -1. */
  function MethodAt(ms: seq<Method>, i: int): Option<Method> {
    if 0 <= i < |ms| then Some(ms[i]) else None
  }

  /** The constructor's mutable state: the property dictionary, its
      enumeration (insertion) order, and the methods and fields lists. */
  datatype Inference = Inference(
    props: map<string, PseudoProperty>,
    order: seq<string>,
    methods: seq<Method>,
    fields: seq<Field>)

  const Start := Inference(map[], [], [], [])

  function PropAt(s: Inference, k: string): PseudoProperty {
    if k in s.props then s.props[k] else Blank
  }

  /** pseudoProperties[k] = p, creating the entry (at the end of the
      enumeration order) when it is new. */
  function Put(s: Inference, k: string, p: PseudoProperty): Inference {
    s.(props := s.props[k := p], order := if k in s.props then s.order else s.order + [k])
  }

  /** One iteration of the method walk. */
  function ApplyMethod(db: Tdb, s: Inference, m: Method): Inference {
    var k := PropertyKey(m);
    var p := PropAt(s, k);
    match Classify(db, m)
    case Getter => Put(s, k, p.(getter := Some(m), ty := m.returnType))
    case IndexGetter =>
      Put(s, k, p.(getter := Some(m), ty := m.returnType, indexer := true, indexType := ParamType(m, 0)))
    case Setter => Put(s, k, p.(setter := Some(m), ty := ParamType(m, 0)))
    case IndexSetter =>
      Put(s, k, p.(setter := Some(m), ty := ParamType(m, 1), indexer := true, indexType := ParamType(m, 0)))
    case Plain => s.(methods := s.methods + [m])
    case _ => s
  }

  /** The method walk over an own-method list, from the empty state. */
  function InferMethods(db: Tdb, ms: seq<Method>): Inference
    decreases |ms|
  {
    if ms == [] then Start
    else ApplyMethod(db, InferMethods(db, ms[..|ms| - 1]), ms[|ms| - 1])
  }

  /** The ordinary methods of `ms`, in order (reference definition). */
  function PlainOf(db: Tdb, ms: seq<Method>): seq<Method> {
    if ms == [] then []
    else (if Classify(db, ms[0]) == Plain then [ms[0]] else []) + PlainOf(db, ms[1..])
  }

  lemma {:induction false} PlainOfSnoc(db: Tdb, ms: seq<Method>, m: Method)
    ensures PlainOf(db, ms + [m]) == PlainOf(db, ms) + (if Classify(db, m) == Plain then [m] else [])
    decreases |ms|
  {
    if ms != [] {
      assert (ms + [m])[1..] == ms[1..] + [m];
      PlainOfSnoc(db, ms[1..], m);
    }
  }

  /** A property exists exactly for the names some accessor method supplies. */
  lemma {:induction false} InferredKeys(db: Tdb, ms: seq<Method>, k: string)
    ensures k in InferMethods(db, ms).props <==> LastPlaying(db, ms, k, AccessorRoles) >= 0
    decreases |ms|
  {
    if ms != [] {
      InferredKeys(db, ms[..|ms| - 1], k);
    }
  }

  /** One step of the walk sets the getter of `k` exactly when the method
      is a getter of `k`. */
  lemma GetterStep(db: Tdb, s: Inference, x: Method, k: string)
    ensures PropAt(ApplyMethod(db, s, x), k).getter
            == if Plays(db, x, k, GetterRoles) then Some(x) else PropAt(s, k).getter
  {
  }

  /** One step of the walk sets the setter of `k` exactly when the method
      is a setter of `k`. */
  lemma SetterStep(db: Tdb, s: Inference, x: Method, k: string)
    ensures PropAt(ApplyMethod(db, s, x), k).setter
            == if Plays(db, x, k, SetterRoles) then Some(x) else PropAt(s, k).setter
  {
  }

  /** One step of the walk marks `k` an indexer exactly when the method is
      an indexer accessor of `k`, taking its first parameter type. */
  lemma IndexerStep(db: Tdb, s: Inference, x: Method, k: string)
    ensures PropAt(ApplyMethod(db, s, x), k).indexer == (Plays(db, x, k, IndexRoles) || PropAt(s, k).indexer)
    ensures PropAt(ApplyMethod(db, s, x), k).indexType
            == if Plays(db, x, k, IndexRoles) then ParamType(x, 0) else PropAt(s, k).indexType
  {
  }

  /** The getter of a property is the last getter method for its name. */
  lemma {:induction false} InferredGetter(db: Tdb, ms: seq<Method>, k: string)
    ensures PropAt(InferMethods(db, ms), k).getter == MethodAt(ms, LastPlaying(db, ms, k, GetterRoles))
    decreases |ms|
  {
    if ms != [] {
      var pre := ms[..|ms| - 1];
      InferredGetter(db, pre, k);
      GetterStep(db, InferMethods(db, pre), ms[|ms| - 1], k);
      var i := LastPlaying(db, pre, k, GetterRoles);
      assert 0 <= i ==> pre[i] == ms[i];
    }
  }

  /** The setter of a property is the last setter method for its name. */
  lemma {:induction false} InferredSetter(db: Tdb, ms: seq<Method>, k: string)
    ensures PropAt(InferMethods(db, ms), k).setter == MethodAt(ms, LastPlaying(db, ms, k, SetterRoles))
    decreases |ms|
  {
    if ms != [] {
      var pre := ms[..|ms| - 1];
      InferredSetter(db, pre, k);
      SetterStep(db, InferMethods(db, pre), ms[|ms| - 1], k);
      var i := LastPlaying(db, pre, k, SetterRoles);
      assert 0 <= i ==> pre[i] == ms[i];
    }
  }

  /** The value type of a property is the one recorded by its last accessor
      (a getter's return type, a setter's value parameter type). */
  lemma {:induction false} InferredType(db: Tdb, ms: seq<Method>, k: string)
    ensures var i := LastPlaying(db, ms, k, AccessorRoles);
            PropAt(InferMethods(db, ms), k).ty == (if i < 0 then None else AccessorType(db, ms[i]))
    decreases |ms|
  {
    if ms != [] {
      var pre := ms[..|ms| - 1];
      var x := ms[|ms| - 1];
      InferredType(db, pre, k);
      var s := InferMethods(db, pre);
      if Plays(db, x, k, AccessorRoles) {
        AccessorRecordsType(db, s, x);
      } else {
        OtherMethodKeepsProperty(db, s, x, k);
        var i := LastPlaying(db, pre, k, AccessorRoles);
        assert 0 <= i ==> pre[i] == ms[i];
      }
    }
  }

  /** An accessor records its value type in its property. */
  lemma AccessorRecordsType(db: Tdb, s: Inference, x: Method)
    requires Classify(db, x) in AccessorRoles
    ensures PropAt(ApplyMethod(db, s, x), PropertyKey(x)).ty == AccessorType(db, x)
  {
  }

  /** A method that is not an accessor of `k` leaves property `k` alone. */
  lemma OtherMethodKeepsProperty(db: Tdb, s: Inference, x: Method, k: string)
    requires !Plays(db, x, k, AccessorRoles)
    ensures PropAt(ApplyMethod(db, s, x), k) == PropAt(s, k)
  {
  }

  /** A property is an indexer exactly when an indexer accessor
      (get_Item with one parameter, set_Item with two) supplied it; its
      index type is the first parameter type of the last of them. */
  lemma {:induction false} InferredIndexer(db: Tdb, ms: seq<Method>, k: string)
    ensures var i := LastPlaying(db, ms, k, IndexRoles);
            && (PropAt(InferMethods(db, ms), k).indexer <==> i >= 0)
            && PropAt(InferMethods(db, ms), k).indexType == (if i < 0 then None else ParamType(ms[i], 0))
    decreases |ms|
  {
    if ms != [] {
      var pre := ms[..|ms| - 1];
      InferredIndexer(db, pre, k);
      IndexerStep(db, InferMethods(db, pre), ms[|ms| - 1], k);
      var i := LastPlaying(db, pre, k, IndexRoles);
      assert 0 <= i ==> pre[i] == ms[i];
    }
  }

  /** The last accessor of `k` is a getter or a setter, so one of the two
      searches finds something. */
  lemma LastAccessorPlaysARole(db: Tdb, ms: seq<Method>, k: string)
    requires LastPlaying(db, ms, k, AccessorRoles) >= 0
    ensures LastPlaying(db, ms, k, GetterRoles) >= 0 || LastPlaying(db, ms, k, SetterRoles) >= 0
  {
    var a := LastPlaying(db, ms, k, AccessorRoles);
    if Classify(db, ms[a]) in GetterRoles {
      assert LastPlaying(db, ms, k, GetterRoles) >= a;
    } else {
      assert LastPlaying(db, ms, k, SetterRoles) >= a;
    }
  }

  /** Only get_Item and set_Item are indexer accessors, so an indexer
      accessor of `k` means `k` is Item. */
  lemma IndexerKeyIsItem(db: Tdb, ms: seq<Method>, k: string)
    requires LastPlaying(db, ms, k, IndexRoles) >= 0
    ensures k == "Item"
  {
    var x := LastPlaying(db, ms, k, IndexRoles);
    var n := ms[x].name.value;
    assert n == "get_Item" || n == "set_Item";
    assert PropertyKey(ms[x]) == n[4..];
  }

  /** Every inferred property has a getter or a setter, and only the
      property named Item can be an indexer. */
  lemma InferredPropertyShape(db: Tdb, ms: seq<Method>, k: string)
    requires k in InferMethods(db, ms).props
    ensures InferMethods(db, ms).props[k].getter.Some? || InferMethods(db, ms).props[k].setter.Some?
    ensures InferMethods(db, ms).props[k].indexer ==> k == "Item"
  {
    var p := PropAt(InferMethods(db, ms), k);
    assert InferMethods(db, ms).props[k] == p;
    InferredKeys(db, ms, k);
    InferredGetter(db, ms, k);
    InferredSetter(db, ms, k);
    InferredIndexer(db, ms, k);
    LastAccessorPlaysARole(db, ms, k);
    if p.indexer {
      IndexerKeyIsItem(db, ms, k);
    }
  }

  /** The enumeration order lists every property exactly once. */
  lemma {:induction false} InferredOrder(db: Tdb, ms: seq<Method>)
    ensures Distinct(InferMethods(db, ms).order)
    ensures forall k :: k in InferMethods(db, ms).order <==> k in InferMethods(db, ms).props
    decreases |ms|
  {
    if ms != [] {
      InferredOrder(db, ms[..|ms| - 1]);
    }
  }

  /** The methods list holds exactly the ordinary methods, in their order. */
  lemma {:induction false} InferredMethods(db: Tdb, ms: seq<Method>)
    ensures InferMethods(db, ms).methods == PlainOf(db, ms)
    ensures InferMethods(db, ms).fields == []
    decreases |ms|
  {
    if ms != [] {
      var pre := ms[..|ms| - 1];
      InferredMethods(db, pre);
      assert ms == pre + [ms[|ms| - 1]];
      PlainOfSnoc(db, pre, ms[|ms| - 1]);
    }
  }

  // ---- the field walk ----

  /** A field the walk keeps: it has a name and a type with a name. */
  predicate Registered(db: Tdb, f: Field) {
    f.name.Some? && f.ty.Some? && FullNameOf(db, f.ty.value).Some?
  }

  predicate IsBackingFieldName(name: string) {
    StartsWith(name, "<") && EndsWith(name, "k__BackingField")
  }

  /** The property name behind a field name: `<N>k__BackingField` becomes
      N (the text between '<' and the first ">k__"); other names are kept.
      A backing-field-shaped name without ">k__" makes the range end -1,
      which throws. */
  function CleanFieldName(name: string): (r: Result<string>)
    ensures r.Throws? <==> IsBackingFieldName(name) && IndexOf(name, ">k__") < 0
    ensures r.Ok? && !IsBackingFieldName(name) ==> r.value == name
    ensures r.Ok? && IsBackingFieldName(name) ==>
              && 1 + |r.value| <= |name|
              && name[1..1 + |r.value|] == r.value
              && OccursAt(name, ">k__", 1 + |r.value|)
              && forall i :: 0 <= i <= |r.value| ==> !OccursAt(name, ">k__", i)
  {
    if IsBackingFieldName(name) then
      var k := IndexOf(name, ">k__");
      if k < 1 then
        assert k != 0 by { assert name[0] == '<'; }
        Throws(ArgumentOutOfRange)
      else Ok(name[1..k])
    else Ok(name)
  }

  /** Cleaning inverts the compiler's backing-field naming for every
      property name in which ">k__" does not occur. */
  lemma BackingFieldRoundTrip(n: string)
    requires IndexOf(n, ">k__") < 0
    ensures CleanFieldName("<" + n + ">k__BackingField") == Ok(n)
  {
    var name := "<" + n + ">k__BackingField";
    assert StartsWith(name, "<");
    assert name[|name| - 15..] == "k__BackingField";
    assert OccursAt(name, ">k__", 1 + |n|) by {
      assert name[1 + |n|..1 + |n| + 4] == ">k__";
    }
    forall i | 0 <= i < 1 + |n|
      ensures !OccursAt(name, ">k__", i)
    {
      NoMarkerInsideName(n, ">k__BackingField", i);
    }
    assert IndexOf(name, ">k__") == 1 + |n|;
    assert name[1..1 + |n|] == n;
  }

  /** Before a suffix that starts with '>', ">k__" can only occur inside
      `n`: position 0 holds '<', and an occurrence running past the end of
      `n` would meet that '>'. */
  lemma NoMarkerInsideName(n: string, suffix: string, i: nat)
    requires forall k :: 0 <= k ==> !OccursAt(n, ">k__", k)
    requires i < 1 + |n| && |suffix| >= 4 && suffix[0] == '>'
    ensures !OccursAt("<" + n + suffix, ">k__", i)
  {
    var pre := "<" + n;
    var name := pre + suffix;
    assert "<" + n + suffix == name;
    if i + 4 <= |name| {
      var w := name[i..i + 4];
      if i == 0 {
        assert w[0] == pre[0] == '<';
      } else if i + 4 <= 1 + |n| {
        assert w == n[i - 1..i + 3];
        assert !OccursAt(n, ">k__", i - 1);
      } else {
        var j := 1 + |n| - i;
        assert w[j] == name[|pre|] == suffix[0];
      }
      assert w != ">k__";
    }
  }

  /** `m` is the get_ or set_ accessor of a property named `n`. */
  predicate AccessorOfField(m: Method, n: string) {
    m.name == Some("get_" + n) || m.name == Some("set_" + n)
  }

  /** `m` is an accessor of none of the property names `names`. */
  predicate NotAnAccessorOf(m: Method, names: set<string>) {
    forall n :: n in names ==> !AccessorOfField(m, n)
  }

  /** methods.RemoveAll(accessor of n). */
  function DropAccessors(ms: seq<Method>, n: string): (r: seq<Method>)
    ensures forall m :: m in r <==> m in ms && !AccessorOfField(m, n)
  {
    if ms == [] then []
    else (if AccessorOfField(ms[0], n) then [] else [ms[0]]) + DropAccessors(ms[1..], n)
  }

  /** Reference definition of the in-order filter: the methods of `ms`, in
      their order, that are accessors of none of `names`. */
  function KeepNonAccessors(ms: seq<Method>, names: set<string>): seq<Method>
    decreases |ms|
  {
    if ms == [] then []
    else
      var m := ms[|ms| - 1];
      KeepNonAccessors(ms[..|ms| - 1], names) + (if NotAnAccessorOf(m, names) then [m] else [])
  }

  lemma {:induction false} KeepNonAccessorsCons(m: Method, ms: seq<Method>, names: set<string>)
    ensures KeepNonAccessors([m] + ms, names) ==
            (if NotAnAccessorOf(m, names) then [m] else []) + KeepNonAccessors(ms, names)
    decreases |ms|
  {
    if ms != [] {
      var pre := ms[..|ms| - 1];
      assert ([m] + ms)[..|ms|] == [m] + pre;
      KeepNonAccessorsCons(m, pre, names);
    }
  }

  /** The filter keeps exactly the methods that are accessors of none of `names`. */
  lemma {:induction false} KeepNonAccessorsMembers(ms: seq<Method>, names: set<string>)
    ensures forall m :: m in KeepNonAccessors(ms, names) <==> m in ms && NotAnAccessorOf(m, names)
    decreases |ms|
  {
    if ms != [] {
      KeepNonAccessorsMembers(ms[..|ms| - 1], names);
      assert ms == ms[..|ms| - 1] + [ms[|ms| - 1]];
    }
  }

  /** Filtering by one set of names and then by another is filtering by both. */
  lemma {:induction false} KeepNonAccessorsTwice(ms: seq<Method>, a: set<string>, b: set<string>)
    ensures KeepNonAccessors(KeepNonAccessors(ms, a), b) == KeepNonAccessors(ms, a + b)
    decreases |ms|
  {
    if ms != [] {
      var pre := ms[..|ms| - 1];
      var m := ms[|ms| - 1];
      KeepNonAccessorsTwice(pre, a, b);
      var k := KeepNonAccessors(pre, a);
      if NotAnAccessorOf(m, a) {
        assert (k + [m])[..|k + [m]| - 1] == k;
        assert NotAnAccessorOf(m, b) && NotAnAccessorOf(m, a) <==> NotAnAccessorOf(m, a + b);
      } else {
        assert KeepNonAccessors(ms, a) == k;
        assert !NotAnAccessorOf(m, a + b);
        assert KeepNonAccessors(ms, a + b) == KeepNonAccessors(pre, a + b);
      }
    }
  }

  /** methods.RemoveAll removes the accessors of `n` and keeps every other
      method in its place. */
  lemma {:induction false} DropAccessorsInOrder(ms: seq<Method>, n: string)
    ensures DropAccessors(ms, n) == KeepNonAccessors(ms, {n})
    decreases |ms|
  {
    if ms != [] {
      DropAccessorsInOrder(ms[1..], n);
      KeepNonAccessorsCons(ms[0], ms[1..], {n});
      assert [ms[0]] + ms[1..] == ms;
      assert NotAnAccessorOf(ms[0], {n}) <==> !AccessorOfField(ms[0], n);
    }
  }

  /** The enumeration order after pseudoProperties.Remove(n). */
  function DropKey(order: seq<string>, n: string): (r: seq<string>)
    ensures forall x :: x in r <==> x in order && x != n
    ensures Distinct(order) ==> Distinct(r)
  {
    if order == [] then []
    else
      var rest := DropKey(order[1..], n);
      assert Distinct(order) ==> Distinct(order[1..]) && order[0] !in order[1..] by {
        if Distinct(order) {
          forall p, q | 0 <= p < q < |order[1..]| ensures order[1..][p] != order[1..][q] {
            assert order[1..][p] == order[p + 1] && order[1..][q] == order[q + 1];
          }
          forall j | 0 <= j < |order[1..]| ensures order[1..][j] != order[0] {
            assert order[1..][j] == order[j + 1];
          }
        }
      }
      if order[0] == n then rest else [order[0]] + rest
  }

  /** One iteration of the field walk. */
  function ApplyField(db: Tdb, s: Inference, f: Field): Result<Inference> {
    if !Registered(db, f) then Ok(s)
    else
      match CleanFieldName(f.name.value)
      case Throws(e) => Throws(e)
      case Ok(n) =>
        Ok(Inference(s.props - {n}, DropKey(s.order, n), DropAccessors(s.methods, n), s.fields + [f]))
  }

  /** The field walk over an own-field list, from state `s`. */
  function InferFields(db: Tdb, s: Inference, fs: seq<Field>): Result<Inference>
    decreases |fs|
  {
    if fs == [] then Ok(s)
    else
      match InferFields(db, s, fs[..|fs| - 1])
      case Throws(e) => Throws(e)
      case Ok(s') => ApplyField(db, s', fs[|fs| - 1])
  }

  lemma InferFieldsSnoc(db: Tdb, s: Inference, fs: seq<Field>, i: nat, before: Inference)
    requires i < |fs| && InferFields(db, s, fs[..i]) == Ok(before)
    ensures InferFields(db, s, fs[..i + 1]) == ApplyField(db, before, fs[i])
  {
    assert fs[..i + 1][..i] == fs[..i];
  }

  /** An exception from the field at position `i` ends the field walk with it. */
  lemma {:induction false} InferFieldsThrowsAt(db: Tdb, s: Inference, fs: seq<Field>, i: nat)
    requires i < |fs| && InferFields(db, s, fs[..i]).Ok?
    requires ApplyField(db, InferFields(db, s, fs[..i]).value, fs[i]).Throws?
    ensures InferFields(db, s, fs) == Throws(ApplyField(db, InferFields(db, s, fs[..i]).value, fs[i]).error)
    decreases |fs|
  {
    if i == |fs| - 1 {
      assert fs[..|fs| - 1] == fs[..i];
    } else {
      assert fs[..|fs| - 1][..i] == fs[..i];
      InferFieldsThrowsAt(db, s, fs[..|fs| - 1], i);
    }
  }

  /** A field whose name cannot be cleaned. */
  predicate BadField(db: Tdb, f: Field) {
    Registered(db, f) && CleanFieldName(f.name.value).Throws?
  }

  /** The property name a field claims: its cleaned name when it is kept. */
  function ClaimedBy(db: Tdb, f: Field): set<string> {
    if Registered(db, f) && CleanFieldName(f.name.value).Ok? then {CleanFieldName(f.name.value).value} else {}
  }

  /** The property names the fields of `fs` claim. */
  function CleanedNames(db: Tdb, fs: seq<Field>): set<string>
    decreases |fs|
  {
    if fs == [] then {}
    else CleanedNames(db, fs[..|fs| - 1]) + ClaimedBy(db, fs[|fs| - 1])
  }

  /** The kept fields of `fs`, in order (reference definition). */
  function RegisteredOf(db: Tdb, fs: seq<Field>): seq<Field> {
    if fs == [] then []
    else (if Registered(db, fs[0]) then [fs[0]] else []) + RegisteredOf(db, fs[1..])
  }

  lemma {:induction false} RegisteredOfSnoc(db: Tdb, fs: seq<Field>, f: Field)
    ensures RegisteredOf(db, fs + [f]) == RegisteredOf(db, fs) + (if Registered(db, f) then [f] else [])
    decreases |fs|
  {
    if fs != [] {
      assert (fs + [f])[1..] == fs[1..] + [f];
      RegisteredOfSnoc(db, fs[1..], f);
    }
  }

  /** The field walk fails exactly when some kept field's name cannot be cleaned. */
  lemma {:induction false} FieldWalkThrows(db: Tdb, s: Inference, fs: seq<Field>)
    ensures InferFields(db, s, fs).Throws? <==> exists i :: 0 <= i < |fs| && BadField(db, fs[i])
    decreases |fs|
  {
    if fs != [] {
      var pre := fs[..|fs| - 1];
      FieldWalkThrows(db, s, pre);
      if exists i :: 0 <= i < |pre| && BadField(db, pre[i]) {
        var i :| 0 <= i < |pre| && BadField(db, pre[i]);
        assert fs[i] == pre[i];
      }
      if exists i :: 0 <= i < |fs| && BadField(db, fs[i]) {
        var i :| 0 <= i < |fs| && BadField(db, fs[i]);
        if i < |pre| { assert pre[i] == fs[i]; }
      }
    }
  }

  /** A successful walk is a successful walk of all but the last field
      followed by one step. */
  lemma InferFieldsLast(db: Tdb, s: Inference, fs: seq<Field>)
    requires fs != [] && InferFields(db, s, fs).Ok?
    ensures InferFields(db, s, fs[..|fs| - 1]).Ok?
    ensures InferFields(db, s, fs) == ApplyField(db, InferFields(db, s, fs[..|fs| - 1]).value, fs[|fs| - 1])
  {
  }

  /** One step of the field walk removes the property the field claims,
      its key and its accessor methods, and appends the field if kept. */
  lemma FieldStep(db: Tdb, r: Inference, f: Field)
    requires ApplyField(db, r, f).Ok?
    ensures var q := ApplyField(db, r, f).value;
            && q.props == r.props - ClaimedBy(db, f)
            && (forall x :: x in q.order <==> x in r.order && x !in ClaimedBy(db, f))
            && q.methods == KeepNonAccessors(r.methods, ClaimedBy(db, f))
            && q.fields == r.fields + (if Registered(db, f) then [f] else [])
  {
    if ClaimedBy(db, f) == {} {
      KeepNothing(r.methods);
    } else {
      DropAccessorsInOrder(r.methods, CleanFieldName(f.name.value).value);
    }
  }

  lemma {:induction false} KeepNothing(ms: seq<Method>)
    ensures KeepNonAccessors(ms, {}) == ms
    decreases |ms|
  {
    if ms != [] {
      KeepNothing(ms[..|ms| - 1]);
      assert NotAnAccessorOf(ms[|ms| - 1], {});
    }
  }

  /** A successful field walk removes exactly the properties whose names
      the fields claim. */
  lemma {:induction false} FieldWalkProps(db: Tdb, s: Inference, fs: seq<Field>)
    requires InferFields(db, s, fs).Ok?
    ensures InferFields(db, s, fs).value.props == s.props - CleanedNames(db, fs)
    decreases |fs|
  {
    if fs != [] {
      var pre := fs[..|fs| - 1];
      InferFieldsLast(db, s, fs);
      FieldWalkProps(db, s, pre);
      FieldStep(db, InferFields(db, s, pre).value, fs[|fs| - 1]);
    }
  }

  /** A successful field walk removes exactly the claimed names from the
      enumeration order. */
  lemma {:induction false} FieldWalkOrder(db: Tdb, s: Inference, fs: seq<Field>)
    requires InferFields(db, s, fs).Ok?
    ensures forall x :: x in InferFields(db, s, fs).value.order <==> x in s.order && x !in CleanedNames(db, fs)
    decreases |fs|
  {
    if fs != [] {
      var pre := fs[..|fs| - 1];
      InferFieldsLast(db, s, fs);
      FieldWalkOrder(db, s, pre);
      FieldStep(db, InferFields(db, s, pre).value, fs[|fs| - 1]);
    }
  }

  /** A successful field walk appends every kept field, in order. */
  lemma {:induction false} FieldWalkFields(db: Tdb, s: Inference, fs: seq<Field>)
    requires InferFields(db, s, fs).Ok?
    ensures InferFields(db, s, fs).value.fields == s.fields + RegisteredOf(db, fs)
    decreases |fs|
  {
    if fs != [] {
      var pre := fs[..|fs| - 1];
      var f := fs[|fs| - 1];
      InferFieldsLast(db, s, fs);
      FieldWalkFields(db, s, pre);
      assert fs == pre + [f];
      RegisteredOfSnoc(db, pre, f);
      FieldStep(db, InferFields(db, s, pre).value, f);
    }
  }

  /** Fields win: a successful field walk removes exactly the properties
      whose names the fields claim, keeps the enumeration order in step,
      and appends every kept field in order. */
  lemma FieldWalkEffect(db: Tdb, s: Inference, fs: seq<Field>)
    requires InferFields(db, s, fs).Ok?
    ensures InferFields(db, s, fs).value.props == s.props - CleanedNames(db, fs)
    ensures forall x :: x in InferFields(db, s, fs).value.order <==> x in s.order && x !in CleanedNames(db, fs)
    ensures InferFields(db, s, fs).value.fields == s.fields + RegisteredOf(db, fs)
  {
    FieldWalkProps(db, s, fs);
    FieldWalkOrder(db, s, fs);
    FieldWalkFields(db, s, fs);
  }

  /** Fields win over methods: a successful field walk removes exactly the
      methods that are accessors of a claimed name. */
  lemma FieldWalkMethods(db: Tdb, s: Inference, fs: seq<Field>)
    requires InferFields(db, s, fs).Ok?
    ensures InferFields(db, s, fs).value.methods == KeepNonAccessors(s.methods, CleanedNames(db, fs))
    ensures forall m :: m in InferFields(db, s, fs).value.methods <==>
              m in s.methods && NotAnAccessorOf(m, CleanedNames(db, fs))
  {
    FieldWalkMethodsInOrder(db, s, fs);
    KeepNonAccessorsMembers(s.methods, CleanedNames(db, fs));
  }

  lemma {:induction false} FieldWalkMethodsInOrder(db: Tdb, s: Inference, fs: seq<Field>)
    requires InferFields(db, s, fs).Ok?
    ensures InferFields(db, s, fs).value.methods == KeepNonAccessors(s.methods, CleanedNames(db, fs))
    decreases |fs|
  {
    if fs == [] {
      KeepNothing(s.methods);
    } else {
      var pre := fs[..|fs| - 1];
      var f := fs[|fs| - 1];
      InferFieldsLast(db, s, fs);
      FieldWalkMethodsInOrder(db, s, pre);
      var r := InferFields(db, s, pre).value;
      FieldStep(db, r, f);
      KeepNonAccessorsTwice(s.methods, CleanedNames(db, pre), ClaimedBy(db, f));
    }
  }

  /** The field walk keeps the enumeration order duplicate-free and in step with the keys. */
  lemma {:induction false} FieldWalkKeepsOrder(db: Tdb, s: Inference, fs: seq<Field>)
    requires Distinct(s.order)
    requires forall k :: k in s.order <==> k in s.props
    requires InferFields(db, s, fs).Ok?
    ensures Distinct(InferFields(db, s, fs).value.order)
    ensures forall k :: k in InferFields(db, s, fs).value.order <==> k in InferFields(db, s, fs).value.props
    decreases |fs|
  {
    if fs != [] {
      FieldWalkKeepsOrder(db, s, fs[..|fs| - 1]);
    }
  }

  /** The whole first phase for type `t`: the walk over the own methods,
      then the walk over the own fields. */
  function Collect(db: Tdb, t: TypeId): Result<Inference> {
    InferFields(db, InferMethods(db, OwnMethods(TypeDefAt(db, t).methods, t)),
                OwnFields(TypeDefAt(db, t).fields, t))
  }

  /** Fields win, stated on the finished first phase: for every own field
      with a name and a named type, its cleaned name is not a property, no
      remaining method is its get_/set_ accessor, and the field was kept. */
  lemma FieldsWin(db: Tdb, t: TypeId, i: nat)
    requires Collect(db, t).Ok?
    requires i < |OwnFields(TypeDefAt(db, t).fields, t)|
    requires Registered(db, OwnFields(TypeDefAt(db, t).fields, t)[i])
    ensures var f := OwnFields(TypeDefAt(db, t).fields, t)[i];
            var r := Collect(db, t).value;
            && CleanFieldName(f.name.value).Ok?
            && CleanFieldName(f.name.value).value !in r.props
            && (forall m :: m in r.methods ==> !AccessorOfField(m, CleanFieldName(f.name.value).value))
            && f in r.fields
  {
    var fs := OwnFields(TypeDefAt(db, t).fields, t);
    var s := InferMethods(db, OwnMethods(TypeDefAt(db, t).methods, t));
    FieldWalkThrows(db, s, fs);
    FieldWalkEffect(db, s, fs);
    FieldWalkMethods(db, s, fs);
    CleanedNamesHas(db, fs, i);
    RegisteredOfHas(db, fs, i);
  }

  lemma {:induction false} CleanedNamesHas(db: Tdb, fs: seq<Field>, i: nat)
    requires i < |fs| && Registered(db, fs[i]) && CleanFieldName(fs[i].name.value).Ok?
    ensures CleanFieldName(fs[i].name.value).value in CleanedNames(db, fs)
    decreases |fs|
  {
    if i < |fs| - 1 {
      CleanedNamesHas(db, fs[..|fs| - 1], i);
    }
  }

  lemma {:induction false} RegisteredOfHas(db: Tdb, fs: seq<Field>, i: nat)
    requires i < |fs| && Registered(db, fs[i])
    ensures fs[i] in RegisteredOf(db, fs)
    decreases |fs|
  {
    if i > 0 {
      RegisteredOfHas(db, fs[1..], i - 1);
    }
  }

  /** Everything the first phase hands on is well-formed: the methods are
      ordinary named methods with a named return type, and the fields are
      kept fields whose names clean without error. */
  lemma CollectedMembersWellFormed(db: Tdb, t: TypeId)
    requires Collect(db, t).Ok?
    ensures forall m :: m in Collect(db, t).value.methods ==> Classify(db, m) == Plain
    ensures forall f :: f in Collect(db, t).value.fields ==>
              Registered(db, f) && CleanFieldName(f.name.value).Ok?
  {
    var ms := OwnMethods(TypeDefAt(db, t).methods, t);
    var fs := OwnFields(TypeDefAt(db, t).fields, t);
    var s := InferMethods(db, ms);
    InferredMethods(db, ms);
    PlainOfOnlyPlain(db, ms);
    FieldWalkMethods(db, s, fs);
    FieldWalkEffect(db, s, fs);
    FieldWalkThrows(db, s, fs);
    RegisteredOfOnlyGood(db, fs);
  }

  lemma {:induction false} PlainOfOnlyPlain(db: Tdb, ms: seq<Method>)
    ensures forall m :: m in PlainOf(db, ms) ==> Classify(db, m) == Plain
    decreases |ms|
  {
    if ms != [] {
      PlainOfOnlyPlain(db, ms[1..]);
    }
  }

  lemma {:induction false} RegisteredOfOnlyGood(db: Tdb, fs: seq<Field>)
    requires forall i :: 0 <= i < |fs| ==> !BadField(db, fs[i])
    ensures forall f :: f in RegisteredOf(db, fs) ==> Registered(db, f) && CleanFieldName(f.name.value).Ok?
    decreases |fs|
  {
    if fs != [] {
      assert forall i :: 0 <= i < |fs[1..]| ==> fs[1..][i] == fs[i + 1];
      RegisteredOfOnlyGood(db, fs[1..]);
    }
  }
}

=== FILE: ref_fields.dfy ===
/** Fields of a reference type (GenerateFields). An interface cannot hold
    fields, so each valid field becomes a property facade with a getter and
    a setter that the runtime binds to the field; static fields get bodies
    that go through a cached field handle. */
module RefFields {
  import opened Metadata
  import opened Declarations
  import opened TypeNames
  import opened Filters
  import opened PropertyInference
  import opened RefMethods

  /** The shadow test of a field facade: a field of the parent found under
      the cleaned name (or, failing that, the raw name) and declared in a
      generated type; otherwise a getter (or, failing that, a setter) of the
      parent for the cleaned name, declared in a generated type. Only the
      parent is consulted, whether or not the type has a base type. */
  predicate FieldShadows(db: Tdb, env: Env, parent: Option<TypeId>, clean: string, raw: string) {
    parent.Some? &&
    var p := parent.value;
    var matchingField := if FindField(db, p, clean).Some? then FindField(db, p, clean) else FindField(db, p, raw);
    var matchingMethod := if FindMethod(db, p, "get_" + clean).Some? then FindMethod(db, p, "get_" + clean)
                          else FindMethod(db, p, "set_" + clean);
    || (matchingField.Some? && matchingField.value.declaringType.Some?
        && IsValidType(db, env, matchingField.value.declaringType.value))
    || (matchingMethod.Some? && matchingMethod.value.declaringType.Some?
        && IsValidType(db, env, matchingMethod.value.declaringType.value))
  }

  /** One field facade and, for a static field, its cached handle. */
  function FieldFacade(db: Tdb, env: Env, t: TypeDef, f: Field, clean: string): (r: Emission)
    requires f.name.Some?
    ensures |r.decls| == 1 && r.decls[0].PropertyDecl? && r.decls[0].name == clean
    ensures |r.decls[0].accessors| == 2
    ensures r.decls[0].accessors ==
              [Accessor(Get, MethodAttr(f.index, FacadeGetter), r.decls[0].accessors[0].body),
               Accessor(Set, MethodAttr(f.index, FacadeSetter), r.decls[0].accessors[1].body)]
    ensures (Static in r.decls[0].modifiers <==> f.isStatic)
            && (New in r.decls[0].modifiers <==> FieldShadows(db, env, t.parent, clean, f.name.value))
    ensures r.decls[0].ty == MakeProperType(db, env, f.ty)
    ensures !f.isStatic ==> r.internals == [] && r.decls[0].accessors[0].body == r.decls[0].accessors[1].body == Declared
    ensures f.isStatic ==>
              && r.internals == [HandleField(InternalName(clean, f.index), FieldHandle(f.name.value))]
              && r.decls[0].accessors[0].body == Block([ReturnGetDataBoxed(r.decls[0].ty, r.internals[0].name)])
              && r.decls[0].accessors[1].body == Block([SetDataBoxed(r.internals[0].name)])
  {
    var ty := MakeProperType(db, env, f.ty);
    var handle := InternalName(clean, f.index);
    var mods := [Public] + (if f.isStatic then [Static] else [])
                + (if FieldShadows(db, env, t.parent, clean, f.name.value) then [New] else []);
    var getBody := if f.isStatic then Block([ReturnGetDataBoxed(ty, handle)]) else Declared;
    var setBody := if f.isStatic then Block([SetDataBoxed(handle)]) else Declared;
    var decl := PropertyDecl(clean, ty, mods,
                             [Accessor(Get, MethodAttr(f.index, FacadeGetter), getBody),
                              Accessor(Set, MethodAttr(f.index, FacadeSetter), setBody)]);
    Emission([decl], if f.isStatic then [HandleField(handle, FieldHandle(f.name.value))] else [])
  }

  /** A facade is `new` only when the type has a parent that exposes,
      from a generated declaring type, a field under the cleaned or the raw
      name, or a get_/set_ method for the cleaned name. */
  lemma FacadeShadowNeedsGeneratedMember(db: Tdb, env: Env, t: TypeDef, f: Field, clean: string)
    requires f.name.Some?
    requires New in FieldFacade(db, env, t, f, clean).decls[0].modifiers
    ensures t.parent.Some?
    ensures var p := TypeDefAt(db, t.parent.value);
            || (exists g :: g in p.fields && (g.name == Some(clean) || g.name == f.name)
                            && g.declaringType.Some? && IsValidType(db, env, g.declaringType.value))
            || (exists m :: m in p.methods && (m.name == Some("get_" + clean) || m.name == Some("set_" + clean))
                            && m.declaringType.Some? && IsValidType(db, env, m.declaringType.value))
  {
    var p := t.parent.value;
    var raw := f.name.value;
    var matchingField := if FindField(db, p, clean).Some? then FindField(db, p, clean) else FindField(db, p, raw);
    var matchingMethod := if FindMethod(db, p, "get_" + clean).Some? then FindMethod(db, p, "get_" + clean)
                          else FindMethod(db, p, "set_" + clean);
    if matchingField.Some? && matchingField.value.declaringType.Some?
       && IsValidType(db, env, matchingField.value.declaringType.value) {
      assert matchingField.value in TypeDefAt(db, p).fields;
    } else {
      assert matchingMethod.value in TypeDefAt(db, p).methods;
    }
  }

  /** GenerateFields over the fields GetValidFields kept. */
  function RefFieldsOf(db: Tdb, env: Env, t: TypeDef, valid: seq<Field>): Result<Emission>
    requires forall f :: f in valid ==> f.name.Some?
    decreases |valid|
  {
    if valid == [] then Ok(NoEmission)
    else
      match RefFieldsOf(db, env, t, valid[..|valid| - 1])
      case Throws(e) => Throws(e)
      case Ok(acc) =>
        var f := valid[|valid| - 1];
        match CleanFieldName(f.name.value)
        case Throws(e) => Throws(e)
        case Ok(clean) =>
          var x := FieldFacade(db, env, t, f, clean);
          Ok(Emission(acc.decls + x.decls, acc.internals + x.internals))
  }

  /** The static fields among `fs`, in order. */
  function StaticFields(fs: seq<Field>): (r: seq<Field>)
    ensures forall i :: 0 <= i < |r| ==> r[i] in fs && r[i].isStatic
    decreases |fs|
  {
    if fs == [] then []
    else StaticFields(fs[..|fs| - 1]) + (if fs[|fs| - 1].isStatic then [fs[|fs| - 1]] else [])
  }

  /** Generation over a non-empty list fails exactly when it fails on all
      but the last field or the last field's name cannot be cleaned. */
  lemma RefFieldsThrowStep(db: Tdb, env: Env, t: TypeDef, valid: seq<Field>)
    requires valid != [] && forall f :: f in valid ==> f.name.Some?
    ensures forall f :: f in valid[..|valid| - 1] ==> f.name.Some?
    ensures RefFieldsOf(db, env, t, valid).Throws? <==>
              RefFieldsOf(db, env, t, valid[..|valid| - 1]).Throws? || CleanFieldName(valid[|valid| - 1].name.value).Throws?
  {
    assert forall g :: g in valid[..|valid| - 1] ==> g in valid;
  }

  /** Some field of `valid` has a name that cannot be cleaned. */
  predicate SomeNameUncleanable(valid: seq<Field>)
    requires forall f :: f in valid ==> f.name.Some?
  {
    exists i :: 0 <= i < |valid| && CleanFieldName(valid[i].name.value).Throws?
  }

  /** An uncleanable name is in all but the last field or is the last one. */
  lemma UncleanableSnoc(valid: seq<Field>)
    requires valid != [] && forall f :: f in valid ==> f.name.Some?
    ensures forall f :: f in valid[..|valid| - 1] ==> f.name.Some?
    ensures SomeNameUncleanable(valid) <==>
              SomeNameUncleanable(valid[..|valid| - 1]) || CleanFieldName(valid[|valid| - 1].name.value).Throws?
  {
    var pre := valid[..|valid| - 1];
    assert forall g :: g in pre ==> g in valid;
    if SomeNameUncleanable(valid) && !CleanFieldName(valid[|valid| - 1].name.value).Throws? {
      var i :| 0 <= i < |valid| && CleanFieldName(valid[i].name.value).Throws?;
      assert pre[i] == valid[i];
    }
    if SomeNameUncleanable(pre) {
      var i :| 0 <= i < |pre| && CleanFieldName(pre[i].name.value).Throws?;
      assert pre[i] == valid[i];
    }
  }

  /** Field generation fails exactly when a valid field has a
      backing-field name without the ">k__" marker. */
  lemma {:induction false} FieldFacadesThrow(db: Tdb, env: Env, t: TypeDef, valid: seq<Field>)
    requires forall f :: f in valid ==> f.name.Some?
    ensures RefFieldsOf(db, env, t, valid).Throws? <==> SomeNameUncleanable(valid)
    decreases |valid|
  {
    if valid != [] {
      RefFieldsThrowStep(db, env, t, valid);
      UncleanableSnoc(valid);
      FieldFacadesThrow(db, env, t, valid[..|valid| - 1]);
    }
  }

  /** `d` is the facade of field `f`: a property under the field's cleaned
      name, getter and setter bound to the field's index, static exactly
      when the field is. */
  predicate FacadeOf(d: MemberDecl, f: Field)
    requires f.name.Some?
  {
    && d.PropertyDecl?
    && CleanFieldName(f.name.value).Ok?
    && d.name == CleanFieldName(f.name.value).value
    && |d.accessors| == 2
    && d.accessors[0].attr == MethodAttr(f.index, FacadeGetter)
    && d.accessors[1].attr == MethodAttr(f.index, FacadeSetter)
    && (Static in d.modifiers <==> f.isStatic)
  }

  /** A successful generation is a successful generation of all but the
      last field followed by the last field's facade. */
  lemma RefFieldsLast(db: Tdb, env: Env, t: TypeDef, valid: seq<Field>)
    requires forall f :: f in valid ==> f.name.Some?
    requires valid != [] && RefFieldsOf(db, env, t, valid).Ok?
    ensures forall f :: f in valid[..|valid| - 1] ==> f.name.Some?
    ensures RefFieldsOf(db, env, t, valid[..|valid| - 1]).Ok?
    ensures CleanFieldName(valid[|valid| - 1].name.value).Ok?
    ensures var acc := RefFieldsOf(db, env, t, valid[..|valid| - 1]).value;
            var f := valid[|valid| - 1];
            var x := FieldFacade(db, env, t, f, CleanFieldName(f.name.value).value);
            RefFieldsOf(db, env, t, valid).value == Emission(acc.decls + x.decls, acc.internals + x.internals)
  {
    assert forall g :: g in valid[..|valid| - 1] ==> g in valid;
  }

  /** One facade per valid field, in order. */
  lemma {:induction false} FacadePerField(db: Tdb, env: Env, t: TypeDef, valid: seq<Field>)
    requires forall f :: f in valid ==> f.name.Some?
    requires RefFieldsOf(db, env, t, valid).Ok?
    ensures var r := RefFieldsOf(db, env, t, valid).value;
            && |r.decls| == |valid|
            && forall i :: 0 <= i < |valid| ==> FacadeOf(r.decls[i], valid[i])
    decreases |valid|
  {
    if valid != [] {
      var pre := valid[..|valid| - 1];
      RefFieldsLastFacade(db, env, t, valid);
      FacadePerField(db, env, t, pre);
      var acc := RefFieldsOf(db, env, t, pre).value;
      var r := RefFieldsOf(db, env, t, valid).value;
      forall i | 0 <= i < |valid| ensures FacadeOf(r.decls[i], valid[i]) {
        if i < |pre| {
          assert r.decls[i] == acc.decls[i] && valid[i] == pre[i];
        }
      }
    }
  }

  /** The last valid field adds one facade after the earlier ones. */
  lemma RefFieldsLastFacade(db: Tdb, env: Env, t: TypeDef, valid: seq<Field>)
    requires forall f :: f in valid ==> f.name.Some?
    requires valid != [] && RefFieldsOf(db, env, t, valid).Ok?
    ensures forall f :: f in valid[..|valid| - 1] ==> f.name.Some?
    ensures RefFieldsOf(db, env, t, valid[..|valid| - 1]).Ok?
    ensures var acc := RefFieldsOf(db, env, t, valid[..|valid| - 1]).value;
            var r := RefFieldsOf(db, env, t, valid).value;
            && |r.decls| == |acc.decls| + 1
            && r.decls[..|acc.decls|] == acc.decls
            && FacadeOf(r.decls[|acc.decls|], valid[|valid| - 1])
  {
    RefFieldsLast(db, env, t, valid);
    var f := valid[|valid| - 1];
    var x := FieldFacade(db, env, t, f, CleanFieldName(f.name.value).value);
    var acc := RefFieldsOf(db, env, t, valid[..|valid| - 1]).value;
    var r := RefFieldsOf(db, env, t, valid).value;
    assert r.decls == acc.decls + x.decls;
    assert r.decls[|acc.decls|] == x.decls[0];
  }

  /** One cached handle per static field, in order, naming the raw field. */
  lemma {:induction false} HandlePerStaticField(db: Tdb, env: Env, t: TypeDef, valid: seq<Field>)
    requires forall f :: f in valid ==> f.name.Some?
    requires RefFieldsOf(db, env, t, valid).Ok?
    ensures var r := RefFieldsOf(db, env, t, valid).value;
            && |r.internals| == |StaticFields(valid)|
            && forall j :: 0 <= j < |r.internals| ==>
                 r.internals[j].HandleField? && r.internals[j].handle == FieldHandle(StaticFields(valid)[j].name.value)
    decreases |valid|
  {
    if valid != [] {
      var pre := valid[..|valid| - 1];
      var f := valid[|valid| - 1];
      assert forall g :: g in pre ==> g in valid;
      HandlePerStaticField(db, env, t, pre);
      var acc := RefFieldsOf(db, env, t, pre).value;
      var x := FieldFacade(db, env, t, f, CleanFieldName(f.name.value).value);
      assert RefFieldsOf(db, env, t, valid).value.internals == acc.internals + x.internals;
      if f.isStatic {
        assert x.internals == [HandleField(InternalName(CleanFieldName(f.name.value).value, f.index), FieldHandle(f.name.value))];
      }
    }
  }

  /** A field facade shadows only with a parent type: a root type never
      marks a facade `new`. */
  lemma RootFieldsNeverShadow(db: Tdb, env: Env, t: TypeDef, f: Field, clean: string)
    requires f.name.Some? && t.parent.None?
    ensures New !in FieldFacade(db, env, t, f, clean).decls[0].modifiers
  {
  }
}

=== FILE: ref_methods.dfy ===
/** Method declarations of a reference type (GenerateMethods): one
    interface method per valid method, a static thunk body for static
    methods, `new` for overrides of generated ancestors, and removal of
    later overloads whose signature key repeats an earlier one. */
module RefMethods {
  import opened Metadata
  import opened Strings
  import opened Declarations
  import opened TypeNames
  import opened Filters
  import opened Signatures

  /** Names that get the SpecialName attribute (the operator table). */
  const OperatorNames: set<string> := {
    "op_Addition", "op_UnaryPlus", "op_Subtraction", "op_UnaryNegation", "op_Multiply",
    "op_Division", "op_Modulus", "op_BitwiseAnd", "op_BitwiseOr", "op_ExclusiveOr",
    "op_LeftShift", "op_RightShift", "op_Equality", "op_Inequality", "op_LessThan",
    "op_LessThanOrEqual", "op_GreaterThan", "op_GreaterThanOrEqual", "op_LogicalNot",
    "op_OnesComplement", "op_True", "op_False", "op_Implicit", "op_Explicit"}

  /** The name of the cached private static handle of a member. */
  function InternalName(member: string, index: nat): string {
    "INTERNAL_" + member + NatToString(index)
  }

  /** The attribute lists of an emitted method. */
  function MethodAttrs(name: string, index: nat): seq<Attr> {
    (if name in OperatorNames then [SpecialName] else []) + [MethodAttr(index, FacadeNone)]
  }

  /** Shadow marking for methods and accessors: the type has a base type
      and the dump marks the method as an override of a method declared in
      some type that is itself generated. */
  predicate OverridesGenerated(db: Tdb, env: Env, hasBase: bool, m: Method) {
    && hasBase
    && m.ext.Some?
    && m.ext.value.isOverride == Some(true)
    && exists d :: d in m.ext.value.matchingParentDeclaringTypes && IsValidType(db, env, d)
  }

  /** The body of a static thunk, chosen on void/non-void return and on
      no parameters / no out parameter / some out parameter. */
  function StaticBody(isVoid: bool, declaredParams: nat, anyOut: bool, rt: TypeSyntax,
                      handle: string, args: seq<string>): (r: seq<Stmt>)
    ensures |r| == 1
    ensures r[0] == ThrowNotImplemented <==> declaredParams > 0 && anyOut
    ensures isVoid && declaredParams == 0 ==> r[0] == InvokeNoArgs(handle)
    ensures isVoid && declaredParams > 0 && !anyOut ==> r[0] == InvokeWithArgs(handle, args)
    ensures !isVoid && declaredParams == 0 ==> r[0] == ReturnInvokeBoxed(rt, handle, None)
    ensures !isVoid && declaredParams > 0 && !anyOut ==> r[0] == ReturnInvokeBoxed(rt, handle, Some(args))
  {
    if isVoid then
      if declaredParams == 0 then [InvokeNoArgs(handle)]
      else if !anyOut then [InvokeWithArgs(handle, args)]
      else [ThrowNotImplemented]
    else
      if declaredParams == 0 then [ReturnInvokeBoxed(rt, handle, None)]
      else if !anyOut then [ReturnInvokeBoxed(rt, handle, Some(args))]
      else [ThrowNotImplemented]
  }

  /** What the per-method builder produces. */
  datatype Emitted =
    | Skip                                                          // the builder returned null early
    | Emit(decl: MemberDecl, key: string, internal: Option<MemberDecl>)

  /** Finishes a method that got past the early exits. */
  function FinishMethod(db: Tdb, env: Env, hasBase: bool, m: Method, name: string, rt: TypeSyntax,
                        key: string, params: seq<ParamDecl>, args: seq<string>,
                        anyOut: bool, anyUnsafe: bool): Emitted
    requires ReturnTypeName(db, m).Some?
  {
    var handle := InternalName(name, m.index);
    var mods := [Public] + (if anyUnsafe then [Unsafe] else []) + (if m.isStatic then [Static] else [])
                + (if OverridesGenerated(db, env, hasBase, m) then [New] else []);
    var body := if m.isStatic
                then Block(StaticBody(ReturnTypeName(db, m).value == "System.Void", |m.params|, anyOut, rt, handle, args))
                else Declared;
    Emit(MethodDecl(name, rt, mods, MethodAttrs(name, m.index), params, body),
         key,
         if m.isStatic then Some(HandleField(handle, MethodHandle(m.signature))) else None)
  }

  /** The per-method builder of GenerateMethods. */
  function BuildRefMethod(db: Tdb, env: Env, hasBase: bool, m: Method): Result<Emitted>
    requires IsValidMethod(db, m)
  {
    var name := m.name.value;
    var rt := MakeProperType(db, env, m.returnType);
    if name == "sortCountList" then Ok(Skip)
    else if |m.params| == 0 then
      Ok(FinishMethod(db, env, hasBase, m, name, rt, name + "()", [], [], false, false))
    else
      match BadParamCheck(db, m.params)
      case Throws(e) => Throws(e)
      case Ok(true) => Ok(Skip)
      case Ok(false) =>
        match m.runtime
        case NoRuntimeMethod => Ok(Skip)
        case NoParameterInfo => Ok(FinishMethod(db, env, hasBase, m, name, rt, name, [], [], false, false))
        case Parameters(rps) =>
          var l := Lower(db, env, rps);
          Ok(FinishMethod(db, env, hasBase, m, name, rt, name + l.key, l.params, l.argNames, l.anyOut, l.anyUnsafe))
  }

  /** The key the builder assigns is the method's signature key. */
  lemma BuiltKeyIsSignatureKey(db: Tdb, env: Env, hasBase: bool, m: Method)
    requires IsValidMethod(db, m)
    requires BuildRefMethod(db, env, hasBase, m).Ok?
    requires BuildRefMethod(db, env, hasBase, m).value.Emit?
    ensures BuildRefMethod(db, env, hasBase, m).value.key == SignatureKey(db, env, m.name.value, m)
    ensures BuildRefMethod(db, env, hasBase, m).value.decl.MethodDecl?
    ensures (BuildRefMethod(db, env, hasBase, m).value.internal.Some? <==> m.isStatic)
  {
  }

  /** A static method's body throws NotImplementedException exactly when it
      declares parameters and one of its runtime parameters is an out
      parameter; otherwise it forwards to the cached handle. */
  lemma StaticThunkThrowsOnlyForOut(db: Tdb, env: Env, hasBase: bool, m: Method, rps: seq<RuntimeParam>)
    requires IsValidMethod(db, m) && m.isStatic && |m.params| > 0
    requires m.runtime == Parameters(rps)
    requires BuildRefMethod(db, env, hasBase, m).Ok?
    requires BuildRefMethod(db, env, hasBase, m).value.Emit?
    ensures var d := BuildRefMethod(db, env, hasBase, m).value.decl;
            d.MethodDecl? && d.body.Block? && |d.body.stmts| == 1
            && (d.body.stmts[0] == ThrowNotImplemented <==>
                  exists i :: 0 <= i < |rps| && rps[i].hasParameterType && rps[i].isOut)
  {
    LowerFlags(db, env, rps);
  }

  /** A method is declared `new` exactly when the type has a base type and
      the dump marks the method as an override of an ancestor method whose
      declaring type is generated. */
  lemma MethodShadowing(db: Tdb, env: Env, hasBase: bool, m: Method)
    requires IsValidMethod(db, m)
    requires BuildRefMethod(db, env, hasBase, m).Ok?
    requires BuildRefMethod(db, env, hasBase, m).value.Emit?
    ensures var d := BuildRefMethod(db, env, hasBase, m).value.decl;
            d.MethodDecl?
            && (New in d.modifiers <==>
                  && hasBase
                  && m.ext.Some? && m.ext.value.isOverride == Some(true)
                  && exists p :: p in m.ext.value.matchingParentDeclaringTypes && IsValidType(db, env, p))
  {
  }

  /** A static method declares its cached handle INTERNAL_ + name + index,
      bound to its own signature, and its body, unless it throws, invokes
      exactly that handle. */
  lemma StaticThunkUsesItsHandle(db: Tdb, env: Env, hasBase: bool, m: Method)
    requires IsValidMethod(db, m) && m.isStatic
    requires BuildRefMethod(db, env, hasBase, m).Ok?
    requires BuildRefMethod(db, env, hasBase, m).value.Emit?
    ensures var e := BuildRefMethod(db, env, hasBase, m).value;
            && e.internal == Some(HandleField(InternalName(m.name.value, m.index), MethodHandle(m.signature)))
            && e.decl.MethodDecl? && e.decl.body.Block? && |e.decl.body.stmts| == 1
            && var st := e.decl.body.stmts[0];
               st != ThrowNotImplemented ==>
                 (st.InvokeNoArgs? || st.InvokeWithArgs? || st.ReturnInvokeBoxed?)
                 && st.handle == e.internal.value.name
  {
  }

  /** The builder over a list of methods, stopping at the first exception. */
  function BuildAll(db: Tdb, env: Env, hasBase: bool, ms: seq<Method>): Result<seq<Emitted>>
    requires forall m :: m in ms ==> IsValidMethod(db, m)
    decreases |ms|
  {
    if ms == [] then Ok([])
    else
      match BuildAll(db, env, hasBase, ms[..|ms| - 1])
      case Throws(e) => Throws(e)
      case Ok(es) =>
        match BuildRefMethod(db, env, hasBase, ms[|ms| - 1])
        case Throws(e) => Throws(e)
        case Ok(x) => Ok(es + [x])
  }

  /** The accumulated output: emitted declarations with their keys, the
      keys seen so far, and the cached-handle declarations. */
  datatype MethodsOut = MethodsOut(
    decls: seq<MemberDecl>,
    keys: seq<string>,
    seen: set<string>,
    internals: seq<MemberDecl>)

  const NoMethods := MethodsOut([], [], {}, [])

  /** One outcome: the handle of a static method is declared before the
      duplicate check, the declaration only when its key is new. */
  function CollectMethod(acc: MethodsOut, e: Emitted): MethodsOut {
    match e
    case Skip => acc
    case Emit(d, k, internal) =>
      var acc' := acc.(internals := acc.internals + (if internal.Some? then [internal.value] else []));
      if k in acc.seen then acc'
      else acc'.(decls := acc.decls + [d], keys := acc.keys + [k], seen := acc.seen + {k})
  }

  function Dedup(es: seq<Emitted>): MethodsOut
    decreases |es|
  {
    if es == [] then NoMethods else CollectMethod(Dedup(es[..|es| - 1]), es[|es| - 1])
  }

  /** Outcome `i` is the first one that emits its key. */
  predicate FirstWithKey(es: seq<Emitted>, i: int) {
    0 <= i < |es| && es[i].Emit? && forall j :: 0 <= j < i ==> !(es[j].Emit? && es[j].key == es[i].key)
  }

  /** The handles of all emitted outcomes, duplicates included, in order. */
  function InternalsOf(es: seq<Emitted>): seq<MemberDecl>
    decreases |es|
  {
    if es == [] then []
    else InternalsOf(es[..|es| - 1])
         + (if es[|es| - 1].Emit? && es[|es| - 1].internal.Some? then [es[|es| - 1].internal.value] else [])
  }

  /** The kept keys are pairwise different and are exactly the seen set,
      one declaration per key, and every emitted key is kept. */
  lemma {:induction false} DedupKeys(es: seq<Emitted>)
    ensures var r := Dedup(es);
            && |r.decls| == |r.keys|
            && Distinct(r.keys)
            && (forall k :: k in r.seen <==> k in r.keys)
            && (forall i :: 0 <= i < |es| && es[i].Emit? ==> es[i].key in r.keys)
    decreases |es|
  {
    if es != [] {
      var pre := es[..|es| - 1];
      var e := es[|es| - 1];
      DedupKeys(pre);
      var r0 := Dedup(pre);
      assert Dedup(es) == CollectMethod(r0, e);
      forall i | 0 <= i < |pre| ensures es[i] == pre[i] { }
      if e.Emit? && e.key !in r0.seen {
        assert Dedup(es).keys == r0.keys + [e.key];
        assert Dedup(es).decls == r0.decls + [e.decl];
      } else {
        assert Dedup(es).keys == r0.keys && Dedup(es).decls == r0.decls && Dedup(es).seen == r0.seen;
      }
    }
  }

  /** Declaration `d` is the one of the first outcome emitting key `k`. */
  ghost predicate FirstEmits(es: seq<Emitted>, k: string, d: MemberDecl) {
    exists i :: FirstWithKey(es, i) && es[i].key == k && es[i].decl == d
  }

  /** Appending an outcome keeps an earlier first emission first. */
  lemma FirstEmitsExtend(es: seq<Emitted>, k: string, d: MemberDecl)
    requires es != [] && FirstEmits(es[..|es| - 1], k, d)
    ensures FirstEmits(es, k, d)
  {
    var pre := es[..|es| - 1];
    var i :| FirstWithKey(pre, i) && pre[i].key == k && pre[i].decl == d;
    forall j | 0 <= j <= i ensures es[j] == pre[j] { }
    assert FirstWithKey(es, i);
  }

  /** An emitting last outcome whose key no earlier outcome emitted is the
      first emission of that key. */
  lemma FirstEmitsLast(es: seq<Emitted>)
    requires es != [] && es[|es| - 1].Emit?
    requires forall j :: 0 <= j < |es| - 1 && es[j].Emit? ==> es[j].key != es[|es| - 1].key
    ensures FirstEmits(es, es[|es| - 1].key, es[|es| - 1].decl)
  {
    assert FirstWithKey(es, |es| - 1);
  }

  /** One step of deduplication on the kept keys and declarations: a new
      key is appended with its declaration, anything else changes neither. */
  lemma CollectMethodKeys(acc: MethodsOut, e: Emitted)
    ensures var r := CollectMethod(acc, e);
            if e.Emit? && e.key !in acc.seen
            then r.keys == acc.keys + [e.key] && r.decls == acc.decls + [e.decl]
            else r.keys == acc.keys && r.decls == acc.decls
  {
  }

  /** Each kept declaration is the first one emitted under its key. */
  lemma {:induction false} DedupKeepsFirst(es: seq<Emitted>)
    ensures var r := Dedup(es);
            && |r.decls| == |r.keys|
            && forall p :: 0 <= p < |r.keys| ==> FirstEmits(es, r.keys[p], r.decls[p])
    decreases |es|
  {
    if es != [] {
      var pre := es[..|es| - 1];
      var e := es[|es| - 1];
      DedupKeepsFirst(pre);
      var r0 := Dedup(pre);
      var r := Dedup(es);
      assert r == CollectMethod(r0, e);
      CollectMethodKeys(r0, e);
      var isNew := e.Emit? && e.key !in r0.seen;
      forall p | 0 <= p < |r.keys| ensures FirstEmits(es, r.keys[p], r.decls[p]) {
        if p < |r0.keys| {
          assert r.keys[p] == r0.keys[p] && r.decls[p] == r0.decls[p];
          FirstEmitsExtend(es, r.keys[p], r.decls[p]);
        } else {
          assert isNew && r.keys[p] == e.key && r.decls[p] == e.decl;
          DedupKeys(pre);
          forall j | 0 <= j < |es| - 1 && es[j].Emit? ensures es[j].key != e.key {
            assert es[j] == pre[j];
          }
          FirstEmitsLast(es);
        }
      }
    }
  }

  /** Deduplication: the kept keys are pairwise different and are exactly
      the seen set; every emitted key is kept; and each kept declaration is
      the first one emitted under its key. */
  lemma DedupKeepsFirstOfEachKey(es: seq<Emitted>)
    ensures var r := Dedup(es);
            && |r.decls| == |r.keys|
            && Distinct(r.keys)
            && (forall k :: k in r.seen <==> k in r.keys)
            && (forall i :: 0 <= i < |es| && es[i].Emit? ==> es[i].key in r.keys)
            && (forall p :: 0 <= p < |r.keys| ==>
                  exists i :: FirstWithKey(es, i) && es[i].key == r.keys[p] && es[i].decl == r.decls[p])
  {
    DedupKeys(es);
    DedupKeepsFirst(es);
  }

  /** Handles are declared for every static method the builder finished,
      including the ones whose declaration was dropped as a duplicate. */
  lemma {:induction false} DedupKeepsAllHandles(es: seq<Emitted>)
    ensures Dedup(es).internals == InternalsOf(es)
    decreases |es|
  {
    if es != [] {
      DedupKeepsAllHandles(es[..|es| - 1]);
    }
  }

  /** GenerateMethods' output for a list of valid methods. */
  function RefMethodsOf(db: Tdb, env: Env, hasBase: bool, valid: seq<Method>): Result<MethodsOut>
    requires forall m :: m in valid ==> IsValidMethod(db, m)
  {
    match BuildAll(db, env, hasBase, valid)
    case Throws(e) => Throws(e)
    case Ok(es) => Ok(Dedup(es))
  }

  /** GenerateMethods: the valid methods are built in order, a HashSet of
      seen keys drops later overloads with a repeated key. */
  method GenerateMethods(db: Tdb, env: Env, hasBase: bool, methods: seq<Method>) returns (r: Result<MethodsOut>)
    ensures r == RefMethodsOf(db, env, hasBase, ValidMethodsOf(db, methods))
  {
    if |methods| == 0 {
      return Ok(NoMethods);
    }
    var validMethods := GetValidMethods(db, methods);
    var decls: seq<MemberDecl> := [];
    var keys: seq<string> := [];
    var seenMethodSignatures: set<string> := {};
    var internals: seq<MemberDecl> := [];
    ghost var es: seq<Emitted> := [];
    var i := 0;
    while i < |validMethods|
      invariant 0 <= i <= |validMethods|
      invariant BuildAll(db, env, hasBase, validMethods[..i]) == Ok(es)
      invariant MethodsOut(decls, keys, seenMethodSignatures, internals) == Dedup(es)
    {
      var m := validMethods[i];
      var e := BuildRefMethod(db, env, hasBase, m);
      BuildAllStep(db, env, hasBase, validMethods, i, es);
      if e.Throws? {
        BuildAllThrows(db, env, hasBase, validMethods, i);
        return Throws(e.error);
      }
      decls, keys, seenMethodSignatures, internals :=
        AddMethod(decls, keys, seenMethodSignatures, internals, e.value);
      DedupSnoc(es, e.value);
      es := es + [e.value];
      i := i + 1;
    }
    assert validMethods[..i] == validMethods;
    r := Ok(MethodsOut(decls, keys, seenMethodSignatures, internals));
  }

  /** One step of the GenerateMethods loop: the handle is declared, then
      the declaration is kept unless its key was seen. */
  method AddMethod(decls: seq<MemberDecl>, keys: seq<string>, seen: set<string>, internals: seq<MemberDecl>, e: Emitted)
    returns (decls': seq<MemberDecl>, keys': seq<string>, seen': set<string>, internals': seq<MemberDecl>)
    ensures MethodsOut(decls', keys', seen', internals') == CollectMethod(MethodsOut(decls, keys, seen, internals), e)
  {
    decls', keys', seen', internals' := decls, keys, seen, internals;
    match e {
      case Skip =>
      case Emit(d, k, internal) =>
        if internal.Some? {
          internals' := internals' + [internal.value];
        }
        if k !in seen' {
          seen' := seen' + {k};
          decls' := decls' + [d];
          keys' := keys' + [k];
        }
    }
  }

  lemma BuildAllStep(db: Tdb, env: Env, hasBase: bool, ms: seq<Method>, i: nat, es: seq<Emitted>)
    requires forall m :: m in ms ==> IsValidMethod(db, m)
    requires i < |ms|
    requires BuildAll(db, env, hasBase, ms[..i]) == Ok(es)
    ensures BuildRefMethod(db, env, hasBase, ms[i]).Ok? ==>
              BuildAll(db, env, hasBase, ms[..i + 1]) == Ok(es + [BuildRefMethod(db, env, hasBase, ms[i]).value])
  {
    assert ms[..i + 1][..i] == ms[..i];
  }

  lemma DedupSnoc(es: seq<Emitted>, e: Emitted)
    ensures Dedup(es + [e]) == CollectMethod(Dedup(es), e)
  {
    assert (es + [e])[..|es|] == es;
  }

  /** An exception at position `i` ends the whole build with that exception. */
  lemma {:induction false} BuildAllThrows(db: Tdb, env: Env, hasBase: bool, ms: seq<Method>, i: nat)
    requires forall m :: m in ms ==> IsValidMethod(db, m)
    requires i < |ms|
    requires BuildAll(db, env, hasBase, ms[..i]).Ok?
    requires BuildRefMethod(db, env, hasBase, ms[i]).Throws?
    ensures BuildAll(db, env, hasBase, ms) == Throws(BuildRefMethod(db, env, hasBase, ms[i]).error)
    decreases |ms|
  {
    if i == |ms| - 1 {
      assert ms[..|ms| - 1] == ms[..i];
    } else {
      assert ms[..|ms| - 1][..i] == ms[..i];
      BuildAllThrows(db, env, hasBase, ms[..|ms| - 1], i);
    }
  }
}

=== FILE: signatures.dfy ===
/** Lowering a method's runtime parameters into parameter declarations,
    the argument expressions its body passes on, and the per-parameter
    part of its overload signature key. Both method emitters share this
    walk. */
module Signatures {
  import opened Metadata
  import opened Strings
  import opened Declarations
  import opened TypeNames

  /** Everything the parameter walk accumulates. */
  datatype Lowered = Lowered(
    key: string,              // the per-parameter part of the signature key
    params: seq<ParamDecl>,
    argNames: seq<string>,    // the expressions the body passes for the parameters
    unknownCount: nat,        // unnamed parameters seen so far
    anyOut: bool,
    anyUnsafe: bool)

  const NoParams := Lowered("", [], [], 0, false, false)

  predicate Unnamed(rp: RuntimeParam) {
    rp.name.None? || rp.name.value == ""
  }

  /** The declared name: the parameter's own name, or argN for the N-th
      unnamed parameter; `object` is renamed to `object_`. */
  function ParamName(rp: RuntimeParam, unknown: nat): string {
    var n := if Unnamed(rp) then "arg" + NatToString(unknown) else rp.name.value;
    if n == "object" then "object_" else n
  }

  /** The type text of a typed parameter. */
  function ParamTypeText(db: Tdb, env: Env, rp: RuntimeParam): string {
    Text(MakeProperType(db, env, rp.typeHandle))
  }

  /** The contribution of one parameter to the signature key: nothing for a
      parameter without a type; otherwise `out` for an out parameter, then
      `ref T` for a by-reference one that is not out, `ptr T` for a pointer,
      or `T`. */
  function ParamToken(db: Tdb, env: Env, rp: RuntimeParam): string {
    if !rp.hasParameterType then ""
    else
      var txt := ParamTypeText(db, env, rp);
      (if rp.isOut then "out" else "")
      + (if rp.isByRef then (if rp.isOut then "" else "ref " + txt)
         else if rp.isPointer then "ptr " + txt
         else txt)
  }

  /** One iteration of the parameter walk. */
  function LowerStep(db: Tdb, env: Env, acc: Lowered, rp: RuntimeParam): Lowered {
    var name := ParamName(rp, acc.unknownCount);
    var unknown := if Unnamed(rp) then acc.unknownCount + 1 else acc.unknownCount;
    if !rp.hasParameterType then
      acc.(params := acc.params + [ParamDecl(name, "object", [])],
           argNames := acc.argNames + [name],
           unknownCount := unknown)
    else
      var txt := ParamTypeText(db, env, rp);
      var mods := (if rp.isOut then [OutMod] else []) + (if rp.isByRef && !rp.isOut then [RefMod] else []);
      var pointer := !rp.isByRef && rp.isPointer;
      Lowered(
        acc.key + ParamToken(db, env, rp),
        acc.params + [ParamDecl(name, if pointer then txt + "*" else txt, mods)],
        acc.argNames + [if pointer then "(global::System.IntPtr) " + name else name],
        unknown,
        acc.anyOut || rp.isOut,
        acc.anyUnsafe || pointer)
  }

  /** The parameter walk over a runtime parameter list. */
  function Lower(db: Tdb, env: Env, rps: seq<RuntimeParam>): Lowered
    decreases |rps|
  {
    if rps == [] then NoParams
    else LowerStep(db, env, Lower(db, env, rps[..|rps| - 1]), rps[|rps| - 1])
  }

  /** The per-parameter key, concatenated from the front (reference definition). */
  function KeyTokens(db: Tdb, env: Env, rps: seq<RuntimeParam>): string {
    if rps == [] then "" else ParamToken(db, env, rps[0]) + KeyTokens(db, env, rps[1..])
  }

  /** The number of unnamed parameters in `rps`. */
  function UnnamedCount(rps: seq<RuntimeParam>): nat {
    if rps == [] then 0 else (if Unnamed(rps[0]) then 1 else 0) + UnnamedCount(rps[1..])
  }

  lemma {:induction false} KeyTokensSnoc(db: Tdb, env: Env, rps: seq<RuntimeParam>, rp: RuntimeParam)
    ensures KeyTokens(db, env, rps + [rp]) == KeyTokens(db, env, rps) + ParamToken(db, env, rp)
    decreases |rps|
  {
    if rps != [] {
      assert (rps + [rp])[1..] == rps[1..] + [rp];
      KeyTokensSnoc(db, env, rps[1..], rp);
    }
  }

  lemma {:induction false} UnnamedCountSnoc(rps: seq<RuntimeParam>, rp: RuntimeParam)
    ensures UnnamedCount(rps + [rp]) == UnnamedCount(rps) + (if Unnamed(rp) then 1 else 0)
    decreases |rps|
  {
    if rps != [] {
      assert (rps + [rp])[1..] == rps[1..] + [rp];
      UnnamedCountSnoc(rps[1..], rp);
    }
  }

  /** The walk yields one declaration and one argument per runtime
      parameter and counts the unnamed ones. */
  lemma {:induction false} LowerLengths(db: Tdb, env: Env, rps: seq<RuntimeParam>)
    ensures |Lower(db, env, rps).params| == |rps| && |Lower(db, env, rps).argNames| == |rps|
    ensures Lower(db, env, rps).unknownCount == UnnamedCount(rps)
    decreases |rps|
  {
    if rps != [] {
      var pre := rps[..|rps| - 1];
      LowerLengths(db, env, pre);
      assert rps == pre + [rps[|rps| - 1]];
      UnnamedCountSnoc(pre, rps[|rps| - 1]);
    }
  }

  /** The key is the concatenation of the parameters' tokens. */
  lemma {:induction false} LowerKey(db: Tdb, env: Env, rps: seq<RuntimeParam>)
    ensures Lower(db, env, rps).key == KeyTokens(db, env, rps)
    decreases |rps|
  {
    if rps != [] {
      var pre := rps[..|rps| - 1];
      LowerKey(db, env, pre);
      assert rps == pre + [rps[|rps| - 1]];
      KeyTokensSnoc(db, env, pre, rps[|rps| - 1]);
    }
  }

  /** One step of the walk appends the declaration of the parameter it
      lowers, named from the count of unnamed parameters so far. */
  lemma ParamsStep(db: Tdb, env: Env, acc: Lowered, rp: RuntimeParam)
    ensures var l := LowerStep(db, env, acc, rp);
            && |l.params| == |acc.params| + 1
            && l.params[..|acc.params|] == acc.params
            && l.params[|acc.params|].name == ParamName(rp, acc.unknownCount)
  {
  }

  /** Each parameter is declared under its own name, or argN for the N-th
      unnamed one (counting from 0). */
  lemma {:induction false} LowerNames(db: Tdb, env: Env, rps: seq<RuntimeParam>)
    ensures |Lower(db, env, rps).params| == |rps|
    ensures forall i :: 0 <= i < |rps| ==>
              Lower(db, env, rps).params[i].name == ParamName(rps[i], UnnamedCount(rps[..i]))
    decreases |rps|
  {
    LowerLengths(db, env, rps);
    if rps != [] {
      var pre := rps[..|rps| - 1];
      var acc := Lower(db, env, pre);
      LowerNames(db, env, pre);
      LowerLengths(db, env, pre);
      ParamsStep(db, env, acc, rps[|rps| - 1]);
      var ps := Lower(db, env, rps).params;
      forall i | 0 <= i < |rps| ensures ps[i].name == ParamName(rps[i], UnnamedCount(rps[..i])) {
        if i < |pre| {
          assert rps[..i] == pre[..i] && rps[i] == pre[i];
          assert ps[i] == ps[..|pre|][i];
        } else {
          assert rps[..i] == pre;
        }
      }
    }
  }

  /** One step of the walk sets the flags from the parameter it lowers. */
  lemma FlagsStep(db: Tdb, env: Env, acc: Lowered, rp: RuntimeParam)
    ensures LowerStep(db, env, acc, rp).anyOut == (acc.anyOut || (rp.hasParameterType && rp.isOut))
    ensures LowerStep(db, env, acc, rp).anyUnsafe == (acc.anyUnsafe || (rp.hasParameterType && !rp.isByRef && rp.isPointer))
  {
  }

  predicate OutParam(rp: RuntimeParam) {
    rp.hasParameterType && rp.isOut
  }

  predicate PointerParam(rp: RuntimeParam) {
    rp.hasParameterType && !rp.isByRef && rp.isPointer
  }

  predicate HasOut(rps: seq<RuntimeParam>) {
    exists i :: 0 <= i < |rps| && OutParam(rps[i])
  }

  predicate HasPointer(rps: seq<RuntimeParam>) {
    exists i :: 0 <= i < |rps| && PointerParam(rps[i])
  }

  lemma HasOutSnoc(rps: seq<RuntimeParam>)
    requires rps != []
    ensures HasOut(rps) <==> HasOut(rps[..|rps| - 1]) || OutParam(rps[|rps| - 1])
  {
    var pre := rps[..|rps| - 1];
    if HasOut(pre) {
      var i :| 0 <= i < |pre| && OutParam(pre[i]);
      assert rps[i] == pre[i];
    }
    if HasOut(rps) {
      var i :| 0 <= i < |rps| && OutParam(rps[i]);
      if i < |pre| { assert pre[i] == rps[i]; }
    }
  }

  lemma HasPointerSnoc(rps: seq<RuntimeParam>)
    requires rps != []
    ensures HasPointer(rps) <==> HasPointer(rps[..|rps| - 1]) || PointerParam(rps[|rps| - 1])
  {
    var pre := rps[..|rps| - 1];
    if HasPointer(pre) {
      var i :| 0 <= i < |pre| && PointerParam(pre[i]);
      assert rps[i] == pre[i];
    }
    if HasPointer(rps) {
      var i :| 0 <= i < |rps| && PointerParam(rps[i]);
      if i < |pre| { assert pre[i] == rps[i]; }
    }
  }

  /** The flags record an out parameter and a pointer (non-by-reference) parameter. */
  lemma {:induction false} LowerFlags(db: Tdb, env: Env, rps: seq<RuntimeParam>)
    ensures Lower(db, env, rps).anyOut <==> HasOut(rps)
    ensures Lower(db, env, rps).anyUnsafe <==> HasPointer(rps)
    decreases |rps|
  {
    if rps != [] {
      var pre := rps[..|rps| - 1];
      LowerFlags(db, env, pre);
      FlagsStep(db, env, Lower(db, env, pre), rps[|rps| - 1]);
      HasOutSnoc(rps);
      HasPointerSnoc(rps);
    }
  }

  /** An unnamed parameter is declared as argN, N counting the unnamed
      parameters before it. */
  lemma UnnamedParamNumbering(db: Tdb, env: Env, rps: seq<RuntimeParam>, i: nat)
    requires i < |rps| && Unnamed(rps[i])
    ensures |Lower(db, env, rps).params| == |rps|
    ensures Lower(db, env, rps).params[i].name == "arg" + NatToString(UnnamedCount(rps[..i]))
  {
    LowerNames(db, env, rps);
    var s := "arg" + NatToString(UnnamedCount(rps[..i]));
    assert s[0] == 'a';
  }

  /** An unnamed parameter raises the unnamed count of every longer prefix. */
  lemma {:induction false} UnnamedCountGrows(rps: seq<RuntimeParam>, i: nat, j: nat)
    requires i < j <= |rps| && Unnamed(rps[i])
    ensures UnnamedCount(rps[..i]) < UnnamedCount(rps[..j])
    decreases j
  {
    assert rps[..j] == rps[..j - 1] + [rps[j - 1]];
    UnnamedCountSnoc(rps[..j - 1], rps[j - 1]);
    if i < j - 1 {
      UnnamedCountGrows(rps, i, j - 1);
    } else {
      assert rps[..j - 1] == rps[..i];
    }
  }

  /** Two unnamed parameters of one method never get the same argN name. */
  lemma UnnamedParamsDistinct(db: Tdb, env: Env, rps: seq<RuntimeParam>, i: nat, j: nat)
    requires i < j < |rps| && Unnamed(rps[i]) && Unnamed(rps[j])
    ensures |Lower(db, env, rps).params| == |rps|
    ensures Lower(db, env, rps).params[i].name != Lower(db, env, rps).params[j].name
  {
    UnnamedParamNumbering(db, env, rps, i);
    UnnamedParamNumbering(db, env, rps, j);
    UnnamedCountGrows(rps, i, j);
    NatToStringValue(UnnamedCount(rps[..i]));
    NatToStringValue(UnnamedCount(rps[..j]));
    var a := NatToString(UnnamedCount(rps[..i]));
    var b := NatToString(UnnamedCount(rps[..j]));
    assert ("arg" + a)[3..] == a && ("arg" + b)[3..] == b;
  }

  /** The parameter walk as the source runs it: a loop over the runtime
      parameters updating the key, the lists, the counter and the flags. */
  method LowerParameters(db: Tdb, env: Env, rps: seq<RuntimeParam>) returns (l: Lowered)
    ensures l == Lower(db, env, rps)
  {
    l := NoParams;
    var i := 0;
    while i < |rps|
      invariant 0 <= i <= |rps|
      invariant l == Lower(db, env, rps[..i])
    {
      assert rps[..i + 1][..i] == rps[..i];
      l := LowerParameter(db, env, l, rps[i]);
      i := i + 1;
    }
    assert rps[..i] == rps;
  }

  /** One pass of the loop body of the parameter walk. */
  method LowerParameter(db: Tdb, env: Env, acc: Lowered, rp: RuntimeParam) returns (l: Lowered)
    ensures l == LowerStep(db, env, acc, rp)
  {
    var unknownArgCount := acc.unknownCount;
    var paramName: string;
    if rp.name.None? || rp.name.value == "" {
      paramName := "arg" + NatToString(unknownArgCount);
      unknownArgCount := unknownArgCount + 1;
    } else {
      paramName := rp.name.value;
    }
    if paramName == "object" {
      paramName := "object_";
    }
    assert paramName == ParamName(rp, acc.unknownCount);
    assert unknownArgCount == if Unnamed(rp) then acc.unknownCount + 1 else acc.unknownCount;
    if !rp.hasParameterType {
      l := acc.(params := acc.params + [ParamDecl(paramName, "object", [])],
                argNames := acc.argNames + [paramName],
                unknownCount := unknownArgCount);
      return;
    }
    l := LowerTyped(db, env, acc, rp, paramName, unknownArgCount);
  }

  /** The rest of the loop body for a parameter with a type: the key token,
      the modifiers, the pointer spelling and the flags. */
  method LowerTyped(db: Tdb, env: Env, acc: Lowered, rp: RuntimeParam, paramName: string, unknownArgCount: nat)
      returns (l: Lowered)
    requires rp.hasParameterType
    requires paramName == ParamName(rp, acc.unknownCount)
    requires unknownArgCount == if Unnamed(rp) then acc.unknownCount + 1 else acc.unknownCount
    ensures l == LowerStep(db, env, acc, rp)
  {
    var key := acc.key;
    var parsedParamName := paramName;
    var txt := ParamTypeText(db, env, rp);
    var modifiers: seq<ParamModifier> := [];
    var anyOutParams := acc.anyOut;
    var anyUnsafeParams := acc.anyUnsafe;
    var parameter: ParamDecl;
    ghost var outPart := if rp.isOut then "out" else "";
    ghost var rest := if rp.isByRef then (if rp.isOut then "" else "ref " + txt)
                      else if rp.isPointer then "ptr " + txt else txt;
    if rp.isOut {
      key := key + "out";
      modifiers := modifiers + [OutMod];
      anyOutParams := true;
    } else {
      AppendEmpty(key);
    }
    ghost var outKey := key;
    if rp.isByRef {
      if !rp.isOut {
        key := key + ("ref " + txt);
        modifiers := modifiers + [RefMod];
      } else {
        AppendEmpty(key);
      }
      parameter := ParamDecl(paramName, txt, modifiers);
    } else if rp.isPointer {
      key := key + ("ptr " + txt);
      parameter := ParamDecl(paramName, txt + "*", modifiers);
      anyUnsafeParams := true;
      parsedParamName := "(global::System.IntPtr) " + parsedParamName;
    } else {
      key := key + txt;
      parameter := ParamDecl(paramName, txt, modifiers);
    }
    assert outKey == acc.key + outPart && key == outKey + rest;
    AppendAssoc(acc.key, outPart, rest);
    assert modifiers == (if rp.isOut then [OutMod] else []) + (if rp.isByRef && !rp.isOut then [RefMod] else []);
    l := Lowered(key, acc.params + [parameter], acc.argNames + [parsedParamName],
                 unknownArgCount, anyOutParams, anyUnsafeParams);
  }

  /** The "any parameter is unusable" test on the declared parameters, with
      its short-circuit order: a parameter without a type answers yes, one
      whose type has no name faults, one whose type name contains '!'
      answers yes. */
  function BadParamCheck(db: Tdb, ps: seq<Param>): (r: Result<bool>)
    ensures r == Ok(false) <==>
              forall i :: 0 <= i < |ps| ==>
                ps[i].ty.Some? && FullNameOf(db, ps[i].ty.value).Some? && '!' !in FullNameOf(db, ps[i].ty.value).value
  {
    if ps == [] then Ok(false)
    else if ps[0].ty.None? then Ok(true)
    else if FullNameOf(db, ps[0].ty.value).None? then Throws(NullReference)
    else if '!' in FullNameOf(db, ps[0].ty.value).value then Ok(true)
    else
      var r := BadParamCheck(db, ps[1..]);
      assert forall i :: 1 <= i < |ps| ==> ps[i] == ps[1..][i - 1];
      r
  }

  /** The overload signature key of a valid method of a reference type:
      its name, then "()" when it declares no parameters, otherwise the
      tokens of its runtime parameters (nothing when the runtime reports no
      parameter list). */
  function SignatureKey(db: Tdb, env: Env, name: string, m: Method): string {
    if |m.params| == 0 then name + "()"
    else
      match m.runtime
      case Parameters(rps) => name + Lower(db, env, rps).key
      case _ => name
  }

  /** Return types are not part of the key: two methods that differ only in
      their return type get the same key. */
  lemma KeyIgnoresReturnType(db: Tdb, env: Env, name: string, m: Method, other: Option<TypeId>)
    ensures SignatureKey(db, env, name, m.(returnType := other)) == SignatureKey(db, env, name, m)
    ensures StartsWith(SignatureKey(db, env, name, m), name)
  {
    var k := SignatureKey(db, env, name, m);
    assert k[..|name|] == name;
  }
}

=== FILE: strings.dfy ===
/** Small string utilities with the semantics of the .NET string members the
    generator relies on (StartsWith, EndsWith, IndexOf, Split('.').Last(),
    and the decimal rendering of an index). */
module Strings {

  /** No string occurs twice in `s`. */
  predicate Distinct(s: seq<string>) {
    forall p, q :: 0 <= p < q < |s| ==> s[p] != s[q]
  }

  predicate StartsWith(s: string, prefix: string) {
    |prefix| <= |s| && s[..|prefix|] == prefix
  }

  predicate EndsWith(s: string, suffix: string) {
    |suffix| <= |s| && s[|s| - |suffix|..] == suffix
  }

  /** `p` occurs in `s` starting at position `i`. */
  predicate OccursAt(s: string, p: string, i: int) {
    0 <= i && i + |p| <= |s| && s[i..i + |p|] == p
  }

  /** Position of the first occurrence of `p` in `s`, or -1 (String.IndexOf). */
  function IndexOf(s: string, p: string): (r: int)
    ensures -1 <= r <= |s|
    ensures r >= 0 ==> OccursAt(s, p, r)
    ensures forall i :: 0 <= i && (r < 0 || i < r) ==> !OccursAt(s, p, i)
    decreases |s|
  {
    if |s| < |p| then
      assert forall i :: 0 <= i ==> !OccursAt(s, p, i);
      -1
    else if s[..|p|] == p then
      0
    else
      var k := IndexOf(s[1..], p);
      assert forall i :: 1 <= i ==> (OccursAt(s, p, i) <==> OccursAt(s[1..], p, i - 1)) by {
        forall i | 1 <= i
          ensures OccursAt(s, p, i) <==> OccursAt(s[1..], p, i - 1)
        {
          if i + |p| <= |s| {
            assert s[1..][i - 1..i - 1 + |p|] == s[i..i + |p|];
          }
        }
      }
      if k < 0 then -1 else k + 1
  }

  /** The text after the last '.' (the last element of s.Split('.')). */
  function LastSegment(s: string): (r: string)
    ensures EndsWith(s, r)
    ensures '.' !in r
    ensures |r| < |s| ==> s[|s| - |r| - 1] == '.'
  {
    if |s| == 0 then ""
    else if s[|s| - 1] == '.' then ""
    else
      var r := LastSegment(s[..|s| - 1]) + [s[|s| - 1]];
      assert s[|s| - |r|..] == s[..|s| - 1][|s| - |r|..] + [s[|s| - 1]];
      r
  }

  function DigitChar(d: nat): (c: char)
    requires d < 10
    ensures '0' <= c <= '9'
  {
    ['0', '1', '2', '3', '4', '5', '6', '7', '8', '9'][d]
  }

  /** The value of one decimal digit character. */
  function DigitValue(c: char): (d: nat)
    requires '0' <= c <= '9'
    ensures d < 10 && DigitChar(d) == c
  {
    (c as int - '0' as int) as nat
  }

  /** The number a string of decimal digits denotes, read left to right. */
  function DigitsValue(s: string): nat
    requires forall i :: 0 <= i < |s| ==> '0' <= s[i] <= '9'
  {
    if s == [] then 0 else DigitsValue(s[..|s| - 1]) * 10 + DigitValue(s[|s| - 1])
  }

  /** Decimal rendering of a natural number (UInt32/int ToString()). */
  function NatToString(n: nat): (r: string)
    ensures |r| >= 1
    ensures forall i :: 0 <= i < |r| ==> '0' <= r[i] <= '9'
  {
    if n < 10 then [DigitChar(n)] else NatToString(n / 10) + [DigitChar(n % 10)]
  }

  /** The rendering has no leading zero and denotes exactly `n`. */
  lemma {:induction false} NatToStringValue(n: nat)
    ensures |NatToString(n)| > 1 ==> NatToString(n)[0] != '0'
    ensures DigitsValue(NatToString(n)) == n
    decreases n
  {
    if n >= 10 {
      var p := NatToString(n / 10);
      NatToStringValue(n / 10);
      DigitsValueSnoc(p, n % 10);
      assert NatToString(n)[0] == p[0];
    }
  }

  /** Appending digit `d` multiplies the value by ten and adds `d`. */
  lemma DigitsValueSnoc(p: string, d: nat)
    requires d < 10 && forall i :: 0 <= i < |p| ==> '0' <= p[i] <= '9'
    ensures forall i :: 0 <= i < |p + [DigitChar(d)]| ==> '0' <= (p + [DigitChar(d)])[i] <= '9'
    ensures DigitsValue(p + [DigitChar(d)]) == DigitsValue(p) * 10 + d
  {
    var r := p + [DigitChar(d)];
    assert r[..|r| - 1] == p;
  }

  lemma AppendAssoc(a: string, b: string, c: string)
    ensures (a + b) + c == a + (b + c)
  {
  }

  lemma AppendEmpty(a: string)
    ensures a + "" == a
  {
  }
}

=== FILE: type_names.dfy ===
/** Type-name resolution: the mapping from a foreign type reference to the
    type expression written into a declaration (MakeProperType). */
module TypeNames {
  import opened Metadata
  import opened Strings
  import opened Declarations

  /** The fixed table of names with a keyword of their own. */
  function PrimitiveKeyword(name: string): (r: Option<Keyword>)
    ensures r != Some(VoidKw)
  {
    if name == "System.Single" then Some(FloatKw)
    else if name == "System.Double" then Some(DoubleKw)
    else if name == "System.Int32" then Some(IntKw)
    else if name == "System.UInt32" then Some(UIntKw)
    else if name == "System.Int16" then Some(ShortKw)
    else if name == "System.UInt16" then Some(UShortKw)
    else if name == "System.Byte" then Some(ByteKw)
    else if name == "System.SByte" then Some(SByteKw)
    else if name == "System.Char" then Some(CharKw)
    else if name == "System.Int64" || name == "System.IntPtr" then Some(LongKw)
    else if name == "System.UInt64" || name == "System.UIntPtr" then Some(ULongKw)
    else if name == "System.Boolean" then Some(BoolKw)
    else if name == "System.String" then Some(StringKw)
    else if name == "via.clr.ManagedObject" || name == "System.Object" then Some(ObjectKw)
    else None
  }

  /** The names the table sends to each keyword, stated independently of it. */
  function ClrNames(k: Keyword): set<string> {
    match k
    case VoidKw => {}
    case FloatKw => {"System.Single"}
    case DoubleKw => {"System.Double"}
    case IntKw => {"System.Int32"}
    case UIntKw => {"System.UInt32"}
    case ShortKw => {"System.Int16"}
    case UShortKw => {"System.UInt16"}
    case ByteKw => {"System.Byte"}
    case SByteKw => {"System.SByte"}
    case CharKw => {"System.Char"}
    case LongKw => {"System.Int64", "System.IntPtr"}
    case ULongKw => {"System.UInt64", "System.UIntPtr"}
    case BoolKw => {"System.Boolean"}
    case StringKw => {"System.String"}
    case ObjectKw => {"via.clr.ManagedObject", "System.Object"}
  }

  /** Every keyword the table gives is one of the names' keyword. */
  lemma KeywordTableSound(name: string)
    ensures PrimitiveKeyword(name).Some? ==> name in ClrNames(PrimitiveKeyword(name).value)
  {
  }

  /** Every name of a keyword is sent to that keyword. */
  lemma KeywordTableComplete(name: string, k: Keyword)
    requires name in ClrNames(k)
    ensures PrimitiveKeyword(name) == Some(k)
  {
    match k
    case VoidKw =>
    case FloatKw =>
    case DoubleKw =>
    case IntKw =>
    case UIntKw =>
    case ShortKw =>
    case UShortKw =>
    case ByteKw =>
    case SByteKw =>
    case CharKw =>
    case LongKw =>
    case ULongKw =>
    case BoolKw =>
    case StringKw =>
    case ObjectKw =>
  }

  /** The keyword table and its inverse agree in both directions. */
  lemma KeywordTableInverse(name: string, k: Keyword)
    ensures PrimitiveKeyword(name) == Some(k) <==> name in ClrNames(k)
  {
    KeywordTableSound(name);
    if name in ClrNames(k) {
      KeywordTableComplete(name, k);
    }
  }

  /** GetFullName() of the target, "" for a null target. */
  function OriginalName(db: Tdb, target: Option<TypeId>): string {
    if target.Some? then NameOrEmpty(db, target.value) else ""
  }

  /** The early `void` exit: no target, or a sanitised name that is empty or System.Void. */
  predicate IsVoidTarget(db: Tdb, env: Env, target: Option<TypeId>) {
    target.None?
    || env.fixBadChars(OriginalName(db, target)) == "System.Void"
    || env.fixBadChars(OriginalName(db, target)) == ""
  }

  /** The name the keyword switch looks at: the full rename if one is
      registered, else the sanitised full name. */
  function SwitchName(db: Tdb, env: Env, id: TypeId): string {
    if id in env.typeFullRenames then env.typeFullRenames[id]
    else env.fixBadChars(NameOrEmpty(db, id))
  }

  /** MakeProperType. */
  function MakeProperType(db: Tdb, env: Env, target: Option<TypeId>): (r: TypeSyntax)
    ensures r == Predefined(VoidKw) <==> IsVoidTarget(db, env, target)
    ensures r.Predefined? && r.keyword != VoidKw && r.keyword != ObjectKw ==>
              target.Some? && SwitchName(db, env, target.value) in ClrNames(r.keyword)
    ensures r == Predefined(ObjectKw) ==>
              target.Some? && (SwitchName(db, env, target.value) in ClrNames(ObjectKw)
                               || OriginalName(db, target) !in env.validTypes)
    ensures r.Named? ==>
              target.Some? && OriginalName(db, target) in env.validTypes
              && PrimitiveKeyword(SwitchName(db, env, target.value)).None?
              && r.name == "global::" + env.correctTypeName(SwitchName(db, env, target.value))
    ensures (!IsVoidTarget(db, env, target) && OriginalName(db, target) in env.validTypes
             && PrimitiveKeyword(SwitchName(db, env, target.value)).None?) ==> r.Named?
    ensures (!IsVoidTarget(db, env, target) && PrimitiveKeyword(SwitchName(db, env, target.value)).Some?)
            ==> r == Predefined(PrimitiveKeyword(SwitchName(db, env, target.value)).value)
    ensures (!IsVoidTarget(db, env, target) && OriginalName(db, target) !in env.validTypes
             && PrimitiveKeyword(SwitchName(db, env, target.value)).None?) ==> r == Predefined(ObjectKw)
  {
    var og := OriginalName(db, target);
    var fixedName := env.fixBadChars(og);
    if target.None? || fixedName == "System.Void" || fixedName == "" then
      Predefined(VoidKw)
    else
      var name := SwitchName(db, env, target.value);
      match PrimitiveKeyword(name)
      case Some(k) =>
        KeywordTableInverse(name, k);
        Predefined(k)
      case None =>
        if og !in env.validTypes then Predefined(ObjectKw)
        else Named("global::" + env.correctTypeName(name))
  }

  /** A resolved type expression is `void` only for the early exit: a type
      with a real, non-void name never resolves to `void`, whatever the
      tables say. */
  lemma NeverVoidForNamedType(db: Tdb, env: Env, id: TypeId)
    requires env.fixBadChars(NameOrEmpty(db, id)) != ""
    requires env.fixBadChars(NameOrEmpty(db, id)) != "System.Void"
    ensures MakeProperType(db, env, Some(id)) != Predefined(VoidKw)
    ensures StartsWith(Text(MakeProperType(db, env, Some(id))), "global::")
            || MakeProperType(db, env, Some(id)).Predefined?
  {
  }
}

=== FILE: type_spec.dfy ===
/** What ClassGenerator produces for one type, as functions: the base-type
    walk over the parent chain, the interface (reference type) and struct
    (value type) declarations, and the nested types and array types that
    GenerateNestedTypes adds by running further generators. Nesting is
    bounded by a fuel parameter. */
module TypeSpec {
  import opened Metadata
  import opened Strings
  import opened Declarations
  import opened Filters
  import opened PropertyInference
  import opened ValueTypes
  import opened RefMethods
  import opened RefFields
  import opened Properties

  // ---------------------------------------------------------------------
  // Base type

  /** The parent chain starting at `p` (reference definition for the walk). */
  function Ancestors(db: Tdb, p: Option<TypeId>): seq<TypeId>
    requires WellFormed(db)
    decreases if p.Some? then p.value + 1 else 0
  {
    if p.None? then [] else [p.value] + Ancestors(db, ParentOf(db, p.value))
  }

  /** The first ancestor, from `p` upwards, that is a valid type. */
  function FirstValidAncestor(db: Tdb, env: Env, p: Option<TypeId>): Option<TypeId>
    requires WellFormed(db)
    decreases if p.Some? then p.value + 1 else 0
  {
    if p.None? then None
    else if IsValidType(db, env, p.value) then p
    else FirstValidAncestor(db, env, ParentOf(db, p.value))
  }

  /** The name written for base type `a`: its full rename when it has one,
      otherwise its full name, through CorrectTypeName. */
  function BaseTypeName(db: Tdb, env: Env, a: TypeId): string {
    env.correctTypeName(if a in env.typeFullRenames then env.typeFullRenames[a] else NameOrEmpty(db, a))
  }

  /** The base type of `t`: the first valid ancestor, unless its name is
      empty or has a '[', in which case the walk stops without a base. */
  function BaseOf(db: Tdb, env: Env, t: TypeId): Option<TypeId>
    requires WellFormed(db)
  {
    match FirstValidAncestor(db, env, ParentOf(db, t))
    case None => None
    case Some(a) =>
      var n := BaseTypeName(db, env, a);
      if n == "" || '[' in n then None else Some(a)
  }

  /** The types the generated interface depends on: its base type, if any. */
  function UsingTypesOf(db: Tdb, env: Env, t: TypeId): seq<TypeId>
    requires WellFormed(db)
  {
    match BaseOf(db, env, t)
    case None => []
    case Some(a) => [a]
  }

  /** The base list of the interface, qualified with the global namespace. */
  function BaseTypeList(db: Tdb, env: Env, t: TypeId): seq<string>
    requires WellFormed(db)
  {
    match BaseOf(db, env, t)
    case None => []
    case Some(a) => ["global::" + BaseTypeName(db, env, a)]
  }

  /** No element of the chain `c` is a valid type. */
  predicate NoneValid(db: Tdb, env: Env, c: seq<TypeId>) {
    forall i :: 0 <= i < |c| ==> !IsValidType(db, env, c[i])
  }

  /** Position `i` holds the first valid type of the chain `c`. */
  predicate FirstValidAt(db: Tdb, env: Env, c: seq<TypeId>, i: int) {
    0 <= i < |c| && IsValidType(db, env, c[i]) && forall j :: 0 <= j < i ==> !IsValidType(db, env, c[j])
  }

  /** The walk finds nothing exactly when the chain has no valid element. */
  lemma {:induction false} FirstValidNone(db: Tdb, env: Env, p: Option<TypeId>)
    requires WellFormed(db)
    ensures FirstValidAncestor(db, env, p).None? <==> NoneValid(db, env, Ancestors(db, p))
    decreases if p.Some? then p.value + 1 else 0
  {
    if p.Some? {
      var c := Ancestors(db, p);
      var q := ParentOf(db, p.value);
      var rest := Ancestors(db, q);
      assert c == [p.value] + rest;
      assert c[0] == p.value;
      if !IsValidType(db, env, p.value) {
        FirstValidNone(db, env, q);
        if NoneValid(db, env, rest) {
          forall i | 0 <= i < |c| ensures !IsValidType(db, env, c[i]) {
            if i > 0 { assert c[i] == rest[i - 1]; }
          }
        }
        if NoneValid(db, env, c) {
          forall i | 0 <= i < |rest| ensures !IsValidType(db, env, rest[i]) {
            assert c[i + 1] == rest[i];
          }
        }
      }
    }
  }

  /** What the walk finds is the first valid element of the chain. */
  lemma {:induction false} FirstValidSome(db: Tdb, env: Env, p: Option<TypeId>)
    requires WellFormed(db) && FirstValidAncestor(db, env, p).Some?
    ensures exists i :: FirstValidAt(db, env, Ancestors(db, p), i)
                        && Ancestors(db, p)[i] == FirstValidAncestor(db, env, p).value
    decreases if p.Some? then p.value + 1 else 0
  {
    var c := Ancestors(db, p);
    var q := ParentOf(db, p.value);
    var rest := Ancestors(db, q);
    assert c == [p.value] + rest;
    if IsValidType(db, env, p.value) {
      assert FirstValidAt(db, env, c, 0) && c[0] == p.value;
    } else {
      FirstValidSome(db, env, q);
      var i :| FirstValidAt(db, env, rest, i) && rest[i] == FirstValidAncestor(db, env, q).value;
      assert c[i + 1] == rest[i];
      forall j | 0 <= j < i + 1 ensures !IsValidType(db, env, c[j]) {
        if j > 0 { assert c[j] == rest[j - 1]; }
      }
      assert FirstValidAt(db, env, c, i + 1);
    }
  }

  /** The walk finds the first valid element of the parent chain, and
      nothing exactly when the chain has no valid element. */
  lemma FirstValidAncestorIsFirstValid(db: Tdb, env: Env, p: Option<TypeId>)
    requires WellFormed(db)
    ensures var r := FirstValidAncestor(db, env, p);
            var c := Ancestors(db, p);
            && (r.None? <==> forall i :: 0 <= i < |c| ==> !IsValidType(db, env, c[i]))
            && (r.Some? ==> exists i :: 0 <= i < |c| && c[i] == r.value && IsValidType(db, env, c[i])
                                      && forall j :: 0 <= j < i ==> !IsValidType(db, env, c[j]))
  {
    FirstValidNone(db, env, p);
    if FirstValidAncestor(db, env, p).Some? {
      FirstValidSome(db, env, p);
    }
  }

  /** Every element of the chain from `p` is at most `p`. */
  lemma {:induction false} AncestorsBelow(db: Tdb, p: Option<TypeId>)
    requires WellFormed(db)
    ensures forall a :: a in Ancestors(db, p) ==> p.Some? && a <= p.value
    decreases if p.Some? then p.value + 1 else 0
  {
    if p.Some? {
      AncestorsBelow(db, ParentOf(db, p.value));
    }
  }

  /** The base type is a valid proper ancestor (never the type itself or
      one of its descendants), every type strictly between is invalid, and
      its written name is non-empty and has no '['. */
  lemma BaseIsFirstValidProperAncestor(db: Tdb, env: Env, t: TypeId)
    requires WellFormed(db)
    ensures var b := BaseOf(db, env, t);
            var c := Ancestors(db, ParentOf(db, t));
            && (b.Some? ==>
                  && b.value < t
                  && BaseTypeName(db, env, b.value) != ""
                  && '[' !in BaseTypeName(db, env, b.value)
                  && exists i :: 0 <= i < |c| && c[i] == b.value && IsValidType(db, env, c[i])
                                 && forall j :: 0 <= j < i ==> !IsValidType(db, env, c[j]))
            && ((forall i :: 0 <= i < |c| ==> !IsValidType(db, env, c[i])) ==> b.None?)
    ensures |BaseTypeList(db, env, t)| <= 1
  {
    FirstValidAncestorIsFirstValid(db, env, ParentOf(db, t));
    AncestorsBelow(db, ParentOf(db, t));
    var b := BaseOf(db, env, t);
    if b.Some? {
      var c := Ancestors(db, ParentOf(db, t));
      var i :| 0 <= i < |c| && c[i] == b.value && IsValidType(db, env, c[i])
               && forall j :: 0 <= j < i ==> !IsValidType(db, env, c[j]);
      assert c[i] in c;
    }
  }

  /** The base-type loop of Generate: follow the parent links, skip invalid
      types, and stop at the first valid one, taking it as the base unless
      its name is empty or has a '['. */
  method FindBaseType(db: Tdb, env: Env, t: TypeId) returns (baseTypes: seq<string>, usingTypes: seq<TypeId>)
    requires WellFormed(db)
    ensures baseTypes == BaseTypeList(db, env, t)
    ensures usingTypes == UsingTypesOf(db, env, t)
  {
    baseTypes := [];
    usingTypes := [];
    var parent := ParentOf(db, t);
    while parent.Some?
      invariant FirstValidAncestor(db, env, parent) == FirstValidAncestor(db, env, ParentOf(db, t))
      invariant baseTypes == [] && usingTypes == []
      decreases if parent.Some? then parent.value + 1 else 0
    {
      var p := parent.value;
      if !IsValidType(db, env, p) {
        parent := ParentOf(db, p);
        continue;
      }
      var parentName := BaseTypeName(db, env, p);
      if parentName == "" {
        break;
      }
      if '[' in parentName {
        break;
      }
      baseTypes := ["global::" + parentName];
      usingTypes := [p];
      break;
    }
  }

  // ---------------------------------------------------------------------
  // The declaration of one type

  /** Value types other than enums become structs. */
  predicate IsStructType(td: TypeDef) {
    td.isValueType && !td.isEnum
  }

  /** The declared name: the last dotted segment for a top-level type,
      then CorrectTypeName. */
  function ActualName(db: Tdb, env: Env, t: TypeId, className: string): string {
    env.correctTypeName(if TypeDefAt(db, t).declaringType.None? then LastSegment(className) else className)
  }

  /** Every key of the enumeration order is a property. */
  predicate OrderedKeys(inf: Inference) {
    forall k :: k in inf.order ==> k in inf.props
  }

  lemma CollectedKeysOrdered(db: Tdb, t: TypeId)
    requires Collect(db, t).Ok?
    ensures OrderedKeys(Collect(db, t).value) && Distinct(Collect(db, t).value.order)
  {
    var s := InferMethods(db, OwnMethods(TypeDefAt(db, t).methods, t));
    InferredOrder(db, OwnMethods(TypeDefAt(db, t).methods, t));
    FieldWalkKeepsOrder(db, s, OwnFields(TypeDefAt(db, t).fields, t));
  }

  /** The members Generate adds between the header and the REFType field:
      methods, field facades and properties, with their cached handles kept
      apart. */
  function RefMembers(db: Tdb, env: Env, t: TypeId, hasBase: bool, inf: Inference): Result<Emission>
    requires OrderedKeys(inf)
  {
    match RefMethodsOf(db, env, hasBase, ValidMethodsOf(db, inf.methods))
    case Throws(e) => Throws(e)
    case Ok(ms) =>
      ValidFieldsBounded(db, env, inf.fields);
      match RefFieldsOf(db, env, TypeDefAt(db, t), Take(ValidFieldsOf(db, env, inf.fields), FieldCap))
      case Throws(e) => Throws(e)
      case Ok(fs) =>
        var ps := PropertiesOf(db, env, hasBase, inf.props, inf.order);
        Ok(Emission(ms.decls + fs.decls + ps.decls, ms.internals + fs.internals + ps.internals))
  }

  /** An exception from the methods group is the outcome of RefMembers. */
  lemma RefMembersMethodsThrow(db: Tdb, env: Env, t: TypeId, hasBase: bool, inf: Inference)
    requires OrderedKeys(inf)
    requires RefMethodsOf(db, env, hasBase, ValidMethodsOf(db, inf.methods)).Throws?
    ensures RefMembers(db, env, t, hasBase, inf) == Throws(RefMethodsOf(db, env, hasBase, ValidMethodsOf(db, inf.methods)).error)
  {
  }

  /** An exception from the fields group, after the methods, is the
      outcome of RefMembers. */
  lemma RefMembersFieldsThrow(db: Tdb, env: Env, t: TypeId, hasBase: bool, inf: Inference)
    requires OrderedKeys(inf)
    requires RefMethodsOf(db, env, hasBase, ValidMethodsOf(db, inf.methods)).Ok?
    requires (ValidFieldsBounded(db, env, inf.fields);
              RefFieldsOf(db, env, TypeDefAt(db, t), Take(ValidFieldsOf(db, env, inf.fields), FieldCap)).Throws?)
    ensures RefMembers(db, env, t, hasBase, inf)
            == Throws(RefFieldsOf(db, env, TypeDefAt(db, t), Take(ValidFieldsOf(db, env, inf.fields), FieldCap)).error)
  {
  }

  /** RefMembers from the outcomes of its three groups. */
  lemma RefMembersOk(db: Tdb, env: Env, t: TypeId, hasBase: bool, inf: Inference, ms: MethodsOut, fs: Emission)
    requires OrderedKeys(inf)
    requires RefMethodsOf(db, env, hasBase, ValidMethodsOf(db, inf.methods)) == Ok(ms)
    requires (ValidFieldsBounded(db, env, inf.fields);
              RefFieldsOf(db, env, TypeDefAt(db, t), Take(ValidFieldsOf(db, env, inf.fields), FieldCap)) == Ok(fs))
    ensures var ps := PropertiesOf(db, env, hasBase, inf.props, inf.order);
            RefMembers(db, env, t, hasBase, inf) == Ok(Emission(ms.decls + fs.decls + ps.decls, ms.internals + fs.internals + ps.internals))
  {
  }

  /** Generate without its nested types: the public interface (`new` when a
      parent declares a nested type of the same name), its methods, field
      facades and properties, the REFType field (`new` when there is a base
      type), the base list, then every cached handle. */
  function RefTypeShell(db: Tdb, env: Env, t: TypeId, actualName: string, inf: Inference): Result<TypeDecl>
    requires WellFormed(db) && OrderedKeys(inf)
  {
    var baseTypes := BaseTypeList(db, env, t);
    var hasBase := |baseTypes| > 0;
    match RefMembers(db, env, t, hasBase, inf)
    case Throws(e) => Throws(e)
    case Ok(em) =>
      Ok(TypeDecl(Interface, actualName,
                  [Public] + (if t in env.nestedTypeExistsInParent then [New] else []), [], baseTypes,
                  em.decls + [TypeHandleField(NameOrEmpty(db, t), hasBase)] + em.internals))
  }

  /** The members GenerateValueType adds before the REFType field: fields,
      methods and properties, with the cached handles kept apart. */
  function ValueMembers(db: Tdb, env: Env, t: TypeId, actualName: string, inf: Inference): Result<Emission>
    requires OrderedKeys(inf)
  {
    ValidFieldsBounded(db, env, inf.fields);
    match ValueFieldsOf(db, env, Take(ValidFieldsOf(db, env, inf.fields), FieldCap))
    case Throws(e) => Throws(e)
    case Ok(fds) =>
      match ValueMethodsOf(db, env, TypeDefAt(db, t), actualName, ValidMethodsOf(db, inf.methods))
      case Throws(e) => Throws(e)
      case Ok(vms) =>
        var ps := PropertiesOf(db, env, false, inf.props, inf.order);
        Ok(Emission(fds + vms.decls + ps.decls, vms.internals + ps.internals))
  }

  /** An exception from the fields group is the outcome of ValueMembers. */
  lemma ValueMembersFieldsThrow(db: Tdb, env: Env, t: TypeId, actualName: string, inf: Inference)
    requires OrderedKeys(inf)
    requires (ValidFieldsBounded(db, env, inf.fields);
              ValueFieldsOf(db, env, Take(ValidFieldsOf(db, env, inf.fields), FieldCap)).Throws?)
    ensures ValueMembers(db, env, t, actualName, inf)
            == Throws(ValueFieldsOf(db, env, Take(ValidFieldsOf(db, env, inf.fields), FieldCap)).error)
  {
  }

  /** An exception from the methods group, after the fields, is the
      outcome of ValueMembers. */
  lemma ValueMembersMethodsThrow(db: Tdb, env: Env, t: TypeId, actualName: string, inf: Inference)
    requires OrderedKeys(inf)
    requires (ValidFieldsBounded(db, env, inf.fields);
              ValueFieldsOf(db, env, Take(ValidFieldsOf(db, env, inf.fields), FieldCap)).Ok?)
    requires ValueMethodsOf(db, env, TypeDefAt(db, t), actualName, ValidMethodsOf(db, inf.methods)).Throws?
    ensures ValueMembers(db, env, t, actualName, inf)
            == Throws(ValueMethodsOf(db, env, TypeDefAt(db, t), actualName, ValidMethodsOf(db, inf.methods)).error)
  {
  }

  /** ValueMembers from the outcomes of its field and method groups. */
  lemma ValueMembersOk(db: Tdb, env: Env, t: TypeId, actualName: string, inf: Inference, fds: seq<MemberDecl>, vms: Emission)
    requires OrderedKeys(inf)
    requires (ValidFieldsBounded(db, env, inf.fields);
              ValueFieldsOf(db, env, Take(ValidFieldsOf(db, env, inf.fields), FieldCap)) == Ok(fds))
    requires ValueMethodsOf(db, env, TypeDefAt(db, t), actualName, ValidMethodsOf(db, inf.methods)) == Ok(vms)
    ensures var ps := PropertiesOf(db, env, false, inf.props, inf.order);
            ValueMembers(db, env, t, actualName, inf) == Ok(Emission(fds + vms.decls + ps.decls, vms.internals + ps.internals))
  {
  }

  /** GenerateValueType without its nested types: a public struct with
      explicit layout, its fields, methods and properties, the REFType
      field, then every cached handle. */
  function ValueTypeShell(db: Tdb, env: Env, t: TypeId, actualName: string, inf: Inference): Result<TypeDecl>
    requires OrderedKeys(inf)
  {
    match ValueMembers(db, env, t, actualName, inf)
    case Throws(e) => Throws(e)
    case Ok(em) =>
      Ok(TypeDecl(Struct, actualName, [Public], [StructLayoutExplicit], [],
                  em.decls + [TypeHandleField(NameOrEmpty(db, t), false)] + em.internals))
  }

  /** The struct from the outcome of its member groups. */
  lemma ValueTypeShellOk(db: Tdb, env: Env, t: TypeId, actualName: string, inf: Inference, em: Emission)
    requires OrderedKeys(inf)
    requires ValueMembers(db, env, t, actualName, inf) == Ok(em)
    ensures ValueTypeShell(db, env, t, actualName, inf)
            == Ok(TypeDecl(Struct, actualName, [Public], [StructLayoutExplicit], [],
                           em.decls + [TypeHandleField(NameOrEmpty(db, t), false)] + em.internals))
  {
  }

  /** The interface from the outcome of its member groups. */
  lemma RefTypeShellOk(db: Tdb, env: Env, t: TypeId, actualName: string, inf: Inference, em: Emission)
    requires WellFormed(db) && OrderedKeys(inf)
    requires RefMembers(db, env, t, |BaseTypeList(db, env, t)| > 0, inf) == Ok(em)
    ensures RefTypeShell(db, env, t, actualName, inf)
            == Ok(TypeDecl(Interface, actualName,
                           [Public] + (if t in env.nestedTypeExistsInParent then [New] else []), [],
                           BaseTypeList(db, env, t),
                           em.decls + [TypeHandleField(NameOrEmpty(db, t), |BaseTypeList(db, env, t)| > 0)] + em.internals))
  {
  }

  // ---------------------------------------------------------------------
  // Nested types

  /** The nested types of `t` (none when the dump has no extension for it). */
  function NestedIds(db: Tdb, t: TypeId): seq<TypeId> {
    match TypeDefAt(db, t).nestedTypes
    case None => []
    case Some(ids) => ids
  }

  /** The array types registered for `n`. */
  function ArraysOf(env: Env, n: TypeId): seq<TypeId> {
    if n in env.arrayTypes then env.arrayTypes[n] else []
  }

  /** A nested type is generated only under a non-empty name free of
      '[', ']' and '<'. */
  predicate NestedNameAccepted(n: string) {
    n != "" && '[' !in n && ']' !in n && '<' !in n
  }

  /** The name a nested type is declared under: the last segment of its
      full name, with the contextual keyword `file` escaped as `@file`. */
  function NestedDeclName(n: string): (r: string)
    ensures '.' !in r && r != "file"
    ensures r == LastSegment(n) || r == "@" + LastSegment(n)
    ensures LastSegment(n) != "file" ==> r == LastSegment(n)
  {
    if LastSegment(n) == "file" then "@file" else LastSegment(n)
  }

  /** The whole declaration ClassGenerator produces for type `t` under the
      name `name`, with nested types to depth `fuel`. */
  function GenerateTypeSpec(db: Tdb, env: Env, name: string, t: TypeId, fuel: nat): Result<TypeDecl>
    requires WellFormed(db)
    decreases fuel, 1, 0
  {
    match Collect(db, t)
    case Throws(e) => Throws(e)
    case Ok(inf) =>
      CollectedKeysOrdered(db, t);
      var actualName := ActualName(db, env, t, env.fixBadChars(name));
      var shell := if IsStructType(TypeDefAt(db, t)) then ValueTypeShell(db, env, t, actualName, inf)
                   else RefTypeShell(db, env, t, actualName, inf);
      WithNested(db, env, t, shell, fuel)
  }

  /** GenerateNestedTypes applied to a finished declaration. */
  function WithNested(db: Tdb, env: Env, t: TypeId, shell: Result<TypeDecl>, fuel: nat): Result<TypeDecl>
    requires WellFormed(db)
    decreases fuel, 0, 0
  {
    match shell
    case Throws(e) => Throws(e)
    case Ok(d) =>
      if fuel == 0 then Ok(d)
      else
        match NestedMembers(db, env, NestedIds(db, t), fuel - 1)
        case Throws(e) => Throws(e)
        case Ok(nested) => Ok(Extend(d, nested))
  }

  /** The members the nested types `ids` add, in order. */
  function NestedMembers(db: Tdb, env: Env, ids: seq<TypeId>, fuel: nat): Result<seq<MemberDecl>>
    requires WellFormed(db)
    decreases fuel, 6, |ids|
  {
    if ids == [] then Ok([])
    else
      match NestedMembers(db, env, ids[..|ids| - 1], fuel)
      case Throws(e) => Throws(e)
      case Ok(acc) =>
        match NestedOne(db, env, ids[|ids| - 1], fuel)
        case Throws(e) => Throws(e)
        case Ok(x) => Ok(acc + x)
  }

  /** The members one nested type adds: nothing under a rejected name, and
      otherwise those of an enum or of any other type. */
  function NestedOne(db: Tdb, env: Env, n: TypeId, fuel: nat): Result<seq<MemberDecl>>
    requires WellFormed(db)
    decreases fuel, 5, 0
  {
    if !NestedNameAccepted(NameOrEmpty(db, n)) then Ok([])
    else if TypeDefAt(db, n).isEnum then NestedEnumMembers(db, env, n, fuel)
    else NestedClassMembers(db, env, n, fuel)
  }

  /** A nested enum: its array types, then the enum declaration the enum
      generator makes (when it makes one). */
  function NestedEnumMembers(db: Tdb, env: Env, n: TypeId, fuel: nat): Result<seq<MemberDecl>>
    requires WellFormed(db)
    decreases fuel, 4, 0
  {
    match ArrayMembers(db, env, ArraysOf(env, n), fuel)
    case Throws(e) => Throws(e)
    case Ok(arrays) =>
      Ok(arrays + (if n in env.enumsWithoutDeclaration then [] else [NestedEnum(NestedDeclName(NameOrEmpty(db, n)), n)]))
  }

  /** Any other nested type: its own generator runs first, then its array
      types are added, then its declaration. */
  function NestedClassMembers(db: Tdb, env: Env, n: TypeId, fuel: nat): Result<seq<MemberDecl>>
    requires WellFormed(db)
    decreases fuel, 4, 0
  {
    match GenerateTypeSpec(db, env, NestedDeclName(NameOrEmpty(db, n)), n, fuel)
    case Throws(e) => Throws(e)
    case Ok(d) =>
      match ArrayMembers(db, env, ArraysOf(env, n), fuel)
      case Throws(e) => Throws(e)
      case Ok(arrays) => Ok(arrays + [NestedType(d)])
  }

  /** The declarations of array types, each generated under its rename. */
  function ArrayMembers(db: Tdb, env: Env, arrays: seq<TypeId>, fuel: nat): Result<seq<MemberDecl>>
    requires WellFormed(db)
    decreases fuel, 3, |arrays|
  {
    if arrays == [] then Ok([])
    else
      match ArrayMembers(db, env, arrays[..|arrays| - 1], fuel)
      case Throws(e) => Throws(e)
      case Ok(acc) =>
        match ArrayOne(db, env, arrays[|arrays| - 1], fuel)
        case Throws(e) => Throws(e)
        case Ok(x) => Ok(acc + [x])
  }

  /** One array type: its rename must exist (a dictionary lookup), then a
      generator runs for it. */
  function ArrayOne(db: Tdb, env: Env, a: TypeId, fuel: nat): Result<MemberDecl>
    requires WellFormed(db)
    decreases fuel, 2, 0
  {
    if a !in env.typeRenames then Throws(KeyNotFound)
    else
      match GenerateTypeSpec(db, env, env.typeRenames[a], a, fuel)
      case Throws(e) => Throws(e)
      case Ok(d) => Ok(NestedType(d))
  }

  // ---------------------------------------------------------------------
  // Step lemmas for the loops that compute the folds

  lemma NestedMembersSnoc(db: Tdb, env: Env, ids: seq<TypeId>, i: nat, fuel: nat, acc: seq<MemberDecl>)
    requires WellFormed(db)
    requires i < |ids| && NestedMembers(db, env, ids[..i], fuel) == Ok(acc)
    requires NestedOne(db, env, ids[i], fuel).Ok?
    ensures NestedMembers(db, env, ids[..i + 1], fuel) == Ok(acc + NestedOne(db, env, ids[i], fuel).value)
  {
    assert ids[..i + 1][..i] == ids[..i];
  }

  /** An exception from the nested type at position `i` ends the walk with it. */
  lemma {:induction false} NestedMembersThrowsAt(db: Tdb, env: Env, ids: seq<TypeId>, i: nat, fuel: nat)
    requires WellFormed(db)
    requires i < |ids| && NestedMembers(db, env, ids[..i], fuel).Ok?
    requires NestedOne(db, env, ids[i], fuel).Throws?
    ensures NestedMembers(db, env, ids, fuel) == Throws(NestedOne(db, env, ids[i], fuel).error)
    decreases |ids|
  {
    if i == |ids| - 1 {
      assert ids[..|ids| - 1] == ids[..i];
    } else {
      assert ids[..|ids| - 1][..i] == ids[..i];
      NestedMembersThrowsAt(db, env, ids[..|ids| - 1], i, fuel);
    }
  }

  lemma ArrayMembersSnoc(db: Tdb, env: Env, arrays: seq<TypeId>, i: nat, fuel: nat, acc: seq<MemberDecl>)
    requires WellFormed(db)
    requires i < |arrays| && ArrayMembers(db, env, arrays[..i], fuel) == Ok(acc)
    requires ArrayOne(db, env, arrays[i], fuel).Ok?
    ensures ArrayMembers(db, env, arrays[..i + 1], fuel) == Ok(acc + [ArrayOne(db, env, arrays[i], fuel).value])
  {
    assert arrays[..i + 1][..i] == arrays[..i];
  }

  /** An exception from the array type at position `i` ends the walk with it. */
  lemma {:induction false} ArrayMembersThrowsAt(db: Tdb, env: Env, arrays: seq<TypeId>, i: nat, fuel: nat)
    requires WellFormed(db)
    requires i < |arrays| && ArrayMembers(db, env, arrays[..i], fuel).Ok?
    requires ArrayOne(db, env, arrays[i], fuel).Throws?
    ensures ArrayMembers(db, env, arrays, fuel) == Throws(ArrayOne(db, env, arrays[i], fuel).error)
    decreases |arrays|
  {
    if i == |arrays| - 1 {
      assert arrays[..|arrays| - 1] == arrays[..i];
    } else {
      assert arrays[..|arrays| - 1][..i] == arrays[..i];
      ArrayMembersThrowsAt(db, env, arrays[..|arrays| - 1], i, fuel);
    }
  }

  // ---------------------------------------------------------------------
  // Properties of the generated declaration

  /** GenerateNestedTypes only appends members: the header of the
      declaration is kept and its earlier members stay in front. */
  lemma WithNestedExtends(db: Tdb, env: Env, t: TypeId, shell: Result<TypeDecl>, fuel: nat)
    requires WellFormed(db)
    requires WithNested(db, env, t, shell, fuel).Ok?
    ensures shell.Ok?
    ensures var d := WithNested(db, env, t, shell, fuel).value;
            && d == shell.value.(members := d.members)
            && shell.value.members <= d.members
  {
  }

  /** The interface before its nested types: the header of Generate and
      the REFType field, `new` exactly when there is a base type. */
  lemma RefTypeShellShape(db: Tdb, env: Env, t: TypeId, actualName: string, inf: Inference)
    requires WellFormed(db) && OrderedKeys(inf)
    requires RefTypeShell(db, env, t, actualName, inf).Ok?
    ensures var d := RefTypeShell(db, env, t, actualName, inf).value;
            && d.kind == Interface
            && d.name == actualName
            && d.modifiers == [Public] + (if t in env.nestedTypeExistsInParent then [New] else [])
            && d.attrs == []
            && d.baseTypes == BaseTypeList(db, env, t)
            && TypeHandleField(NameOrEmpty(db, t), d.baseTypes != []) in d.members
  {
    var em := RefMembers(db, env, t, |BaseTypeList(db, env, t)| > 0, inf).value;
    var d := RefTypeShell(db, env, t, actualName, inf).value;
    assert d.members[|em.decls|] == TypeHandleField(NameOrEmpty(db, t), d.baseTypes != []);
  }

  /** A reference type becomes a public interface under its corrected
      name, `new` exactly when a parent declares a nested type of that
      name, with the base list of the walk, and a REFType field that is
      `new` exactly when there is a base type (which declares its own). */
  lemma InterfaceShape(db: Tdb, env: Env, name: string, t: TypeId, fuel: nat)
    requires WellFormed(db)
    requires !IsStructType(TypeDefAt(db, t))
    requires GenerateTypeSpec(db, env, name, t, fuel).Ok?
    ensures var d := GenerateTypeSpec(db, env, name, t, fuel).value;
            && d.kind == Interface
            && d.name == ActualName(db, env, t, env.fixBadChars(name))
            && d.modifiers == [Public] + (if t in env.nestedTypeExistsInParent then [New] else [])
            && d.attrs == []
            && d.baseTypes == BaseTypeList(db, env, t)
            && TypeHandleField(NameOrEmpty(db, t), d.baseTypes != []) in d.members
  {
    var inf := Collect(db, t).value;
    CollectedKeysOrdered(db, t);
    var actualName := ActualName(db, env, t, env.fixBadChars(name));
    var shell := RefTypeShell(db, env, t, actualName, inf);
    assert GenerateTypeSpec(db, env, name, t, fuel) == WithNested(db, env, t, shell, fuel);
    WithNestedExtends(db, env, t, shell, fuel);
    RefTypeShellShape(db, env, t, actualName, inf);
  }

  /** The struct before its nested types. */
  lemma ValueTypeShellShape(db: Tdb, env: Env, t: TypeId, actualName: string, inf: Inference)
    requires OrderedKeys(inf)
    requires ValueTypeShell(db, env, t, actualName, inf).Ok?
    ensures var d := ValueTypeShell(db, env, t, actualName, inf).value;
            && d.kind == Struct
            && d.name == actualName
            && d.modifiers == [Public]
            && d.attrs == [StructLayoutExplicit]
            && d.baseTypes == []
            && TypeHandleField(NameOrEmpty(db, t), false) in d.members
  {
    var em := ValueMembers(db, env, t, actualName, inf).value;
    var d := ValueTypeShell(db, env, t, actualName, inf).value;
    assert d.members[|em.decls|] == TypeHandleField(NameOrEmpty(db, t), false);
  }

  /** A value type other than an enum becomes a public struct with
      explicit layout, no base list and a REFType field that is never
      `new`. */
  lemma StructShape(db: Tdb, env: Env, name: string, t: TypeId, fuel: nat)
    requires WellFormed(db)
    requires IsStructType(TypeDefAt(db, t))
    requires GenerateTypeSpec(db, env, name, t, fuel).Ok?
    ensures var d := GenerateTypeSpec(db, env, name, t, fuel).value;
            && d.kind == Struct
            && d.name == ActualName(db, env, t, env.fixBadChars(name))
            && d.modifiers == [Public]
            && d.attrs == [StructLayoutExplicit]
            && d.baseTypes == []
            && TypeHandleField(NameOrEmpty(db, t), false) in d.members
  {
    var inf := Collect(db, t).value;
    CollectedKeysOrdered(db, t);
    var actualName := ActualName(db, env, t, env.fixBadChars(name));
    var shell := ValueTypeShell(db, env, t, actualName, inf);
    assert GenerateTypeSpec(db, env, name, t, fuel) == WithNested(db, env, t, shell, fuel);
    WithNestedExtends(db, env, t, shell, fuel);
    ValueTypeShellShape(db, env, t, actualName, inf);
  }

  /** An own field named like a backing field but without ">k__" aborts
      the generation of the whole type with ArgumentOutOfRange. */
  lemma BadBackingFieldAborts(db: Tdb, env: Env, name: string, t: TypeId, fuel: nat, i: nat)
    requires WellFormed(db)
    requires i < |OwnFields(TypeDefAt(db, t).fields, t)|
    requires BadField(db, OwnFields(TypeDefAt(db, t).fields, t)[i])
    ensures GenerateTypeSpec(db, env, name, t, fuel).Throws?
  {
    var fs := OwnFields(TypeDefAt(db, t).fields, t);
    FieldWalkThrows(db, InferMethods(db, OwnMethods(TypeDefAt(db, t).methods, t)), fs);
  }

  /** A struct fails as a whole when the struct builder skips one of its
      valid methods: unless an exception comes first, AddMembers meets the
      null entry the skipped method left. */
  lemma SkippedStructMethodAborts(db: Tdb, env: Env, name: string, t: TypeId, fuel: nat, i: nat)
    requires WellFormed(db) && Collect(db, t).Ok? && IsStructType(TypeDefAt(db, t))
    requires i < |ValidMethodsOf(db, Collect(db, t).value.methods)|
    requires BuildValueMethod(db, env, TypeDefAt(db, t), ActualName(db, env, t, env.fixBadChars(name)),
                              ValidMethodsOf(db, Collect(db, t).value.methods)[i]) == Ok(VSkip)
    ensures GenerateTypeSpec(db, env, name, t, fuel).Throws?
  {
    var inf := Collect(db, t).value;
    CollectedKeysOrdered(db, t);
    var actualName := ActualName(db, env, t, env.fixBadChars(name));
    ValueMethodsOfOk(db, env, TypeDefAt(db, t), actualName, ValidMethodsOf(db, inf.methods));
    assert ValueTypeShell(db, env, t, actualName, inf).Throws?;
  }

  /** An array type without a rename aborts with KeyNotFound, unless an
      earlier array type already failed. */
  lemma MissingArrayRenameAborts(db: Tdb, env: Env, arrays: seq<TypeId>, i: nat, fuel: nat)
    requires WellFormed(db)
    requires i < |arrays| && arrays[i] !in env.typeRenames
    requires ArrayMembers(db, env, arrays[..i], fuel).Ok?
    ensures ArrayMembers(db, env, arrays, fuel) == Throws(KeyNotFound)
  {
    ArrayMembersThrowsAt(db, env, arrays, i, fuel);
  }

  /** A property's accessors are bound to the last getter and the last
      setter method supplying its name among the type's own methods: the
      declaration at position `i` of the property list has a get accessor
      exactly when a getter exists, bound to that getter's index, and a set
      accessor bound to the last setter's index. */
  lemma PropertyAccessorsBindLastAccessors(db: Tdb, env: Env, hasBase: bool, t: TypeId, i: nat)
    requires Collect(db, t).Ok?
    requires i < |Collect(db, t).value.order|
    ensures var inf := Collect(db, t).value;
            var k := inf.order[i];
            var ms := OwnMethods(TypeDefAt(db, t).methods, t);
            var g := LastPlaying(db, ms, k, GetterRoles);
            var s := LastPlaying(db, ms, k, SetterRoles);
            && OrderedKeys(inf)
            && |PropertiesOf(db, env, hasBase, inf.props, inf.order).decls| == |inf.order|
            && var d := PropertiesOf(db, env, hasBase, inf.props, inf.order).decls[i];
            && (d.PropertyDecl? || d.IndexerDecl?)
            && |d.accessors| == (if g >= 0 then 1 else 0) + (if s >= 0 then 1 else 0)
            && (g >= 0 ==> d.accessors[0] == Accessor(Get, MethodAttr(ms[g].index, FacadeNone), d.accessors[0].body))
            && (s >= 0 ==> d.accessors[|d.accessors| - 1] ==
                             Accessor(Set, MethodAttr(ms[s].index, FacadeNone), d.accessors[|d.accessors| - 1].body))
  {
    var inf := Collect(db, t).value;
    var ms := OwnMethods(TypeDefAt(db, t).methods, t);
    var fs := OwnFields(TypeDefAt(db, t).fields, t);
    var s0 := InferMethods(db, ms);
    var k := inf.order[i];
    CollectedKeysOrdered(db, t);
    PropertyPerKey(db, env, hasBase, inf.props, inf.order);
    FieldWalkEffect(db, s0, fs);
    assert k in inf.props;
    assert inf.props[k] == s0.props[k];
    InferredGetter(db, ms, k);
    InferredSetter(db, ms, k);
    var d := PropertiesOf(db, env, hasBase, inf.props, inf.order).decls[i];
    assert DeclaresProperty(db, env, hasBase, d, k, inf.props[k]);
  }
}

=== FILE: value_types.dfy ===
/** Members of a value type (struct proxy): fields at explicit offsets, and
    methods whose bodies pack the arguments into a buffer of 64-bit slots,
    pin `this`, call the raw invoker and unpack the raw result. */
module ValueTypes {
  import opened Metadata
  import opened Strings
  import opened Declarations
  import opened TypeNames
  import opened Filters
  import opened Signatures
  import opened PropertyInference
  import opened RefMethods

  // ---------------------------------------------------------------------
  // Fields

  /** One struct field: the cleaned name, the proper type, public, at the
      field's runtime offset. */
  function ValueFieldDecl(db: Tdb, env: Env, f: Field): Result<MemberDecl>
    requires f.name.Some?
  {
    match CleanFieldName(f.name.value)
    case Throws(e) => Throws(e)
    case Ok(n) => Ok(FieldDecl(n, MakeProperType(db, env, f.ty), [Public], [FieldOffset(f.offset)]))
  }

  /** The instance fields among `fs`, in order. */
  function InstanceFields(fs: seq<Field>): (r: seq<Field>)
    ensures forall f :: f in r <==> f in fs && !f.isStatic
  {
    if fs == [] then [] else (if fs[0].isStatic then [] else [fs[0]]) + InstanceFields(fs[1..])
  }

  /** GenerateValueTypeFields over the fields GetValidFields kept. */
  function ValueFieldsOf(db: Tdb, env: Env, valid: seq<Field>): Result<seq<MemberDecl>>
    requires forall f :: f in valid ==> f.name.Some?
    decreases |valid|
  {
    if valid == [] then Ok([])
    else if valid[0].isStatic then ValueFieldsOf(db, env, valid[1..])
    else
      match ValueFieldDecl(db, env, valid[0])
      case Throws(e) => Throws(e)
      case Ok(d) =>
        match ValueFieldsOf(db, env, valid[1..])
        case Throws(e) => Throws(e)
        case Ok(ds) => Ok([d] + ds)
  }

  /** `d` declares field `f`: public, under its cleaned name and proper
      type, at its offset. */
  predicate DeclaresFieldAtOffset(db: Tdb, env: Env, d: MemberDecl, f: Field)
    requires f.name.Some?
  {
    && CleanFieldName(f.name.value).Ok?
    && d == FieldDecl(CleanFieldName(f.name.value).value, MakeProperType(db, env, f.ty), [Public], [FieldOffset(f.offset)])
  }

  /** One step of field generation: a static first field adds nothing; an
      instance first field adds its declaration before the rest. */
  lemma ValueFieldsCons(db: Tdb, env: Env, valid: seq<Field>)
    requires valid != [] && forall f :: f in valid ==> f.name.Some?
    requires ValueFieldsOf(db, env, valid).Ok?
    ensures forall f :: f in valid[1..] ==> f.name.Some?
    ensures ValueFieldsOf(db, env, valid[1..]).Ok?
    ensures var ds := ValueFieldsOf(db, env, valid).value;
            var ds' := ValueFieldsOf(db, env, valid[1..]).value;
            if valid[0].isStatic
            then ds == ds' && InstanceFields(valid) == InstanceFields(valid[1..])
            else && |ds| > 0 && ds[1..] == ds' && DeclaresFieldAtOffset(db, env, ds[0], valid[0])
                 && InstanceFields(valid) == [valid[0]] + InstanceFields(valid[1..])
  {
    assert forall g :: g in valid[1..] ==> g in valid;
  }

  /** The struct declares one public field per instance field, in order, at
      that field's offset and under its cleaned name; static fields are not
      declared at all. */
  lemma {:induction false} ValueFieldsAreInstanceFieldsAtOffsets(db: Tdb, env: Env, valid: seq<Field>)
    requires forall f :: f in valid ==> f.name.Some?
    requires ValueFieldsOf(db, env, valid).Ok?
    ensures var ds := ValueFieldsOf(db, env, valid).value;
            var inst := InstanceFields(valid);
            && |ds| == |inst|
            && forall i :: 0 <= i < |ds| ==> DeclaresFieldAtOffset(db, env, ds[i], inst[i])
    decreases |valid|
  {
    if valid != [] {
      ValueFieldsCons(db, env, valid);
      ValueFieldsAreInstanceFieldsAtOffsets(db, env, valid[1..]);
      if !valid[0].isStatic {
        var ds := ValueFieldsOf(db, env, valid).value;
        var inst := InstanceFields(valid);
        forall i | 0 < i < |ds| ensures DeclaresFieldAtOffset(db, env, ds[i], inst[i]) {
          assert ds[i] == ds[1..][i - 1] && inst[i] == inst[1..][i - 1];
        }
      }
    }
  }

  /** Field generation fails exactly when an instance field carries a
      backing-field name without the ">k__" marker. */
  lemma {:induction false} ValueFieldsThrow(db: Tdb, env: Env, valid: seq<Field>)
    requires forall f :: f in valid ==> f.name.Some?
    ensures ValueFieldsOf(db, env, valid).Throws? <==>
              exists f :: f in valid && !f.isStatic && CleanFieldName(f.name.value).Throws?
    decreases |valid|
  {
    if valid != [] {
      ValueFieldsThrow(db, env, valid[1..]);
      assert forall f :: f in valid <==> f == valid[0] || f in valid[1..];
    }
  }

  // ---------------------------------------------------------------------
  // Argument packing

  /** The widening applied to a primitive argument before its bits are
      stored: floats travel as doubles, small signed integers as long,
      small unsigned ones as ulong. */
  function Widening(name: string): Option<Conversion> {
    if name == "System.Single" then Some(ToDouble)
    else if name == "System.SByte" || name == "System.Int16" || name == "System.Int32" then Some(ToLong)
    else if name == "System.Byte" || name == "System.UInt16" || name == "System.UInt32" then Some(ToULong)
    else None
  }

  predicate PassedAsBits(db: Tdb, ty: TypeId) {
    TypeDefAt(db, ty).isValueType && TypeDefAt(db, ty).isPrimitive
  }

  predicate PassedByAddress(db: Tdb, ty: TypeId) {
    TypeDefAt(db, ty).isValueType && !TypeDefAt(db, ty).isPrimitive
  }

  predicate PassedAsObject(db: Tdb, ty: TypeId) {
    !TypeDefAt(db, ty).isValueType
  }

  predicate IsStore(s: Stmt) {
    s.StoreBits? || s.StoreAddress? || s.StoreObjectPtr?
  }

  /** The statements that pack argument `arg` of type `ty` into slot `i`. */
  function ArgStmts(db: Tdb, i: nat, ty: TypeId, arg: string): (r: seq<Stmt>)
    ensures 1 <= |r| <= 2
    ensures IsStore(r[|r| - 1]) && r[|r| - 1].slot == i
    ensures forall j :: 0 <= j < |r| - 1 ==> !IsStore(r[j])
    ensures |r| == 2 <==> r[0].Convert? && r[0].arg == arg && r[1].arg == arg + "__conv"
    ensures |r| == 1 ==> r[0].arg == arg
    ensures r[|r| - 1].StoreBits? <==> PassedAsBits(db, ty)
    ensures r[|r| - 1].StoreAddress? <==> PassedByAddress(db, ty)
    ensures r[|r| - 1].StoreObjectPtr? <==> PassedAsObject(db, ty)
    ensures r[|r| - 1].StoreBits? && |r| == 2 ==> Widening(NameOrEmpty(db, ty)) == Some(r[0].conv)
    ensures PassedAsBits(db, ty) ==> (|r| == 2 <==> Widening(NameOrEmpty(db, ty)).Some?)
    ensures r[|r| - 1].StoreObjectPtr? ==>
              |r| == 2 && r[0].Convert? && r[0].conv == (if NameOrEmpty(db, ty) == "System.String" then CreateString else CastIObject)
  {
    var td := TypeDefAt(db, ty);
    if td.isValueType then
      if td.isPrimitive then
        match Widening(NameOrEmpty(db, ty))
        case Some(c) => [Convert(arg, c), StoreBits(i, arg + "__conv")]
        case None => [StoreBits(i, arg)]
      else [StoreAddress(i, arg)]
    else
      [Convert(arg, if NameOrEmpty(db, ty) == "System.String" then CreateString else CastIObject),
       StoreObjectPtr(i, arg + "__conv")]
  }

  /** Packing parameter `i`: untyped parameters are skipped; a typed one
      reads its argument name by position, which fails when the lowered
      list is shorter. */
  function PackParam(db: Tdb, i: nat, p: Param, names: seq<string>): Result<seq<Stmt>> {
    if p.ty.None? then Ok([])
    else if i >= |names| then Throws(ArgumentOutOfRange)
    else Ok(ArgStmts(db, i, p.ty.value, names[i]))
  }

  function Pack(db: Tdb, ps: seq<Param>, names: seq<string>): Result<seq<Stmt>>
    decreases |ps|
  {
    if ps == [] then Ok([])
    else
      match Pack(db, ps[..|ps| - 1], names)
      case Throws(e) => Throws(e)
      case Ok(s) =>
        match PackParam(db, |ps| - 1, ps[|ps| - 1], names)
        case Throws(e) => Throws(e)
        case Ok(s') => Ok(s + s')
  }

  /** The slots written by the store statements of `ss`, in order. */
  function StoreSlots(ss: seq<Stmt>): seq<nat> {
    if ss == [] then []
    else (if IsStore(ss[0]) then [ss[0].slot] else []) + StoreSlots(ss[1..])
  }

  /** The positions of the typed parameters, ascending. */
  function TypedSlots(ps: seq<Param>): seq<nat>
    decreases |ps|
  {
    if ps == [] then []
    else TypedSlots(ps[..|ps| - 1]) + (if ps[|ps| - 1].ty.Some? then [|ps| - 1] else [])
  }

  lemma {:induction false} StoreSlotsAppend(a: seq<Stmt>, b: seq<Stmt>)
    ensures StoreSlots(a + b) == StoreSlots(a) + StoreSlots(b)
    decreases |a|
  {
    if a == [] {
      assert a + b == b;
    } else {
      var h := if IsStore(a[0]) then [a[0].slot] else [];
      assert (a + b)[0] == a[0];
      assert (a + b)[1..] == a[1..] + b;
      StoreSlotsAppend(a[1..], b);
      assert StoreSlots(a + b) == h + StoreSlots(a[1..] + b);
      assert StoreSlots(a) == h + StoreSlots(a[1..]);
    }
  }

  lemma ArgStmtsStoreOnce(db: Tdb, i: nat, ty: TypeId, arg: string)
    ensures StoreSlots(ArgStmts(db, i, ty, arg)) == [i]
  {
    var r := ArgStmts(db, i, ty, arg);
    if |r| == 2 {
      assert r[1..] == [r[1]];
      assert StoreSlots(r[1..]) == [i];
    } else {
      assert r[1..] == [];
    }
  }

  /** Packing emits only conversions and stores. */
  lemma {:induction false} PackedStmtsAreArgStmts(db: Tdb, ps: seq<Param>, names: seq<string>)
    ensures Pack(db, ps, names).Ok? ==> forall s :: s in Pack(db, ps, names).value ==> s.Convert? || IsStore(s)
    decreases |ps|
  {
    if ps != [] {
      PackedStmtsAreArgStmts(db, ps[..|ps| - 1], names);
    }
  }

  /** Packing fails, with ArgumentOutOfRangeException, exactly when some
      typed parameter's position is past the end of the argument names. */
  lemma {:induction false} PackFailsOnMissingName(db: Tdb, ps: seq<Param>, names: seq<string>)
    ensures Pack(db, ps, names).Throws? <==> exists i :: 0 <= i < |ps| && ps[i].ty.Some? && i >= |names|
    ensures Pack(db, ps, names).Throws? ==> Pack(db, ps, names).error == ArgumentOutOfRange
    decreases |ps|
  {
    if ps != [] {
      var pre := ps[..|ps| - 1];
      PackFailsOnMissingName(db, pre, names);
      assert forall i :: 0 <= i < |pre| ==> pre[i] == ps[i];
    }
  }

  /** On success every typed parameter is stored exactly once, into its own
      slot, in parameter order, and nothing else is stored. */
  lemma {:induction false} PackStoresEachTypedParameter(db: Tdb, ps: seq<Param>, names: seq<string>)
    requires Pack(db, ps, names).Ok?
    ensures StoreSlots(Pack(db, ps, names).value) == TypedSlots(ps)
    decreases |ps|
  {
    if ps != [] {
      var pre := ps[..|ps| - 1];
      var p := ps[|ps| - 1];
      PackStoresEachTypedParameter(db, pre, names);
      var s := Pack(db, pre, names).value;
      var s' := PackParam(db, |ps| - 1, p, names).value;
      StoreSlotsAppend(s, s');
      if p.ty.Some? {
        ArgStmtsStoreOnce(db, |ps| - 1, p.ty.value, names[|ps| - 1]);
      }
    }
  }

  /** A store statement agrees with how its parameter's type is passed. */
  predicate StoreMatchesType(db: Tdb, ps: seq<Param>, s: Stmt) {
    IsStore(s) ==>
      && s.slot < |ps| && ps[s.slot].ty.Some?
      && (s.StoreBits? <==> PassedAsBits(db, ps[s.slot].ty.value))
      && (s.StoreAddress? <==> PassedByAddress(db, ps[s.slot].ty.value))
      && (s.StoreObjectPtr? <==> PassedAsObject(db, ps[s.slot].ty.value))
  }

  /** Primitives travel as bits, other value types by address, references
      as object pointers. */
  lemma {:induction false} PackStoresByKind(db: Tdb, ps: seq<Param>, names: seq<string>)
    requires Pack(db, ps, names).Ok?
    ensures forall s :: s in Pack(db, ps, names).value ==> StoreMatchesType(db, ps, s)
    decreases |ps|
  {
    if ps != [] {
      var pre := ps[..|ps| - 1];
      PackStoresByKind(db, pre, names);
      forall s | s in Pack(db, pre, names).value ensures StoreMatchesType(db, ps, s) {
        assert StoreMatchesType(db, pre, s);
        if IsStore(s) {
          assert ps[s.slot] == pre[s.slot];
        }
      }
    }
  }

  /** The packing loop of GenerateValueTypeMethods. */
  method PackArguments(db: Tdb, ps: seq<Param>, names: seq<string>) returns (r: Result<seq<Stmt>>)
    ensures r == Pack(db, ps, names)
  {
    var bodyStatements: seq<Stmt> := [];
    var i := 0;
    while i < |ps|
      invariant 0 <= i <= |ps|
      invariant Pack(db, ps[..i], names) == Ok(bodyStatements)
    {
      PackSnoc(db, ps, names, i, bodyStatements);
      var param := ps[i];
      if param.ty.Some? {
        if i >= |names| {
          PackStopsAt(db, ps, names, i);
          return Throws(ArgumentOutOfRange);
        }
        var argName := names[i];
        bodyStatements := bodyStatements + ArgStmts(db, i, param.ty.value, argName);
      } else {
        assert bodyStatements + [] == bodyStatements;
      }
      i := i + 1;
    }
    assert ps[..i] == ps;
    r := Ok(bodyStatements);
  }

  lemma PackSnoc(db: Tdb, ps: seq<Param>, names: seq<string>, i: nat, s: seq<Stmt>)
    requires i < |ps| && Pack(db, ps[..i], names) == Ok(s)
    ensures PackParam(db, i, ps[i], names).Ok? ==>
              Pack(db, ps[..i + 1], names) == Ok(s + PackParam(db, i, ps[i], names).value)
  {
    assert ps[..i + 1][..i] == ps[..i];
  }

  lemma {:induction false} PackStopsAt(db: Tdb, ps: seq<Param>, names: seq<string>, i: nat)
    requires i < |ps| && ps[i].ty.Some? && i >= |names|
    requires Pack(db, ps[..i], names).Ok?
    ensures Pack(db, ps, names) == Throws(ArgumentOutOfRange)
  {
    PackFailsOnMissingName(db, ps, names);
    assert ps[i].ty.Some? && i >= |names|;
  }

  // ---------------------------------------------------------------------
  // Return values

  /** GenerateReturnValueHandler. Primitive return types read the matching
      member of the raw result; other return types branch on the type that
      contains the method (not on the return type). */
  function ReturnValueHandler(db: Tdb, t: TypeDef, ret: TypeId, actual: TypeSyntax, handle: string): (r: Result<Stmt>)
    ensures r.Ok? ==> IsReturn(r.value)
    ensures r.Throws? ==> r.error == NotImplemented
  {
    if TypeDefAt(db, ret).isPrimitive then
      var n := NameOrEmpty(db, ret);
      if n == "System.Single" then Ok(ReturnFloatFromDouble)
      else if n == "System.Double" then Ok(ReturnResultField(DoubleField))
      else if n == "System.SByte" then Ok(ReturnResultField(SByteField))
      else if n == "System.Int16" then Ok(ReturnResultField(Int16Field))
      else if n == "System.Int32" then Ok(ReturnResultField(Int32Field))
      else if n == "System.Int64" then Ok(ReturnResultField(Int64Field))
      else if n == "System.Byte" then Ok(ReturnResultField(ByteField))
      else if n == "System.UInt16" then Ok(ReturnResultField(WordField))
      else if n == "System.UInt32" then Ok(ReturnResultField(DWordField))
      else if n == "System.UInt64" then Ok(ReturnResultField(QWordField))
      else if n == "System.Boolean" then Ok(ReturnBoolFromByte)
      else Throws(NotImplemented)
    else if t.isValueType || t.isEnum then
      Ok(ReturnReinterpret(actual))
    else
      match t.vmObjType
      case Object => Ok(ReturnManagedObjectAs(actual, handle))
      case Array => Ok(ReturnManagedObjectAs(actual, handle))
      case String => Ok(ReturnString(handle))
      case _ => Throws(NotImplemented)
  }

  /** The statements that return the unpacked result. */
  predicate IsReturn(s: Stmt) {
    || s.ReturnResultField? || s.ReturnFloatFromDouble? || s.ReturnBoolFromByte?
    || s.ReturnReinterpret? || s.ReturnManagedObjectAs? || s.ReturnString?
  }

  /** The keyword of the value a return statement produces. */
  function ProducedKeyword(s: Stmt): Option<Keyword> {
    match s
    case ReturnFloatFromDouble => Some(FloatKw)
    case ReturnBoolFromByte => Some(BoolKw)
    case ReturnResultField(f) =>
      Some(match f
           case DoubleField => DoubleKw
           case SByteField => SByteKw
           case Int16Field => ShortKw
           case Int32Field => IntKw
           case Int64Field => LongKw
           case ByteField => ByteKw
           case WordField => UShortKw
           case DWordField => UIntKw
           case QWordField => ULongKw)
    case _ => None
  }

  /** The handler's keyword for a primitive is the keyword of one of the
      names the table sends to it. */
  lemma PrimitiveReturnKeyword(db: Tdb, t: TypeDef, ret: TypeId, actual: TypeSyntax, handle: string)
    requires TypeDefAt(db, ret).isPrimitive
    ensures var r := ReturnValueHandler(db, t, ret, actual, handle);
            r.Ok? ==> ProducedKeyword(r.value).Some?
                      && PrimitiveKeyword(NameOrEmpty(db, ret)) == ProducedKeyword(r.value)
  {
    var r := ReturnValueHandler(db, t, ret, actual, handle);
    if r.Ok? {
      assert NameOrEmpty(db, ret) in ClrNames(ProducedKeyword(r.value).value);
      KeywordTableComplete(NameOrEmpty(db, ret), ProducedKeyword(r.value).value);
    }
  }

  /** The handler rejects exactly the primitives whose keyword it has no
      member for. */
  lemma PrimitiveReturnRejects(db: Tdb, t: TypeDef, ret: TypeId, actual: TypeSyntax, handle: string)
    requires TypeDefAt(db, ret).isPrimitive
    ensures ReturnValueHandler(db, t, ret, actual, handle).Throws? <==>
              NameOrEmpty(db, ret) in {"System.Char", "System.IntPtr", "System.UIntPtr"}
              || PrimitiveKeyword(NameOrEmpty(db, ret)).None?
              || PrimitiveKeyword(NameOrEmpty(db, ret)) == Some(StringKw)
              || PrimitiveKeyword(NameOrEmpty(db, ret)) == Some(ObjectKw)
  {
    PrimitiveReturnKeyword(db, t, ret, actual, handle);
  }

  /** For a primitive return type the handler reads exactly the member whose
      keyword is the one the keyword table gives the type's name, so the
      returned value has the method's declared type (when no rename or
      sanitising changes the name); primitives outside the table (char,
      pointer-sized integers) are rejected. */
  lemma PrimitiveReturnMatchesDeclaredType(db: Tdb, env: Env, t: TypeDef, ret: TypeId, actual: TypeSyntax, handle: string)
    requires TypeDefAt(db, ret).isPrimitive
    ensures var r := ReturnValueHandler(db, t, ret, actual, handle);
            r.Ok? ==> ProducedKeyword(r.value).Some?
                      && PrimitiveKeyword(NameOrEmpty(db, ret)) == ProducedKeyword(r.value)
    ensures ReturnValueHandler(db, t, ret, actual, handle).Throws? <==>
              NameOrEmpty(db, ret) in {"System.Char", "System.IntPtr", "System.UIntPtr"}
              || PrimitiveKeyword(NameOrEmpty(db, ret)).None?
              || PrimitiveKeyword(NameOrEmpty(db, ret)) == Some(StringKw)
              || PrimitiveKeyword(NameOrEmpty(db, ret)) == Some(ObjectKw)
    ensures ret !in env.typeFullRenames && env.fixBadChars(NameOrEmpty(db, ret)) == NameOrEmpty(db, ret)
            && ReturnValueHandler(db, t, ret, actual, handle).Ok? ==>
              MakeProperType(db, env, Some(ret)) == Predefined(ProducedKeyword(ReturnValueHandler(db, t, ret, actual, handle).value).value)
  {
    PrimitiveReturnKeyword(db, t, ret, actual, handle);
    PrimitiveReturnRejects(db, t, ret, actual, handle);
  }

  /** Inside a struct every non-primitive return value is reinterpreted in
      place; the reference-type conversions are never reached. */
  lemma StructReturnsReinterpret(db: Tdb, t: TypeDef, ret: TypeId, actual: TypeSyntax, handle: string)
    requires t.isValueType && !TypeDefAt(db, ret).isPrimitive
    ensures ReturnValueHandler(db, t, ret, actual, handle) == Ok(ReturnReinterpret(actual))
  {
  }

  // ---------------------------------------------------------------------
  // Methods

  /** Methods of a struct that hide the ones every value type inherits. */
  const ValueTypeMethods: set<string> := {"Equals", "GetHashCode", "ToString"}

  /** What the per-method builder of a struct produces: a declaration with
      its key and handle, or the null the builder returns for a method it
      skips. Unlike the reference-type builder's output, the nulls are not
      filtered out before AddMembers. */
  datatype ValueEmitted =
    | VSkip
    | VEmit(decl: MemberDecl, key: string, internal: MemberDecl)

  /** The body of a struct method: result slot, packed arguments, pinned
      `this`, raw call, unpacked result. */
  function ValueMethodBody(isVoid: bool, declaredParams: nat, packed: seq<Stmt>, actualName: string,
                           handle: string, handler: Stmt): seq<Stmt> {
    (if isVoid then [] else [DeclareInvokeResult])
    + (if declaredParams > 0 then [AllocArgSlots(declaredParams)] + packed + [PinArgs] else [])
    + [PinThis(actualName)]
    + [if isVoid then InvokeRaw(handle, declaredParams > 0) else AssignInvokeRaw(handle, declaredParams > 0)]
    + (if isVoid then [] else [handler])
  }

  /** The per-method builder of GenerateValueTypeMethods. */
  function BuildValueMethod(db: Tdb, env: Env, t: TypeDef, actualName: string, m: Method): Result<ValueEmitted>
    requires IsValidMethod(db, m)
  {
    if m.name.value == "sortCountList" then Ok(VSkip)
    else if m.runtime.NoRuntimeMethod? then Ok(VSkip)
    else
      var bad := if |m.params| > 0 then BadParamCheck(db, m.params) else Ok(false);
      match bad
      case Throws(e) => Throws(e)
      case Ok(true) => Ok(VSkip)
      case Ok(false) => FinishValueMethod(db, env, t, actualName, m, LoweredFor(db, env, m))
  }

  /** The lowered runtime parameters of a struct method; methods without
      declared parameters are never lowered. */
  function LoweredFor(db: Tdb, env: Env, m: Method): Lowered {
    if |m.params| > 0 && m.runtime.Parameters? then Lower(db, env, m.runtime.params) else NoParams
  }

  /** The handle field name of a method. */
  function MethodHandleName(m: Method): string
    requires m.name.Some?
  {
    InternalName(m.name.value, m.index)
  }

  /** The statement that unpacks the result of a struct method. */
  function StructResultHandler(db: Tdb, env: Env, t: TypeDef, m: Method): Result<Stmt>
    requires IsValidMethod(db, m)
  {
    if ReturnTypeName(db, m).value == "System.Void" then Ok(ThrowNotImplemented)
    else ReturnValueHandler(db, t, m.returnType.value, MakeProperType(db, env, m.returnType), MethodHandleName(m))
  }

  /** Packing, the raw call and the result handler of a struct method
      that passed the early exits. */
  function FinishValueMethod(db: Tdb, env: Env, t: TypeDef, actualName: string, m: Method, l: Lowered)
    : Result<ValueEmitted>
    requires IsValidMethod(db, m)
  {
    var name := m.name.value;
    var rt := MakeProperType(db, env, m.returnType);
    var handle := MethodHandleName(m);
    var isVoid := ReturnTypeName(db, m).value == "System.Void";
    match Pack(db, m.params, l.argNames)
    case Throws(e) => Throws(e)
    case Ok(packed) =>
      match StructResultHandler(db, env, t, m)
      case Throws(e) => Throws(e)
      case Ok(h) =>
        var mods := [Public] + (if name in ValueTypeMethods then [New] else []) + [Unsafe];
        var body := ValueMethodBody(isVoid, |m.params|, packed, actualName, handle, h);
        Ok(VEmit(MethodDecl(name, rt, mods, MethodAttrs(name, m.index), l.params, Block(body)),
                 SignatureKey(db, env, name, m), HandleField(handle, MethodHandle(m.signature))))
  }

  /** The layout of a struct method body, position by position: the result
      slot when the method returns something; when it declares parameters,
      one argument slot per declared parameter, the packed arguments and
      the pinned slot buffer; the pinned `this`; the raw call, which passes
      the slot buffer when there are parameters and `0, 0` otherwise; and
      the result handler last when the method returns something. */
  predicate StructBodyLayout(b: seq<Stmt>, isVoid: bool, declaredParams: nat, packed: seq<Stmt>, actualName: string,
                             handle: string, handler: Stmt)
  {
    var k := if isVoid then 0 else 1;
    && |b| == 2 * k + 2 + (if declaredParams > 0 then |packed| + 2 else 0)
    && (!isVoid ==> b[0] == DeclareInvokeResult)
    && (declaredParams > 0 ==>
          b[k] == AllocArgSlots(declaredParams) && b[k + 1..k + 1 + |packed|] == packed
          && b[k + 1 + |packed|] == PinArgs)
    && (declaredParams == 0 ==> forall s :: s in b ==> !s.AllocArgSlots? && !s.PinArgs?)
    && b[|b| - 2 - k] == PinThis(actualName)
    && b[|b| - 1 - k] == (if isVoid then InvokeRaw(handle, declaredParams > 0)
                          else AssignInvokeRaw(handle, declaredParams > 0))
    && (!isVoid ==> b[|b| - 1] == handler)
  }

  /** A struct method is always unsafe and never static (static methods are
      emitted as instance methods on the pinned value), and it returns the
      unpacked raw result exactly when its return type is not System.Void.
      Its body follows StructBodyLayout: one argument slot per declared
      parameter, the packed arguments of all of them, the raw call through
      the method's own handle, and the result handler last. */
  lemma ValueMethodShape(db: Tdb, env: Env, t: TypeDef, actualName: string, m: Method)
    requires IsValidMethod(db, m)
    requires BuildValueMethod(db, env, t, actualName, m).Ok?
    requires BuildValueMethod(db, env, t, actualName, m).value.VEmit?
    ensures var d := BuildValueMethod(db, env, t, actualName, m).value.decl;
            && d.MethodDecl?
            && Unsafe in d.modifiers && Static !in d.modifiers
            && d.body.Block? && |d.body.stmts| >= 2
            && PinThis(actualName) in d.body.stmts
            && (ReturnTypeName(db, m).value == "System.Void" <==> d.body.stmts[0] != DeclareInvokeResult)
            && (ReturnTypeName(db, m).value == "System.Void" <==> d.body.stmts[|d.body.stmts| - 1].InvokeRaw?)
    ensures Pack(db, m.params, LoweredFor(db, env, m).argNames).Ok? && StructResultHandler(db, env, t, m).Ok?
    ensures StructBodyLayout(BuildValueMethod(db, env, t, actualName, m).value.decl.body.stmts,
                             ReturnTypeName(db, m).value == "System.Void", |m.params|,
                             Pack(db, m.params, LoweredFor(db, env, m).argNames).value, actualName,
                             MethodHandleName(m), StructResultHandler(db, env, t, m).value)
  {
    assert BuildValueMethod(db, env, t, actualName, m) == FinishValueMethod(db, env, t, actualName, m, LoweredFor(db, env, m));
    FinishedValueMethodShape(db, env, t, actualName, m, LoweredFor(db, env, m));
  }

  lemma FinishedValueMethodShape(db: Tdb, env: Env, t: TypeDef, actualName: string, m: Method, l: Lowered)
    requires IsValidMethod(db, m)
    requires FinishValueMethod(db, env, t, actualName, m, l).Ok?
    ensures var e := FinishValueMethod(db, env, t, actualName, m, l).value;
            && e.VEmit? && e.decl.MethodDecl?
            && Unsafe in e.decl.modifiers && Static !in e.decl.modifiers
            && e.decl.body.Block? && |e.decl.body.stmts| >= 2
            && PinThis(actualName) in e.decl.body.stmts
            && (ReturnTypeName(db, m).value == "System.Void" <==> e.decl.body.stmts[0] != DeclareInvokeResult)
            && (ReturnTypeName(db, m).value == "System.Void" <==> e.decl.body.stmts[|e.decl.body.stmts| - 1].InvokeRaw?)
    ensures Pack(db, m.params, l.argNames).Ok? && StructResultHandler(db, env, t, m).Ok?
    ensures StructBodyLayout(FinishValueMethod(db, env, t, actualName, m, l).value.decl.body.stmts,
                             ReturnTypeName(db, m).value == "System.Void", |m.params|,
                             Pack(db, m.params, l.argNames).value, actualName,
                             MethodHandleName(m), StructResultHandler(db, env, t, m).value)
  {
    var isVoid := ReturnTypeName(db, m).value == "System.Void";
    FinishedValueMethodBody(db, env, t, actualName, m, l);
    var packed := Pack(db, m.params, l.argNames).value;
    var h := StructResultHandler(db, env, t, m).value;
    PackedStmtsAreArgStmts(db, m.params, l.argNames);
    ValueMethodBodyShape(isVoid, |m.params|, packed, actualName, MethodHandleName(m), h);
  }

  /** A finished struct method is an unsafe, non-static method whose body is
      ValueMethodBody of its packed arguments and result handler. */
  lemma FinishedValueMethodBody(db: Tdb, env: Env, t: TypeDef, actualName: string, m: Method, l: Lowered)
    requires IsValidMethod(db, m)
    requires FinishValueMethod(db, env, t, actualName, m, l).Ok?
    ensures Pack(db, m.params, l.argNames).Ok? && StructResultHandler(db, env, t, m).Ok?
    ensures var e := FinishValueMethod(db, env, t, actualName, m, l).value;
            && e.VEmit? && e.decl.MethodDecl?
            && Unsafe in e.decl.modifiers && Static !in e.decl.modifiers
            && e.decl.body == Block(ValueMethodBody(ReturnTypeName(db, m).value == "System.Void", |m.params|,
                                                    Pack(db, m.params, l.argNames).value, actualName,
                                                    MethodHandleName(m), StructResultHandler(db, env, t, m).value))
  {
  }

  /** See StructBodyLayout. */
  lemma ValueMethodBodyShape(isVoid: bool, declaredParams: nat, packed: seq<Stmt>, actualName: string,
                             handle: string, handler: Stmt)
    requires IsReturn(handler) || handler == ThrowNotImplemented
    requires forall s :: s in packed ==> !s.AllocArgSlots? && !s.PinArgs?
    ensures var b := ValueMethodBody(isVoid, declaredParams, packed, actualName, handle, handler);
            && |b| >= 2 && PinThis(actualName) in b
            && (isVoid <==> b[0] != DeclareInvokeResult)
            && (isVoid <==> b[|b| - 1].InvokeRaw?)
            && StructBodyLayout(b, isVoid, declaredParams, packed, actualName, handle, handler)
  {
    var b := ValueMethodBody(isVoid, declaredParams, packed, actualName, handle, handler);
    if declaredParams > 0 {
      BodyLayoutWithArgs(isVoid, declaredParams, packed, actualName, handle, handler);
    } else {
      BodyLayoutNoArgs(isVoid, packed, actualName, handle, handler);
    }
    assert b[|b| - 2 - (if isVoid then 0 else 1)] == PinThis(actualName);
  }

  lemma BodyLayoutWithArgs(isVoid: bool, declaredParams: nat, packed: seq<Stmt>, actualName: string,
                           handle: string, handler: Stmt)
    requires declaredParams > 0
    ensures StructBodyLayout(ValueMethodBody(isVoid, declaredParams, packed, actualName, handle, handler),
                             isVoid, declaredParams, packed, actualName, handle, handler)
  {
    var b := ValueMethodBody(isVoid, declaredParams, packed, actualName, handle, handler);
    var head := if isVoid then [] else [DeclareInvokeResult];
    var args := [AllocArgSlots(declaredParams)] + packed + [PinArgs];
    var call := if isVoid then InvokeRaw(handle, true) else AssignInvokeRaw(handle, true);
    var tail := if isVoid then [] else [handler];
    assert b == head + args + [PinThis(actualName)] + [call] + tail;
    BodyParts(head, args, PinThis(actualName), call, tail);
    var k := |head|;
    assert args[1..1 + |packed|] == packed;
    assert b[k + 1..k + 1 + |packed|] == args[1..1 + |packed|];
  }

  lemma BodyLayoutNoArgs(isVoid: bool, packed: seq<Stmt>, actualName: string, handle: string, handler: Stmt)
    requires IsReturn(handler) || handler == ThrowNotImplemented
    ensures StructBodyLayout(ValueMethodBody(isVoid, 0, packed, actualName, handle, handler),
                             isVoid, 0, packed, actualName, handle, handler)
  {
    var b := ValueMethodBody(isVoid, 0, packed, actualName, handle, handler);
    if isVoid {
      assert b == [PinThis(actualName), InvokeRaw(handle, false)];
    } else {
      assert b == [DeclareInvokeResult, PinThis(actualName), AssignInvokeRaw(handle, false), handler];
    }
  }

  /** The parts of a body assembled from a head, the argument statements,
      two single statements and a tail. */
  lemma BodyParts(head: seq<Stmt>, args: seq<Stmt>, pin: Stmt, call: Stmt, tail: seq<Stmt>)
    ensures var b := head + args + [pin] + [call] + tail;
            && |b| == |head| + |args| + 2 + |tail|
            && b[..|head|] == head
            && b[|head|..|head| + |args|] == args
            && b[|head| + |args|] == pin
            && b[|head| + |args| + 1] == call
            && b[|head| + |args| + 2..] == tail
  {
    var b := head + args + [pin] + [call] + tail;
    assert b[..|head|] == head;
    assert b[|head|..|head| + |args|] == args;
    assert b[|head| + |args| + 2..] == tail;
  }

  /** A struct method that declares parameters but for which the runtime
      reports no parameter list makes the whole generation fail, since its
      packing looks up argument names that were never produced. */
  lemma MissingParameterInfoFails(db: Tdb, env: Env, t: TypeDef, actualName: string, m: Method)
    requires IsValidMethod(db, m) && m.name.value != "sortCountList"
    requires m.runtime == NoParameterInfo && |m.params| > 0
    requires BadParamCheck(db, m.params) == Ok(false)
    ensures BuildValueMethod(db, env, t, actualName, m) == Throws(ArgumentOutOfRange)
  {
    PackFailsOnMissingName(db, m.params, []);
    assert m.params[0].ty.Some?;
  }

  /** One outcome. The duplicate check consults a set nothing is ever added
      to, so no struct method is dropped as a duplicate. A null outcome adds
      nothing here; ValueMethodsOf fails on it. */
  function CollectValue(acc: Emission, e: ValueEmitted): Emission {
    match e
    case VSkip => acc
    case VEmit(d, _, h) => Emission(acc.decls + [d], acc.internals + [h])
  }

  function CollectAllValue(es: seq<ValueEmitted>): Emission
    decreases |es|
  {
    if es == [] then NoEmission else CollectValue(CollectAllValue(es[..|es| - 1]), es[|es| - 1])
  }

  function BuildAllValue(db: Tdb, env: Env, t: TypeDef, actualName: string, ms: seq<Method>): Result<seq<ValueEmitted>>
    requires forall m :: m in ms ==> IsValidMethod(db, m)
    decreases |ms|
  {
    if ms == [] then Ok([])
    else
      match BuildAllValue(db, env, t, actualName, ms[..|ms| - 1])
      case Throws(e) => Throws(e)
      case Ok(es) =>
        match BuildValueMethod(db, env, t, actualName, ms[|ms| - 1])
        case Throws(e) => Throws(e)
        case Ok(x) => Ok(es + [x])
  }

  function ValueMethodsOf(db: Tdb, env: Env, t: TypeDef, actualName: string, valid: seq<Method>): Result<Emission>
    requires forall m :: m in valid ==> IsValidMethod(db, m)
  {
    match BuildAllValue(db, env, t, actualName, valid)
    case Throws(e) => Throws(e)
    case Ok(es) => if VSkip in es then Throws(NullReference) else Ok(CollectAllValue(es))
  }

  /** The struct builder skips a method exactly when it is named
      sortCountList, when the runtime has no method for it, or when one of
      its parameter types is missing or contains '!'. */
  lemma SkippedValueMethod(db: Tdb, env: Env, t: TypeDef, actualName: string, m: Method)
    requires IsValidMethod(db, m)
    ensures BuildValueMethod(db, env, t, actualName, m) == Ok(VSkip)
            <==> || m.name.value == "sortCountList"
                 || m.runtime.NoRuntimeMethod?
                 || (|m.params| > 0 && BadParamCheck(db, m.params) == Ok(true))
  {
    if && m.name.value != "sortCountList" && !m.runtime.NoRuntimeMethod?
       && (|m.params| == 0 || BadParamCheck(db, m.params) == Ok(false))
    {
      var f := FinishValueMethod(db, env, t, actualName, m, LoweredFor(db, env, m));
      assert BuildValueMethod(db, env, t, actualName, m) == f;
      if f.Ok? {
        FinishedValueMethodShape(db, env, t, actualName, m, LoweredFor(db, env, m));
      }
    }
  }

  /** The outcomes of a successful build are those of each method, in order. */
  lemma {:induction false} BuildAllValueAt(db: Tdb, env: Env, t: TypeDef, actualName: string, ms: seq<Method>,
                                           es: seq<ValueEmitted>, i: nat)
    requires forall m :: m in ms ==> IsValidMethod(db, m)
    requires BuildAllValue(db, env, t, actualName, ms) == Ok(es) && i < |ms|
    ensures |es| == |ms| && BuildValueMethod(db, env, t, actualName, ms[i]) == Ok(es[i])
    decreases |ms|
  {
    var pre := ms[..|ms| - 1];
    assert forall m :: m in pre ==> m in ms;
    var es' := BuildAllValue(db, env, t, actualName, pre).value;
    assert es == es' + [BuildValueMethod(db, env, t, actualName, ms[|ms| - 1]).value];
    if i < |ms| - 1 {
      BuildAllValueAt(db, env, t, actualName, pre, es', i);
      assert ms[i] == pre[i];
    } else if |pre| > 0 {
      BuildAllValueAt(db, env, t, actualName, pre, es', 0);
    }
  }

  /** Struct method generation succeeds exactly when no builder raises an
      exception and no method is skipped: a skipped method leaves a null
      entry, and AddMembers fails on it with NullReferenceException. */
  lemma ValueMethodsOfOk(db: Tdb, env: Env, t: TypeDef, actualName: string, valid: seq<Method>)
    requires forall m :: m in valid ==> IsValidMethod(db, m)
    ensures ValueMethodsOf(db, env, t, actualName, valid).Ok?
            <==> && BuildAllValue(db, env, t, actualName, valid).Ok?
                 && forall i :: 0 <= i < |valid| ==> BuildValueMethod(db, env, t, actualName, valid[i]) != Ok(VSkip)
    ensures BuildAllValue(db, env, t, actualName, valid).Ok? && !ValueMethodsOf(db, env, t, actualName, valid).Ok?
            ==> ValueMethodsOf(db, env, t, actualName, valid) == Throws(NullReference)
  {
    var b := BuildAllValue(db, env, t, actualName, valid);
    if b.Ok? {
      var es := b.value;
      if VSkip in es {
        var i :| 0 <= i < |es| && es[i] == VSkip;
        assert valid != [];
        BuildAllValueAt(db, env, t, actualName, valid, es, 0);
        BuildAllValueAt(db, env, t, actualName, valid, es, i);
      } else {
        forall i | 0 <= i < |valid|
          ensures BuildValueMethod(db, env, t, actualName, valid[i]) != Ok(VSkip)
        {
          BuildAllValueAt(db, env, t, actualName, valid, es, i);
        }
      }
    }
  }

  /** The declarations of all emitted outcomes, in order. */
  function EmittedDecls(es: seq<ValueEmitted>): seq<MemberDecl> {
    if es == [] then [] else (if es[0].VEmit? then [es[0].decl] else []) + EmittedDecls(es[1..])
  }

  lemma {:induction false} EmittedDeclsSnoc(es: seq<ValueEmitted>, e: ValueEmitted)
    ensures EmittedDecls(es + [e]) == EmittedDecls(es) + (if e.VEmit? then [e.decl] else [])
    decreases |es|
  {
    if es != [] {
      assert (es + [e])[1..] == es[1..] + [e];
      EmittedDeclsSnoc(es[1..], e);
    }
  }

  /** Every struct method the builder finishes is declared, overloads with
      the same signature key included. */
  lemma {:induction false} ValueMethodsKeepOverloads(es: seq<ValueEmitted>)
    ensures CollectAllValue(es).decls == EmittedDecls(es)
    decreases |es|
  {
    if es != [] {
      ValueMethodsKeepOverloads(es[..|es| - 1]);
      EmittedDeclsSnoc(es[..|es| - 1], es[|es| - 1]);
      assert es[..|es| - 1] + [es[|es| - 1]] == es;
    }
  }

  /** One step of the struct method loop. */
  method AddValueMethod(acc: Emission, seen: set<string>, e: ValueEmitted) returns (acc': Emission)
    requires seen == {}
    ensures acc' == CollectValue(acc, e)
  {
    acc' := acc;
    match e {
      case VSkip =>
      case VEmit(d, k, h) =>
        acc' := acc'.(internals := acc'.internals + [h]);
        if k !in seen {
          acc' := acc'.(decls := acc'.decls + [d]);
        }
    }
  }

  /** GenerateValueTypeMethods. */
  method GenerateValueTypeMethods(db: Tdb, env: Env, t: TypeDef, actualName: string, methods: seq<Method>)
    returns (r: Result<Emission>)
    ensures r == ValueMethodsOf(db, env, t, actualName, ValidMethodsOf(db, methods))
  {
    if |methods| == 0 {
      return Ok(NoEmission);
    }
    var seenMethodSignatures: set<string> := {};
    var validMethods := GetValidMethods(db, methods);
    var acc := NoEmission;
    var anyNull := false;
    ghost var es: seq<ValueEmitted> := [];
    var i := 0;
    while i < |validMethods|
      invariant 0 <= i <= |validMethods|
      invariant BuildAllValue(db, env, t, actualName, validMethods[..i]) == Ok(es)
      invariant acc == CollectAllValue(es)
      invariant anyNull <==> VSkip in es
    {
      var m := validMethods[i];
      var e := BuildValueMethod(db, env, t, actualName, m);
      BuildAllValueStep(db, env, t, actualName, validMethods, i, es);
      if e.Throws? {
        return Throws(e.error);
      }
      acc := AddValueMethod(acc, seenMethodSignatures, e.value);
      anyNull := anyNull || e.value.VSkip?;
      CollectAllValueSnoc(es, e.value);
      es := es + [e.value];
      i := i + 1;
    }
    assert validMethods[..i] == validMethods;
    if anyNull {
      // AddMembers dereferences every entry of the array it is given
      return Throws(NullReference);
    }
    r := Ok(acc);
  }

  lemma {:induction false} BuildAllValueStep(db: Tdb, env: Env, t: TypeDef, actualName: string, ms: seq<Method>, i: nat, es: seq<ValueEmitted>)
    requires forall m :: m in ms ==> IsValidMethod(db, m)
    requires i < |ms|
    requires BuildAllValue(db, env, t, actualName, ms[..i]) == Ok(es)
    ensures BuildValueMethod(db, env, t, actualName, ms[i]).Ok? ==>
              BuildAllValue(db, env, t, actualName, ms[..i + 1]) == Ok(es + [BuildValueMethod(db, env, t, actualName, ms[i]).value])
    ensures BuildValueMethod(db, env, t, actualName, ms[i]).Throws? ==>
              BuildAllValue(db, env, t, actualName, ms) == Throws(BuildValueMethod(db, env, t, actualName, ms[i]).error)
    decreases |ms|
  {
    assert ms[..i + 1][..i] == ms[..i];
    if BuildValueMethod(db, env, t, actualName, ms[i]).Throws? {
      if i == |ms| - 1 {
        assert ms[..|ms| - 1] == ms[..i];
      } else {
        assert ms[..|ms| - 1][..i] == ms[..i];
        BuildAllValueStep(db, env, t, actualName, ms[..|ms| - 1], i, es);
      }
    }
  }

  lemma CollectAllValueSnoc(es: seq<ValueEmitted>, e: ValueEmitted)
    ensures CollectAllValue(es + [e]) == CollectValue(CollectAllValue(es), e)
  {
    assert (es + [e])[..|es|] == es;
  }
}
